=== FILE: README.md ===
# roomdetection, modelled in Dafny

This project models the core of *roomdetection*, a blueprint room-detection system. The user
uploads a floor-plan image. The browser client validates it and sends it to a detection
backend with retries. It then converts the returned rooms from the detector's 0..1000
normalised space into image pixels, and lets the user select, drag, delete and export them.
There are two backends:
- a contour-based detector behind a serverless handler;
- a neural (YOLO) service.

Both backends post-process the raw detections: normalisation by truncation, the confidence
score, the area window, greedy suppression of overlapping boxes, id assignment and sorting.
The contour backend also parses the multipart request by hand.

One module per source unit, one file per module:

| module | file | models |
|---|---|---|
| `Wrappers` | wrappers.dfy | `Option` / `Result` (standing for `undefined`/`None` and thrown errors) |
| `Text` | text.dfy | the string operations the code relies on: `split`, `find`, `in`, `startswith`, `strip`, `lower`, `pop`, `str(n)`, `f"{n:03d}"`, `encode('latin-1')` |
| `Sorting` | sorting.dfy | `sorted(..., reverse=True)` / `list.sort(..., reverse=True)` on a numeric key |
| `Sequences` | sequences.dfy | the `for idx, x in enumerate(...)`: `append` loop both backends use |
| `Types` | types.dfy | `src/types/blueprint.ts` |
| `Coordinates` | coordinates.dfy | `src/utils/coordinates.ts` |
| `Validation` | validation.dfy | `src/utils/validation.ts` |
| `UploadZone` | upload_zone.dfy | `src/components/upload/UploadZone.tsx` |
| `DetectionClient` | detection_client.dfy | `src/services/api.ts` |
| `Workflow` | workflow.dfy | `src/App.tsx` (the class `Workflow.App` holds the component state) |
| `Canvas` | canvas.dfy | `src/components/canvas/BlueprintCanvas.tsx` (the class `Canvas.CanvasView` holds scale and stage size) |
| `ControlPanel` | control_panel.dfy | `src/components/common/ControlPanel.tsx` |
| `RoomDetector` | room_detector.dfy | `backend/lambda/room_detector.py`: post-processing and `detect_rooms` |
| `LambdaHandler` | lambda_handler.dfy | `backend/lambda/room_detector.py`: `parse_multipart` and `lambda_handler` |
| `YoloService` | yolo_service.dfy | `backend/yolo-service/app.py`: the `/detect` endpoint |

Numbers are exact (`real` for JavaScript numbers and Python floats, `int` for Python ints).
`Math.round` is `Floor(v + 0.5)` and Python `int()` on a float truncates toward zero.

Several things the programs cannot compute themselves are parameters:
- the HTTP transport: a sequence of simulated outcomes, one per request issued;
- image width and height;
- clock readings;
- base64 decoding;
- contour analysis: a contour is its area, vertex count, convexity and bounding rectangle;
- YOLO inference: image size and boxes, or an error message.

Every loop in the source is a `method` with loop invariants, and each such method is proved
against a specification function:
- the retry loop;
- the area filter;
- the room-building loops;
- both loops of the suppression;
- both loops of the multipart parser;
- the header search;
- the sorts.

The App component's state is the class `Workflow.App`, and its handlers are methods that
state their whole new state.

Some behaviours of the code are easy to misread; the model states what the code does:
- **Late detection result after reprocess.** `src/App.tsx` has no guard (such as a generation
  counter) against a detection that resolves after a reprocess: the late result is applied to
  the reset state. `Workflow.LateResultAfterReprocess` proves this: status becomes success,
  with rooms and no blueprint.
- **Rooms outside `success`.** The rooms are cleared only on reprocess. A new file selection
  (`Workflow.App.BeginFileSelect`) and a failed detection (`Workflow.App.CompleteDetection`)
  keep the previous rooms, so rooms can be present in `processing` and `error`.
- **Selecting an unknown id.** `handleRoomSelect` stores any id without checking it
  (`Workflow.App.HandleRoomSelect`), and then no room is drawn as selected
  (`Workflow.AtMostOneSelected`).
- **Request count.** `MAX_RETRIES = 3` counts retries, not requests: the client issues up to
  4 requests per call (`DetectionClient.RequestWithRetry`).
- **The `uploading` status.** The status type lists it, but no handler ever sets it
  (`Workflow.App.Valid`).
- **The model selector.** Nothing can choose a model. `src/App.tsx` passes `detectionModel`
  and `onModelChange` to the control panel, but its props
  (`src/components/common/ControlPanel.tsx:8-16`) declare neither, so `setDetectionModel` is
  never called and the model stays opencv (`Workflow.App.Valid`). `detectRooms` ignores the
  model anyway: there is one base URL and one timeout.

## Model

| member | source | states |
|---|---|---|
| Types.StatusesAreExactlyFive | src/types/blueprint.ts:80-86 | every processing status is one of idle, uploading, processing, success, error, and their five wire names are distinct |
| Types.ErrorTypesAreExactlyFive | src/types/blueprint.ts:93-99 | every error kind is one of the five listed, with five distinct wire names |
| Types.ModelsAreExactlyTwo | src/types/blueprint.ts:8-11 | the detection model is opencv or yolo and nothing else |
| Coordinates.Round | src/utils/coordinates.ts:43-46 | `Math.round` gives the integer within half of the value, halves going up |
| Coordinates.NormalizedToPixel | src/utils/coordinates.ts:11-24 | the far edge (`x + width`, `y + height`) lands at `x_max/1000·W` and `y_max/1000·H` |
| Coordinates.ReversedBoxHasNegativeSize | src/utils/coordinates.ts:21-22 | on a real image the width (height) is negative exactly when the box is reversed on that axis: nothing is rejected |
| Coordinates.AxisToNormalized | src/utils/coordinates.ts:37-47 | one output of `pixelToNormalized` is the nearest integer to the exact inverse |
| Coordinates.PixelToNormalized | src/utils/coordinates.ts:29-48 | all four corners of the result are whole numbers |
| Coordinates.PixelToNormalizedIsNearest | src/utils/coordinates.ts:37-47 | each corner is the exact algebraic inverse rounded to the nearest integer |
| Coordinates.RoundIntegral | src/utils/coordinates.ts:43-46 | rounding a whole number gives it back |
| Coordinates.AxisRoundTrip | src/utils/coordinates.ts:19-47 | a whole-number coordinate scaled to pixels and back is recovered exactly |
| Coordinates.RoundTrip | src/utils/coordinates.ts:11-48 | for a non-degenerate image, `pixelToNormalized(normalizedToPixel(b)) == b` for every integral box |
| Coordinates.WorkedExample | src/utils/coordinates.ts:19-22 | W=600, H=800 and box [100,100,350,300] give x=60, y=80, width=150, height=160 |
| Coordinates.ToCanvasRoom | src/utils/coordinates.ts:59-71 | id, confidence and name hint are carried through, no selected flag is set, and the geometry is the pixel conversion of the box |
| Coordinates.DetectedRoomsToCanvas | src/utils/coordinates.ts:53-73 | length and order are kept; room i becomes the canvas room of input i |
| Coordinates.CanvasRoomsRecoverBoxes | src/utils/coordinates.ts:53-73 | each canvas room keeps its id, and its integral box can be recovered from its pixels |
| Coordinates.ConfidenceColor | src/utils/coordinates.ts:78-82 | success colour iff confidence ≥ 0.8, warning iff 0.6 ≤ c < 0.8, error iff c < 0.6 |
| Coordinates.ColorExamples | src/utils/coordinates.ts:78-82 | 0.92 gets the high colour and 0.55 the low one |
| Validation.FileExtension | src/utils/validation.ts:25 | the extension is `.` followed by the lower-cased text after the last dot |
| Validation.ExtensionWithoutDot | src/utils/validation.ts:25 | a name without a dot gives `.` plus the whole lower-cased name |
| Validation.ExtensionHasOneDot | src/utils/validation.ts:25 | the extension starts with its only dot |
| Validation.SizeInHundredthsMiB | src/utils/validation.ts:20 | the size in MiB to two decimals is the nearest hundredth, halves going up |
| Validation.TwoDigits | src/utils/validation.ts:20 | the two decimals of `toFixed(2)`: exactly two digits whose value is the number |
| Validation.FixedTwoValue | src/utils/validation.ts:20 | the whole part followed by the two decimals reads back as the size in hundredths |
| Validation.FixedTwo | src/utils/validation.ts:20 | `toFixed(2)` of a size in hundredths: digits, a dot, two digits; no leading zero before the dot; the two decimals read as h mod 100 and the digits without the dot read back as h |
| Validation.TooLargeError | src/utils/validation.ts:16-22 | file_too_large with the fixed message, and details "Your file is " + the size in MiB to two decimals + "MB" |
| Validation.InvalidFormatError | src/utils/validation.ts:29-35 | invalid_format with the fixed message, and details "Received: " + the MIME type, or "unknown type" when it is empty |
| Validation.ValidateBlueprintFile | src/utils/validation.ts:14-38 | null iff size ≤ 10 MiB and (MIME type allowed or extension allowed); file_too_large iff size > limit; invalid_format iff within the limit and neither list matches; every error has details |
| Validation.SizeCheckShortCircuits | src/utils/validation.ts:16-22 | two oversized files of the same size fail identically whatever their name or type |
| Validation.LimitIsInclusive | src/utils/validation.ts:7-16 | exactly 10 MiB is never too large |
| Validation.UpperCaseExtension | src/utils/validation.ts:25 | `name.PNG` has extension `.png` |
| Validation.ExtensionFallback | src/utils/validation.ts:26-29 | an allowed extension is accepted whatever the MIME type, even an empty one |
| Validation.UpperCaseTypeRefused | src/utils/validation.ts:8 | no allowed MIME type is upper case |
| Validation.MimeTypeIsCaseSensitive | src/utils/validation.ts:26-35 | `IMAGE/PNG` with a refused extension is invalid_format |
| Validation.GetErrorMessage | src/utils/validation.ts:43-51 | an Error gives its message, a string gives itself, anything else the fixed fallback |
| UploadZone.OnDrop | src/components/upload/UploadZone.tsx:20-32 | an empty drop does nothing; otherwise only the first file is validated, and its error goes to onError or the file to onFileSelect |
| UploadZone.OnlyFirstFileCounts | src/components/upload/UploadZone.tsx:23 | files after the first never change the outcome |
| UploadZone.SelectedIffValid | src/components/upload/UploadZone.tsx:24-31 | the file is selected iff it validates, and an error is raised iff it does not |
| UploadZone.DropzoneAgreesWithValidator | src/components/upload/UploadZone.tsx:36-42 | the widget has the same 10 MiB limit, a single file and the same five extensions; its MIME types are all allowed, but it omits `image/jpg`, which the validator takes |
| DetectionClient.BackoffSchedule | src/services/api.ts:24-36 | the back-off delays are 1000, 2000, 4000 ms, each double the one before |
| DetectionClient.BackoffDelay | src/services/api.ts:24-36 | every delay is a whole positive multiple of the 1000 ms base |
| DetectionClient.IsRetriable | src/services/api.ts:35 | a failure without a response is always retried; one with a status below 500 never is |
| DetectionClient.IsTimeout | src/services/api.ts:65 | the codes `ECONNABORTED` and `ETIMEDOUT` are timeouts, and a failure without a code never is |
| DetectionClient.RetryStopIsUnique | src/services/api.ts:29-50 | for a given transport the client can stop after only one number of requests |
| DetectionClient.RequestWithRetry | src/services/api.ts:29-57 | retries only after a missing response or a 5xx; at most 4 requests; the outcome is the last request's; the sleeps are the back-off schedule; the config counter is left one higher per failure |
| DetectionClient.ServerErrorThenSuccess | src/services/api.ts:35-39 | a 5xx then a success resolves with the success after two requests |
| DetectionClient.ClientErrorIsFinal | src/services/api.ts:35-42 | a 4xx fails after exactly one request |
| DetectionClient.ResponseMessage | src/services/api.ts:83 | the server's message unless absent or empty, else the fixed fallback; never empty |
| DetectionClient.HandleApiError | src/services/api.ts:63-93 | timeouts are processing_failed with the timeout texts; otherwise a missing response is network_error with the client message; a response is processing_failed with the server's message and details; anything else is unknown with its text; never a validation kind |
| DetectionClient.ExhaustedRetriesClassification | src/services/api.ts:35-85 | a failure that was retried is processing_failed or network_error, and processing_failed if a response arrived |
| DetectionClient.AsResult | src/services/api.ts:113-115 | a delivered value is returned; a failure is turned into its AppError |
| DetectionClient.DetectRooms | src/services/api.ts:98-117 | the form always holds the file first and the options only when present; the request goes through the retry policy and its result or classified error is returned |
| DetectionClient.GetPresignedUrl | src/services/api.ts:123-133 | returns `upload_url` of the delivered answer, or the classified error |
| DetectionClient.UploadToS3Request | src/services/api.ts:139-145 | the PUT goes to the presigned URL with the file and its own MIME type |
| DetectionClient.UploadToS3 | src/services/api.ts:139-149 | one attempt; success iff delivered; a failure is exactly `handleApiError` of the thrown error, so processing_failed or network_error |
| Workflow.Over | src/App.tsx:64 | a key present in the patch wins, an absent key keeps the room's value |
| Workflow.Merge | src/App.tsx:64 | `{...room, ...updates}`: every field is the patch's value when present, the room's otherwise |
| Workflow.MergeEmptyIsIdentity | src/App.tsx:64 | an empty patch changes nothing |
| Workflow.MergeIsIdempotent | src/App.tsx:64 | merging the same patch twice equals merging it once |
| Workflow.MergeComposes | src/App.tsx:64 | two merges equal one merge of the combined patch |
| Workflow.UpdateRooms | src/App.tsx:61-67 | same length; rooms with the id are merged, every other room is unchanged, in order |
| Workflow.UpdateUnknownIdIsNoop | src/App.tsx:61-67 | an id no room carries changes nothing |
| Workflow.UpdateIsIdempotent | src/App.tsx:61-67 | repeating an update (even a renaming one) changes nothing more |
| Workflow.DeleteRooms | src/App.tsx:85 | the result only holds rooms of the input whose id differs |
| Workflow.DeleteKeepsOthers | src/App.tsx:85 | every room with another id survives |
| Workflow.DeleteDistributes | src/App.tsx:85 | the filter works piecewise over concatenation, so relative order is kept |
| Workflow.DeleteUnknownIdIsNoop | src/App.tsx:85 | deleting an unknown id changes nothing |
| Workflow.DeleteIsIdempotent | src/App.tsx:85 | deleting twice equals deleting once |
| Workflow.RenderRooms | src/App.tsx:184-187 | same length; room i is drawn selected exactly when its id is the stored one |
| Workflow.AtMostOneSelected | src/App.tsx:184-187 | with distinct ids at most one room is drawn selected, and none with nothing stored |
| Workflow.ExportRoomRoundTrip | src/App.tsx:94-104 | an exported room loses only its selected flag |
| Workflow.ExportRoom | src/App.tsx:94-104 | importing the exported record gives the canvas room back without its selected flag |
| Workflow.ExportDataOf | src/App.tsx:92-106 | the blueprint name (absent without a file), the given timestamp, and every room in order, recoverable but for its selected flag |
| Workflow.App.constructor | src/App.tsx:14-20 | the initial state: idle, no file, empty URL, no rooms, no selection, no error, opencv |
| Workflow.App.BeginFileSelect | src/App.tsx:22-35 | error cleared, file and preview URL stored, status processing; rooms and selection untouched |
| Workflow.App.CompleteDetection | src/App.tsx:37-49 | success replaces the rooms by the converted response and sets success; failure stores the error, sets error and keeps the rooms; nothing else changes |
| Workflow.App.HandleFileSelect | src/App.tsx:22-50 | a delivered response gives success with the converted rooms and no error; a failure gives error with the classified AppError and the old rooms |
| Workflow.App.HandleError | src/App.tsx:52-55 | the error is stored and status becomes error directly; nothing else changes |
| Workflow.App.HandleRoomSelect | src/App.tsx:57-59 | the id is stored unchecked; nothing else changes |
| Workflow.App.HandleRoomUpdate | src/App.tsx:61-67 | the rooms become UpdateRooms of the old rooms; nothing else changes |
| Workflow.App.HandleReprocess | src/App.tsx:75-82 | from any state: no rooms, no selection, no file, empty URL, idle, no error |
| Workflow.App.HandleDeleteRoom | src/App.tsx:84-89 | the rooms are filtered; the selection is cleared only when it was that id |
| Workflow.App.HandleExport | src/App.tsx:91-108 | the export document of the current file and rooms; the state is not changed |
| Workflow.App.CanvasRooms | src/App.tsx:184-187 | room i is drawn selected iff its id is the stored selection |
| Workflow.LateResultAfterReprocess | src/App.tsx:37-49 | a detection that resolves after a reprocess is still applied: success, converted rooms, no blueprint |
| Canvas.FitScale | src/components/canvas/BlueprintCanvas.tsx:39-41 | the scale is at most 1 and at most each container/image ratio, and equals one of the three |
| Canvas.SmallImageIsNotScaled | src/components/canvas/BlueprintCanvas.tsx:39-41 | an image that fits is shown at scale 1 |
| Canvas.StageFitsContainer | src/components/canvas/BlueprintCanvas.tsx:43-47 | the stage (image times scale) fits the container and is never larger than the image |
| Canvas.DrawnAtStageSize | src/components/canvas/BlueprintCanvas.tsx:84-88 | a room is drawn where its normalised box falls on an image of the stage's size |
| Canvas.ScaledRect | src/components/canvas/BlueprintCanvas.tsx:84-88 | at scale 1 the rectangle is the room's own geometry; at a scale in [0, 1] it is never larger than the room |
| Canvas.CanvasView.constructor | src/components/canvas/BlueprintCanvas.tsx:26-28 | before loading: scale 1 and a stage the size of the container |
| Canvas.CanvasView.OnImageLoad | src/components/canvas/BlueprintCanvas.tsx:35-48 | stores the fit scale and sizes the stage to the scaled image, keeping scale ≤ 1 and stage ≤ container |
| Canvas.CanvasView.DrawnRect | src/components/canvas/BlueprintCanvas.tsx:84-88 | at scale 1 a room is drawn at its own pixel geometry |
| Canvas.DragEndUpdate | src/components/canvas/BlueprintCanvas.tsx:52-58 | with a callback, the payload is the room id and a patch holding only the stage x and y; without one, nothing |
| Canvas.DragEndMovesRoom | src/components/canvas/BlueprintCanvas.tsx:52-58 | at any scale other than 1, the stored stage position is redrawn elsewhere |
| Canvas.DragEndExample | src/components/canvas/BlueprintCanvas.tsx:52-58 | at scale 0.5 a room dropped at stage x 200 is redrawn at x 100 |
| Canvas.DragEndUpdateUnscaled | src/components/canvas/BlueprintCanvas.tsx:52-58 | the corrected payload: id and only x and y |
| Canvas.DragEndUnscaledStaysPut | src/components/canvas/BlueprintCanvas.tsx:52-58 | with the division by the scale, the room is redrawn exactly where it was dropped |
| Canvas.ClickSelect | src/components/canvas/BlueprintCanvas.tsx:61-65 | with a callback the room's id is sent; without one nothing happens |
| Canvas.CountBadge | src/components/canvas/BlueprintCanvas.tsx:166-172 | a badge exists iff there are rooms (as the legend), and starts with the count |
| Canvas.BadgeSingular | src/components/canvas/BlueprintCanvas.tsx:169 | one room reads "1 room detected" |
| Canvas.BadgePlural | src/components/canvas/BlueprintCanvas.tsx:169 | more rooms read "N rooms detected" |
| Canvas.LegendVisible | src/components/canvas/BlueprintCanvas.tsx:140 | the legend is hidden without rooms and shown with one or more |
| ControlPanel.AvgConfidence | src/components/common/ControlPanel.tsx:28-30 | 0 for no rooms; otherwise average × count = sum |
| ControlPanel.Sum | src/components/common/ControlPanel.tsx:29 | the `reduce` from 0: 0 for no rooms, the confidence itself for one room |
| ControlPanel.SumWithin | src/components/common/ControlPanel.tsx:29 | the sum of n confidences in [lo, hi] lies in [n·lo, n·hi] |
| ControlPanel.AverageWithin | src/components/common/ControlPanel.tsx:28-30 | the average lies within any bounds all confidences lie within |
| ControlPanel.FindSelected | src/components/common/ControlPanel.tsx:27 | the position of the first room with the selected id, or none when no room has it |
| ControlPanel.SelectedRoom | src/components/common/ControlPanel.tsx:27 | the first room of the list carrying the selected id (no earlier room has it), or none exactly when no room has it (always none with no selection) |
| ControlPanel.DeleteTarget | src/components/common/ControlPanel.tsx:55-75 | delete is offered iff there is a callback and a selected room, and it targets the selected id |
| ControlPanel.DeleteRemovesSelected | src/components/common/ControlPanel.tsx:65-69 | after deleting the offered id no selected room remains |
| ControlPanel.BadgeMatchesColor | src/components/common/ControlPanel.tsx:110-115 | the badge tiers coincide with the three canvas colours |
| ControlPanel.BadgeTier | src/components/common/ControlPanel.tsx:110-115 | high iff confidence ≥ 0.8, medium iff 0.6 ≤ c < 0.8, low iff c < 0.6 |
| ControlPanel.ButtonStates | src/components/common/ControlPanel.tsx:130-156 | accept-all and export need rooms and no disabled flag; reprocess and delete only no disabled flag; export is shown iff it has a callback |
| ControlPanel.ReprocessIsLeastRestricted | src/components/common/ControlPanel.tsx:134-152 | whenever accept or export is enabled so is reprocess; with no rooms only reprocess can be |
| ControlPanel.IdTail | src/components/common/ControlPanel.tsx:100 | `slice(-4)`: the last four characters, or the whole id when shorter |
| ControlPanel.RoomLabel | src/components/common/ControlPanel.tsx:100 | the name hint unless absent or empty, else "Room " and the id's tail |
| RoomDetector.Trunc | backend/lambda/room_detector.py:190-193 | Python `int()`: truncation toward zero on both signs |
| RoomDetector.NormalizeCoordinate | backend/lambda/room_detector.py:190-193 | a coordinate in [0, dim] lands in 0..1000; 0 maps to 0 and the far edge to 1000 |
| RoomDetector.NormalizeCoordinates | backend/lambda/room_detector.py:172-194 | the whole image maps to the box [0, 0, 1000, 1000] |
| RoomDetector.CoordinateInRange | backend/lambda/room_detector.py:186-194 | a coordinate inside the image normalises into 0..1000, the far edge exactly to 1000 |
| RoomDetector.CoordinateMonotone | backend/lambda/room_detector.py:186-194 | truncated normalisation keeps the order of coordinates |
| RoomDetector.NormalizeUsesMatchingDimension | backend/lambda/room_detector.py:186-194 | x components depend only on the width and y components only on the height |
| RoomDetector.NormalizedBoxInRange | backend/lambda/room_detector.py:186-194 | a box inside the image becomes a well-formed box inside 0..1000 |
| RoomDetector.MinArea | backend/lambda/room_detector.py:108 | `max(MIN_ROOM_AREA, 0.5 % of the image)`: at least both, and equal to one of them |
| RoomDetector.MaxArea | backend/lambda/room_detector.py:109 | `min(MAX_ROOM_AREA, 40 % of the image)`: at most both, and equal to one of them |
| RoomDetector.InAreaWindow | backend/lambda/room_detector.py:116 | a contour inside the window is strictly between the absolute room-area limits |
| RoomDetector.BoundingBox | backend/lambda/room_detector.py:130-141 | the corners span exactly the rectangle's width and height |
| RoomDetector.CalculateConfidence | backend/lambda/room_detector.py:144-169 | within [0.7, 0.95]; 0.95 iff four vertices and convex; 0.7 iff neither; 0.85 and 0.8 for one bonus each |
| RoomDetector.CapNeverBinds | backend/lambda/room_detector.py:156-169 | with exact arithmetic the largest sum equals the cap |
| RoomDetector.Round2 | backend/lambda/room_detector.py:295 | `round(x, 2)`: a whole number of hundredths within half a hundredth of x, an even one on a tie |
| RoomDetector.Round2Exact | backend/lambda/room_detector.py:295 | a value that is already a whole number of hundredths is unchanged by rounding |
| RoomDetector.RoundedConfidenceUnchanged | backend/lambda/room_detector.py:144-169 | each of the four confidences (0.7, 0.8, 0.85, 0.95) survives `round(…, 2)` unchanged |
| RoomDetector.WindowEmptyOutside | backend/lambda/room_detector.py:102-117 | images of at most 12,500 or at least 100,000,000 pixels admit no contour |
| RoomDetector.WindowNonEmptyInside | backend/lambda/room_detector.py:102-117 | between those sizes the window is non-empty |
| RoomDetector.KeepInWindow | backend/lambda/room_detector.py:113-124 | only contours of the input whose area lies strictly inside the window are kept |
| RoomDetector.KeepInWindowComplete | backend/lambda/room_detector.py:113-124 | every contour whose area is inside the window is kept |
| RoomDetector.FindRoomContours | backend/lambda/room_detector.py:83-127 | the filtering loop returns exactly the in-window contours in order |
| RoomDetector.RoomId | backend/lambda/room_detector.py:293 | `room_` followed by digits whose value is the index, three of them below 1000 and as many as the number needs above |
| RoomDetector.RoomIdInjective | backend/lambda/room_detector.py:293 | different positions get different ids |
| RoomDetector.CandidateRoom | backend/lambda/room_detector.py:286-297 | the room of contour idx has id `room_` + idx, no name hint, and the contour's confidence after `round(…, 2)`, which is the unrounded one |
| RoomDetector.Candidates | backend/lambda/room_detector.py:286-297 | one room per kept contour, room k built from contour k with id k and its rounded confidence |
| RoomDetector.CandidateIdsUnique | backend/lambda/room_detector.py:286-297 | the candidate ids are distinct |
| RoomDetector.Iou | backend/lambda/room_detector.py:234-246 | zero without a positive-area intersection |
| RoomDetector.IouSymmetric | backend/lambda/room_detector.py:234-246 | IoU does not depend on argument order |
| RoomDetector.IouBounds | backend/lambda/room_detector.py:234-246 | for well-formed boxes IoU lies in [0, 1] |
| RoomDetector.IouSelf | backend/lambda/room_detector.py:234-246 | a box of positive area has IoU 1 with itself |
| RoomDetector.Suppresses | backend/lambda/room_detector.py:240-249 | box j is suppressed only when the boxes share positive area and the IoU exceeds the threshold |
| RoomDetector.SuppressesSymmetric | backend/lambda/room_detector.py:240-249 | suppression does not depend on which box is the earlier one |
| RoomDetector.DisjointNeverSuppress | backend/lambda/room_detector.py:240 | boxes without a positive-area intersection never suppress each other, whatever the threshold, even a negative one |
| RoomDetector.SuppressesAtNonNegativeThreshold | backend/lambda/room_detector.py:240-249 | for a threshold ≥ 0 the intersection guard is redundant: suppression is IoU above the threshold |
| RoomDetector.MarkSuppressed | backend/lambda/room_detector.py:225-249 | the inner loop adds exactly the later unsuppressed positions that share positive area with box i and overlap it beyond the threshold |
| RoomDetector.KeepStep | backend/lambda/room_detector.py:220-251 | keeping position i preserves the loop state: positions, partition and suppressors |
| RoomDetector.SkipStep | backend/lambda/room_detector.py:221-222 | skipping a suppressed position preserves the loop state |
| RoomDetector.FinalState | backend/lambda/room_detector.py:220-253 | after the last position the loop state is the greedy outcome, with no two kept boxes overlapping |
| RoomDetector.SuppressOverlaps | backend/lambda/room_detector.py:217-253 | the kept boxes are an increasing selection starting with the first; each position is kept or suppressed, not both; each suppressed one is overlapped by an earlier kept one; kept boxes do not overlap |
| RoomDetector.PickedIsSubMultiset | backend/lambda/room_detector.py:220-251 | boxes picked at increasing positions occur no more often than in the input |
| RoomDetector.MergeOverlappingBoxes | backend/lambda/room_detector.py:197-253 | at most one box comes back unchanged; otherwise the result is the greedy outcome over the stable descending-confidence order of the boxes (equal confidences keep input order), so it is drawn from the input, sorted by confidence, starts with the most confident box, has no pair that intersects and overlaps above the threshold, and covers every input box |
| RoomDetector.PickedStaySorted | backend/lambda/room_detector.py:215-251 | a selection in order from a confidence-sorted list stays sorted |
| RoomDetector.SurvivorsCoverAll | backend/lambda/room_detector.py:215-251 | the first survivor is the most confident box and every box survived or is overlapped by a more confident survivor |
| RoomDetector.GreedyConflict | backend/lambda/room_detector.py:220-251 | when two greedy outcomes agree before position j, a position kept by one is kept by the other |
| RoomDetector.GreedyKeepsSamePositions | backend/lambda/room_detector.py:220-251 | two greedy outcomes over the same order keep the same positions |
| RoomDetector.GreedyOutcomeIsUnique | backend/lambda/room_detector.py:220-251 | the greedy pass over a given order has one outcome: the same kept positions and survivors |
| RoomDetector.MergeOutcomeIsUnique | backend/lambda/room_detector.py:211-253 | two merges of the same boxes return the same rooms, ties in confidence included |
| RoomDetector.MergeTieKeepsEarlier | backend/lambda/room_detector.py:215-251 | `room_000` [0,0,100,100] and `room_001` [0,0,100,50], both 0.95 with IoU 0.5, merge to `room_000` alone |
| RoomDetector.ReorderSameMembers | backend/lambda/room_detector.py:303-306 | a reordering holds the same rooms |
| RoomDetector.ReorderKeepsNoOverlap | backend/lambda/room_detector.py:303-306 | after reordering, no two different rooms overlap beyond the threshold |
| RoomDetector.ReorderKeepsCovered | backend/lambda/room_detector.py:303-306 | reordering keeps every box covered |
| RoomDetector.ReorderKeepsMergeGuarantees | backend/lambda/room_detector.py:300-306 | sorting by area keeps the merge's non-overlap and coverage |
| RoomDetector.BuildCandidates | backend/lambda/room_detector.py:286-297 | the append loop builds exactly the candidate rooms |
| RoomDetector.DetectRooms | backend/lambda/room_detector.py:256-314 | phase_1_opencv and the elapsed time; the rooms are the merge of the in-window candidates, stably sorted by area descending (equal areas keep merge order), so drawn from the candidates, non-empty when candidates exist, with distinct ids, pairwise not overlapping beyond 0.3, and covering every candidate |
| RoomDetector.DetectedRoomsAreDetermined | backend/lambda/room_detector.py:299-306 | the room list is fully determined by the contours: two lists meeting the characterisation are equal |
| Sequences.MapWithIndex | backend/yolo-service/app.py:126-147 | the enumerate-and-append loop yields one element per input, element k computed from k and input k |
| Sorting.InsertAtKeepsSorted | backend/lambda/room_detector.py:303-306 | inserting between the larger-or-equal and the smaller keys keeps the order |
| Sorting.InsertDesc | backend/lambda/room_detector.py:303-306 | inserting into a sorted list keeps it sorted, adds exactly the element, and places it after every element of equal key |
| Sorting.SortDesc | backend/yolo-service/app.py:150 | `sort(reverse=True)`: sorted by descending key, a permutation of the input, and stable: equal keys keep their input order |
| Sorting.WithKeyAppend | backend/yolo-service/app.py:150 | the elements of one key in a concatenation are those of each half, in order |
| Sorting.InsertKeepsGroups | backend/yolo-service/app.py:150 | inserting after every element of equal or larger key keeps each key's elements in their original order |
| Sorting.StableSortIsUnique | backend/yolo-service/app.py:150 | two descending orderings with the same elements per key, in the same order, are equal: a stable sort has one result |
| Text.IndexFrom | backend/lambda/room_detector.py:350-353 | the first occurrence at or after a position, or none |
| Text.IndexOf | backend/lambda/room_detector.py:350-353 | `find`: the first occurrence, or none exactly when there is none |
| Text.PrefixBeforeFirstIsFree | backend/lambda/room_detector.py:351 | the text before the first separator holds no separator |
| Text.SuffixOfFreeIsFree | backend/lambda/room_detector.py:360 | a suffix of separator-free text is separator-free |
| Text.Split | backend/lambda/room_detector.py:342 | `split`: at least one piece, and no piece contains the separator |
| Text.SplitAtFirst | backend/lambda/room_detector.py:342 | the pieces are the text before the first separator followed by the pieces of the rest |
| Text.SplitJoin | backend/lambda/room_detector.py:342 | joining the pieces with the separator gives the text back |
| Text.SplitOfFree | backend/lambda/room_detector.py:360 | text without the separator splits into itself |
| Text.SplitOnce | backend/lambda/room_detector.py:351 | `split(sep, 1)`: before + sep + after is the text and before has no sep; none exactly when sep is absent |
| Text.RStrip | backend/lambda/room_detector.py:362 | a prefix of the text, not ending in a stripped character, having dropped only stripped characters |
| Text.LStrip | backend/lambda/room_detector.py:331 | a suffix of the text, not starting with a stripped character, having dropped only stripped characters |
| Text.LowerAscii | backend/lambda/room_detector.py:391 | same length; ASCII capitals lowered, every other character kept |
| Text.AfterLast | src/utils/validation.ts:25 | a suffix with no separator, preceded by the separator unless it is the whole text |
| Text.AfterLastUnique | src/utils/validation.ts:25 | those three properties single the suffix out |
| Text.NoSeparatorPiece | src/utils/validation.ts:25 | text without the separator is its own only piece and its own tail |
| Text.AfterLastOfRest | src/utils/validation.ts:25 | the tail after a separator inside the text is the tail of the whole |
| Text.LastPieceOfRest | src/utils/validation.ts:25 | past the first separator, the last piece of the whole is the last piece of the rest |
| Text.LastPieceIsAfterLast | src/utils/validation.ts:25 | `split('.').pop()` is the text after the last dot |
| Text.DigitChar | backend/lambda/room_detector.py:293 | a decimal digit character |
| Text.NatToString | src/components/canvas/BlueprintCanvas.tsx:169 | decimal digits, with no leading zero |
| Text.NatToStringRoundTrip | src/components/canvas/BlueprintCanvas.tsx:169 | reading the digits back gives the number |
| Text.LeadingZeroIgnored | backend/lambda/room_detector.py:293 | a leading zero does not change the value |
| Text.ZeroPad3 | backend/lambda/room_detector.py:293 | `{idx:03d}`: digits whose value is the number, exactly three below 1000, the plain decimal text from 1000 on |
| Text.NatToStringWidth | backend/lambda/room_detector.py:293 | the decimal text of n fits in w characters iff n < 10^w |
| Text.DecimalValueAppend | backend/lambda/room_detector.py:293 | digits followed by digits read as the first value shifted by the second's length plus the second value |
| Text.Latin1Encode | backend/lambda/room_detector.py:365 | fails iff a character is above U+00FF, with Python's UnicodeEncodeError text for the first such character or maximal run of them; otherwise one byte per character with its code |
| Text.EuroEscape | backend/lambda/room_detector.py:365 | the euro sign is written `\u20ac` in the error text |
| Text.Latin1ErrorSingle | backend/lambda/room_detector.py:365 | `"abc€"` fails with "'latin-1' codec can't encode character '\u20ac' in position 3: ordinal not in range(256)" |
| Text.Latin1ErrorRun | backend/lambda/room_detector.py:365 | `"€€x"` fails with "'latin-1' codec can't encode characters in position 0-1: ordinal not in range(256)" |
| Text.FirstWhere | backend/lambda/room_detector.py:345-358 | the position of the first element passing the test, or none exactly when none passes |
| Text.FindFirst | backend/lambda/room_detector.py:330-334 | the scan that stops at the first passing element finds FirstWhere's position |
| LambdaHandler.FirstEqualsAfterName | backend/lambda/room_detector.py:333 | in `boundary=…` the first `=` is the prefix's |
| LambdaHandler.BoundaryValue | backend/lambda/room_detector.py:331-333 | the value after `boundary=`, whitespace-stripped, without surrounding quotes |
| LambdaHandler.ExtractBoundary | backend/lambda/room_detector.py:329-334 | a boundary found never starts or ends with a quote |
| LambdaHandler.ExtractBoundaryIsFirst | backend/lambda/room_detector.py:329-334 | no boundary iff no `;` parameter starts with `boundary=`; otherwise the value of the first one that does |
| LambdaHandler.SplitHeaders | backend/lambda/room_detector.py:350-355 | headers + blank line + content is the part, CRLF form first; none iff neither blank line occurs |
| LambdaHandler.FileContent | backend/lambda/room_detector.py:346-358 | content only for a part not skipped, with a blank line, whose headers name Content-Disposition and filename |
| LambdaHandler.ContentHasNoBoundary | backend/lambda/room_detector.py:360 | content of a boundary-free part splits into itself |
| LambdaHandler.FileContentHasNoBoundary | backend/lambda/room_detector.py:360 | cutting a file part's content at the boundary again leaves it unchanged |
| LambdaHandler.ParseMultipart | backend/lambda/room_detector.py:317-367 | no usable boundary is an error; otherwise the first file part's content, trailing CR/LF/`-` removed, as Latin-1 bytes; no file part is an error |
| LambdaHandler.FindBoundary | backend/lambda/room_detector.py:329-334 | the value of the first `boundary=` parameter, or none |
| LambdaHandler.FileResult | backend/lambda/room_detector.py:341-367 | the "No file found in multipart data" error exactly when no part cut at `--boundary` carries a file (non-empty, not `--`, a blank line, headers naming `Content-Disposition` and `filename`); an encoding failure is never mistaken for it |
| LambdaHandler.FileResultIsFirstFilePart | backend/lambda/room_detector.py:341-365 | a successful result comes from the first part carrying a file: its bytes are the code points of that part's content with the whole trailing run of CR, LF and `-` removed |
| LambdaHandler.ExtractFile | backend/lambda/room_detector.py:341-367 | the bytes of the first part carrying a file, or the no-file error |
| LambdaHandler.NoBoundaryFails | backend/lambda/room_detector.py:336-337 | a content type without a boundary parameter fails whatever the body |
| LambdaHandler.MultipartResult | backend/lambda/room_detector.py:317-367 | a missing or empty boundary is the no-boundary error; bytes come back only with a non-empty boundary |
| LambdaHandler.ContentTypeOf | backend/lambda/room_detector.py:389-393 | none iff no header name is `content-type` in any letter case; otherwise the value of the first header that is |
| LambdaHandler.ImageBytes | backend/lambda/room_detector.py:384-409 | null headers fail first, then a null body, then a base64 decoding error, each with its own message |
| LambdaHandler.HandleEvent | backend/lambda/room_detector.py:370-440 | a failure to get the image bytes (null headers, null body, bad base64, multipart error, non-Latin-1 body) or a detection failure gives 500 with its message; otherwise 200 with the detection |
| LambdaHandler.AnswerShapes | backend/lambda/room_detector.py:416-440 | every answer is 200 with the detection and four headers, or 500 with two headers and "Processing failed" |
| LambdaHandler.ContentTypeCaseInsensitive | backend/lambda/room_detector.py:389-393 | the content-type header is matched in any letter case and the first match wins |
| LambdaHandler.RawBodyFallback | backend/lambda/room_detector.py:405-409 | without a multipart content type the body is passed on as its Latin-1 bytes |
| YoloService.ScaleToRangeBounds | backend/yolo-service/app.py:135-140 | a coordinate inside the image lands in 0..1000, order kept, the far edge on 1000 |
| YoloService.ScaleToRange | backend/yolo-service/app.py:135-140 | 0 maps to 0, the far edge to 1000, and a non-negative coordinate never goes negative |
| YoloService.BoxRoom | backend/yolo-service/app.py:142-147 | the room of box idx has id `room_` + idx, no name hint, and a confidence within half a hundredth of the detector's |
| YoloService.BoxRoomInRange | backend/yolo-service/app.py:135-140 | a box inside the image becomes a well-formed box inside 0..1000, x against the width and y against the height |
| YoloService.DetectorOrderRooms | backend/yolo-service/app.py:129-147 | one room per detector box |
| YoloService.DetectorOrderIdsUnique | backend/yolo-service/app.py:143 | ids in detector order are distinct |
| YoloService.BuildRooms | backend/yolo-service/app.py:126-147 | the append loop builds exactly the detector-order rooms |
| YoloService.DetectEndpoint | backend/yolo-service/app.py:86-167 | 503 first without a model; 500 without a content type; 400 for a non-`image/` type; 500 "Processing failed: …" on an inference error; otherwise yolov8n_phase2, ecs-fargate, the elapsed time and the detector-order rooms sorted by rounded confidence, stably |
| YoloService.DetectedRoomsAreTheBoxes | backend/yolo-service/app.py:143-150 | after the sort there is one room per box, each a box's room, with no name and distinct ids |
| RoomDetector.SubMultisetKeepsUniqueIds | backend/yolo-service/app.py:150 | selecting and reordering rooms with distinct ids keeps them distinct (used for both backends' sorts and the merge) |
| YoloService.DetectedOrderIsDetermined | backend/yolo-service/app.py:145-150 | the room list is fully determined: any two stable descending orderings of the detector-order rooms are equal |
| YoloService.RoundedTieKeepsDetectorOrder | backend/yolo-service/app.py:145-150 | confidences 0.871 and 0.874 both round to 0.87, and the first detected box stays first |

## Left out

- JSON serialisation (the export's 2-space indentation, the handler bodies, `JSON.stringify` of the options), Blob/DOM download and `URL.createObjectURL`: the documents are modelled as values.
- IEEE floating point: arithmetic is exact. Python's `round(confidence, 2)` in both backends is modelled as round-half-even on exact hundredths (`RoomDetector.Round2`); a binary float such as 0.875, stored slightly off its decimal value, may round the other way in Python. The sort then compares the rounded confidences and keeps detector order among equal ones (`YoloService.RoundedTieKeepsDetectorOrder`). The `Math.round(x * 100)` percentage displays are not modelled.
- Clocks (`time.time()`, `new Date().toISOString()`): the elapsed time and the timestamp are parameters.
- axios itself, `setTimeout` sleeps, `FormData`: the transport is a sequence of outcomes, the sleeps are the list of delays.
- async interleaving: handleFileSelect is split at its `await` into `BeginFileSelect` and `CompleteDetection`, so interleavings can be written as call sequences (`LateResultAfterReprocess`); concurrency itself is not modelled.
- `new Image()` dimensions: in `src/App.tsx` the width and height are read when detection completes (possibly 0 if not loaded); they are parameters of `CompleteDetection`.
- OpenCV (preprocessing, Canny, morphology, `findContours`, `contourArea`, `approxPolyDP`, `isContourConvex`, `boundingRect`), PIL decoding and YOLO inference: abstracted to contour records and inference results.
- base64 decoding: a parameter of `HandleEvent`.
- a non-string `body` in the gateway event and non-string header values: bodies and headers are strings.
- Unicode case mapping: `lower()` / `toLowerCase()` are modelled on ASCII letters only.
- `handleAcceptAll` (a console log and an alert), the YOLO `/health` and `/` endpoints, model loading at startup, CORS middleware: no logic to model.
- `src/components/common/ProcessingStatus.tsx` and `src/components/common/index.ts` (styling lookup and re-exports), JSX layout, Konva drawing and styling.
- Cloud infrastructure (`backend/infrastructure/**`) and training scripts (`training/scripts/*`).
- Canvas.FitScale: requires positive image dimensions; for a zero-size image the JavaScript division gives Infinity/NaN, which is not modelled.
- Coordinates.PixelToNormalized: requires non-zero image dimensions; the JavaScript division by zero (Infinity/NaN) is not modelled.
- DetectionClient.RequestWithRetry: requires the simulated transport to hold one outcome per request the client could issue (4).

## Findings

| source | as written | input that shows it | evidently intended | confidence | as-written member | corrected member |
|---|---|---|---|---|---|---|
| src/components/canvas/BlueprintCanvas.tsx:52-58 | drag end stores the shape's stage position `e.target.x()/y()` as the room's image-pixel `x`/`y`, which are multiplied by the scale again when drawn (line 85-86) | scale 0.5 (an image twice the container), room dropped at stage x = 200: stored x = 200, redrawn at stage x = 100 | divide the stage position by the scale before storing it, so the room stays where it was dropped | not executed; the arithmetic is proved | Canvas.DragEndMovesRoom | Canvas.DragEndUnscaledStaysPut |

=== FILE: canvas.dfy ===
/**
 * The blueprint canvas: the scale that fits the image into its container, the stage it
 * sizes, the room geometry it draws, and the payloads that drag and click hand back.
 */
module Canvas {
  import opened Wrappers
  import opened Types
  import Text
  import Coordinates

  /** `Math.min(containerW / imgW, containerH / imgH, 1)`: fit the image, never enlarge it. */
  function FitScale(containerWidth: real, containerHeight: real, imageWidth: real, imageHeight: real): (s: real)
    requires imageWidth > 0.0 && imageHeight > 0.0
    ensures s <= 1.0 && s <= containerWidth / imageWidth && s <= containerHeight / imageHeight
    ensures s == 1.0 || s == containerWidth / imageWidth || s == containerHeight / imageHeight
  {
    var scaleX := containerWidth / imageWidth;
    var scaleY := containerHeight / imageHeight;
    var m := if scaleX <= scaleY then scaleX else scaleY;
    if m <= 1.0 then m else 1.0
  }

  /** A small image is shown at its natural size. */
  lemma SmallImageIsNotScaled(containerWidth: real, containerHeight: real, imageWidth: real, imageHeight: real)
    requires 0.0 < imageWidth <= containerWidth && 0.0 < imageHeight <= containerHeight
    ensures FitScale(containerWidth, containerHeight, imageWidth, imageHeight) == 1.0
  {
    DividesToAtLeastOne(containerWidth, imageWidth);
    DividesToAtLeastOne(containerHeight, imageHeight);
  }

  lemma DividesToAtLeastOne(c: real, d: real)
    requires 0.0 < d <= c
    ensures c / d >= 1.0
  {
    assert c / d * d == c;
  }

  lemma ScaledAxisFits(container: real, image: real, s: real)
    requires image > 0.0 && s <= container / image
    ensures image * s <= container
  {
    assert image * (container / image) == container;
  }

  lemma ScaledAxisNotEnlarged(image: real, s: real)
    requires image > 0.0 && s <= 1.0
    ensures image * s <= image
  {
  }

  /** The stage, the image times the scale, fits the container and is never larger than the image. */
  lemma StageFitsContainer(containerWidth: real, containerHeight: real, imageWidth: real, imageHeight: real)
    requires imageWidth > 0.0 && imageHeight > 0.0
    ensures var s := FitScale(containerWidth, containerHeight, imageWidth, imageHeight);
      && imageWidth * s <= containerWidth && imageHeight * s <= containerHeight
      && imageWidth * s <= imageWidth && imageHeight * s <= imageHeight
  {
    var s := FitScale(containerWidth, containerHeight, imageWidth, imageHeight);
    ScaledAxisFits(containerWidth, imageWidth, s);
    ScaledAxisFits(containerHeight, imageHeight, s);
    ScaledAxisNotEnlarged(imageWidth, s);
    ScaledAxisNotEnlarged(imageHeight, s);
  }

  /** The rectangle drawn for a room: its image-pixel geometry times the scale. */
  function ScaledRect(room: CanvasRoom, scale: real): (r: Coordinates.PixelRect)
    ensures scale == 1.0 ==> r == Coordinates.PixelRect(room.x, room.y, room.width, room.height)
    ensures 0.0 <= scale <= 1.0 && room.width >= 0.0 && room.height >= 0.0 ==>
      0.0 <= r.width <= room.width && 0.0 <= r.height <= room.height
  {
    Coordinates.PixelRect(room.x * scale, room.y * scale, room.width * scale, room.height * scale)
  }

  lemma ScaleAxis(n: real, d: real, s: real)
    ensures n / Coordinates.NormalizedRange * d * s == n / Coordinates.NormalizedRange * (d * s)
  {
  }

  /**
   * Scaling after the conversion is converting at the stage size: a detected room is
   * drawn where its normalised box falls on an image of the stage's dimensions.
   */
  lemma DrawnAtStageSize(room: DetectedRoom, imageWidth: real, imageHeight: real, scale: real)
    ensures ScaledRect(Coordinates.ToCanvasRoom(room, imageWidth, imageHeight), scale)
         == Coordinates.NormalizedToPixel(room.boundingBox, imageWidth * scale, imageHeight * scale)
  {
    var b := room.boundingBox;
    ScaleAxis(b.xMin, imageWidth, scale);
    ScaleAxis(b.yMin, imageHeight, scale);
    ScaleAxis(b.xMax - b.xMin, imageWidth, scale);
    ScaleAxis(b.yMax - b.yMin, imageHeight, scale);
  }

  /** The canvas component's own state: the fit scale and the stage dimensions. */
  class CanvasView {
    const containerWidth: real
    const containerHeight: real
    var scale: real
    var stageWidth: real
    var stageHeight: real
    var imageLoaded: bool

    /** The scale never enlarges, and the stage never outgrows its container. */
    ghost predicate Valid()
      reads this
    {
      scale <= 1.0 && stageWidth <= containerWidth && stageHeight <= containerHeight
    }

    /** Before the image loads: scale 1 and a stage the size of the container. */
    constructor(containerWidth: real, containerHeight: real)
      ensures Valid()
      ensures this.containerWidth == containerWidth && this.containerHeight == containerHeight
      ensures scale == 1.0 && stageWidth == containerWidth && stageHeight == containerHeight && !imageLoaded
    {
      this.containerWidth := containerWidth;
      this.containerHeight := containerHeight;
      scale := 1.0;
      stageWidth := containerWidth;
      stageHeight := containerHeight;
      imageLoaded := false;
    }

    /** The image's `onload`: store the fit scale and size the stage to the scaled image. */
    method OnImageLoad(imageWidth: real, imageHeight: real)
      requires Valid() && imageWidth > 0.0 && imageHeight > 0.0
      modifies this
      ensures Valid()
      ensures scale == FitScale(containerWidth, containerHeight, imageWidth, imageHeight)
      ensures stageWidth == imageWidth * scale && stageHeight == imageHeight * scale
      ensures stageWidth <= imageWidth && stageHeight <= imageHeight
      ensures imageLoaded
    {
      var fitScale := FitScale(containerWidth, containerHeight, imageWidth, imageHeight);
      StageFitsContainer(containerWidth, containerHeight, imageWidth, imageHeight);
      scale := fitScale;
      stageWidth := imageWidth * fitScale;
      stageHeight := imageHeight * fitScale;
      imageLoaded := true;
    }

    /** Where a room is drawn at the current scale. */
    function DrawnRect(room: CanvasRoom): (r: Coordinates.PixelRect)
      reads this
      ensures scale == 1.0 ==> r == Coordinates.PixelRect(room.x, room.y, room.width, room.height)
    {
      ScaledRect(room, scale)
    }
  }

  /**
   * `handleRoomDragEnd` as written: with an update callback it sends the shape's stage
   * position as the room's `x` and `y`, and nothing else.
   */
  function DragEndUpdate(hasCallback: bool, roomId: string, stageX: real, stageY: real): (u: Option<(string, RoomPatch)>)
    ensures u.Some? <==> hasCallback
    ensures u.Some? ==> u.value.0 == roomId
    ensures u.Some? ==> u.value.1 == RoomPatch(None, None, None, Some(stageX), Some(stageY), None, None, None)
  {
    if hasCallback then Some((roomId, RoomPatch(None, None, None, Some(stageX), Some(stageY), None, None, None)))
    else None
  }

  /**
   * Once the scale is not 1, the room is redrawn away from where it was dropped: the
   * stage position is stored as an image-pixel position and multiplied by the scale again.
   */
  lemma DragEndMovesRoom(room: CanvasRoom, roomId: string, stageX: real, stageY: real, scale: real)
    requires scale != 1.0 && stageX != 0.0
    ensures var u := DragEndUpdate(true, roomId, stageX, stageY).value.1;
      ScaledRect(room.(x := u.x.value, y := u.y.value), scale).x != stageX
  {
  }

  /** A concrete case: at scale 0.5 a room dropped at stage x = 200 is redrawn at x = 100. */
  lemma DragEndExample(room: CanvasRoom)
    ensures var u := DragEndUpdate(true, room.id, 200.0, 40.0).value.1;
      ScaledRect(room.(x := u.x.value, y := u.y.value), 0.5).x == 100.0
  {
  }

  /** The drag-end payload converted back to image pixels: the stage position divided by the scale. */
  function DragEndUpdateUnscaled(hasCallback: bool, roomId: string, stageX: real, stageY: real, scale: real)
    : (u: Option<(string, RoomPatch)>)
    requires scale > 0.0
    ensures u.Some? <==> hasCallback
    ensures u.Some? ==> u.value.0 == roomId && u.value.1.x.Some? && u.value.1.y.Some?
    ensures u.Some? ==> u.value.1.(x := None, y := None) == RoomPatch(None, None, None, None, None, None, None, None)
  {
    if hasCallback then Some((roomId, RoomPatch(None, None, None, Some(stageX / scale), Some(stageY / scale), None, None, None)))
    else None
  }

  /** With the division the room is redrawn exactly where it was dropped, at any positive scale. */
  lemma DragEndUnscaledStaysPut(room: CanvasRoom, roomId: string, stageX: real, stageY: real, scale: real)
    requires scale > 0.0
    ensures var u := DragEndUpdateUnscaled(true, roomId, stageX, stageY, scale).value.1;
      var r := ScaledRect(room.(x := u.x.value, y := u.y.value), scale);
      r.x == stageX && r.y == stageY
  {
    var u := DragEndUpdateUnscaled(true, roomId, stageX, stageY, scale).value.1;
    assert u.x.value * scale == stageX;
    assert u.y.value * scale == stageY;
  }

  /** `handleRoomClick` (click or tap): the room's id to the select callback, or nothing without one. */
  function ClickSelect(hasCallback: bool, roomId: string): (selected: Option<string>)
    ensures selected.Some? <==> hasCallback
    ensures selected.Some? ==> selected.value == roomId
  {
    if hasCallback then Some(roomId) else None
  }

  /** The legend is shown only when there are rooms. */
  predicate LegendVisible(roomCount: nat)
    ensures !LegendVisible(0) && (roomCount >= 1 ==> LegendVisible(roomCount))
  {
    roomCount > 0
  }

  /** The count badge: "N room detected" for one room, "N rooms detected" otherwise, absent for none. */
  function CountBadge(roomCount: nat): (badge: Option<string>)
    ensures badge.Some? <==> LegendVisible(roomCount)
    ensures badge.Some? ==> Text.StartsWith(badge.value, Text.NatToString(roomCount) + " ")
  {
    if roomCount > 0 then
      Some(Text.NatToString(roomCount) + " " + (if roomCount == 1 then "room" else "rooms") + " detected")
    else None
  }

  /** The singular is used for exactly one room. */
  lemma BadgeSingular()
    ensures CountBadge(1) == Some("1 room detected")
  {
    assert Text.DigitChar(1) == '1';
    assert Text.NatToString(1) == ['1'];
    assert "1" + " " + "room" + " detected" == "1 room detected";
  }

  /** The plural is used for every count above one. */
  lemma BadgePlural(roomCount: nat)
    requires roomCount > 1
    ensures CountBadge(roomCount).value == Text.NatToString(roomCount) + " rooms detected"
  {
  }
}

=== FILE: control_panel.dfy ===
/**
 * The control panel's derived values: the average confidence, the selected-room lookup,
 * the delete action it offers, the confidence badge and the enablement of its buttons.
 */
module ControlPanel {
  import opened Wrappers
  import opened Types
  import Coordinates
  import Workflow

  /** The `reduce` over the confidences, from the left. */
  function Sum(rooms: seq<CanvasRoom>): (total: real)
    ensures rooms == [] ==> total == 0.0
    ensures |rooms| == 1 ==> total == rooms[0].confidence
  {
    if rooms == [] then 0.0 else Sum(rooms[..|rooms| - 1]) + rooms[|rooms| - 1].confidence
  }

  /** `sum / len` for a non-empty list, exactly 0 for an empty one. */
  function AvgConfidence(rooms: seq<CanvasRoom>): (avg: real)
    ensures rooms == [] ==> avg == 0.0
    ensures rooms != [] ==> avg * (|rooms| as real) == Sum(rooms)
  {
    if |rooms| > 0 then Sum(rooms) / (|rooms| as real) else 0.0
  }

  predicate ConfidencesWithin(rooms: seq<CanvasRoom>, lo: real, hi: real) {
    forall i :: 0 <= i < |rooms| ==> lo <= rooms[i].confidence <= hi
  }

  lemma {:induction false} SumWithin(rooms: seq<CanvasRoom>, lo: real, hi: real)
    requires ConfidencesWithin(rooms, lo, hi)
    ensures (|rooms| as real) * lo <= Sum(rooms) <= (|rooms| as real) * hi
  {
    if rooms != [] {
      var init := rooms[..|rooms| - 1];
      assert ConfidencesWithin(init, lo, hi) by {
        forall i | 0 <= i < |init| ensures lo <= init[i].confidence <= hi {
          assert init[i] == rooms[i];
        }
      }
      SumWithin(init, lo, hi);
      var last := rooms[|rooms| - 1].confidence;
      assert Sum(rooms) == Sum(init) + last;
      assert |rooms| as real == |init| as real + 1.0;
      BoundsAddUp(|init| as real, Sum(init), last, lo, hi);
    }
  }

  lemma BoundsAddUp(m: real, total: real, c: real, lo: real, hi: real)
    requires m * lo <= total <= m * hi && lo <= c <= hi
    ensures (m + 1.0) * lo <= total + c <= (m + 1.0) * hi
  {
    assert (m + 1.0) * lo == m * lo + lo;
    assert (m + 1.0) * hi == m * hi + hi;
  }

  /** The average lies within any bounds every confidence lies within, so in [0, 1] for valid rooms. */
  lemma AverageWithin(rooms: seq<CanvasRoom>, lo: real, hi: real)
    requires rooms != [] && ConfidencesWithin(rooms, lo, hi)
    ensures lo <= AvgConfidence(rooms) <= hi
  {
    SumWithin(rooms, lo, hi);
    QuotientWithin(Sum(rooms), |rooms| as real, lo, hi);
  }

  lemma QuotientWithin(s: real, n: real, lo: real, hi: real)
    requires n > 0.0 && n * lo <= s <= n * hi
    ensures lo <= s / n <= hi
  {
    assert s / n * n == s;
  }

  /** The position of the first room whose id is the selected one. */
  function FindSelected(rooms: seq<CanvasRoom>, selectedId: Option<string>): (k: Option<nat>)
    ensures k.Some? ==> k.value < |rooms| && selectedId == Some(rooms[k.value].id)
    ensures k.Some? ==> forall j :: 0 <= j < k.value ==> selectedId != Some(rooms[j].id)
    ensures k.None? ==> forall j :: 0 <= j < |rooms| ==> selectedId != Some(rooms[j].id)
  {
    if rooms == [] then None
    else if selectedId == Some(rooms[0].id) then Some(0)
    else
      match FindSelected(rooms[1..], selectedId)
      case None => None
      case Some(k) => Some(k + 1)
  }

  /** `rooms.find(r => r.id === selectedRoomId)`: the first match, or none (always none with no selection). */
  function SelectedRoom(rooms: seq<CanvasRoom>, selectedId: Option<string>): (r: Option<CanvasRoom>)
    ensures r.Some? ==> r.value in rooms && selectedId == Some(r.value.id)
    ensures r.Some? ==> exists k :: 0 <= k < |rooms| && r.value == rooms[k] &&
                                   forall j :: 0 <= j < k ==> selectedId != Some(rooms[j].id)
    ensures r.None? <==> forall c :: c in rooms ==> selectedId != Some(c.id)
    ensures selectedId.None? ==> r.None?
  {
    match FindSelected(rooms, selectedId)
    case None => None
    case Some(k) => Some(rooms[k])
  }

  /** The id the delete button removes: offered only for an existing selected room and a delete callback. */
  function DeleteTarget(rooms: seq<CanvasRoom>, selectedId: Option<string>, hasDeleteCallback: bool): (target: Option<string>)
    ensures target.Some? <==> hasDeleteCallback && SelectedRoom(rooms, selectedId).Some?
    ensures target.Some? ==> selectedId == target
  {
    var room := SelectedRoom(rooms, selectedId);
    if hasDeleteCallback && room.Some? then Some(room.value.id) else None
  }

  /** Deleting the offered id leaves no selected room to show. */
  lemma DeleteRemovesSelected(rooms: seq<CanvasRoom>, selectedId: Option<string>)
    requires DeleteTarget(rooms, selectedId, true).Some?
    ensures SelectedRoom(Workflow.DeleteRooms(rooms, DeleteTarget(rooms, selectedId, true).value), selectedId).None?
  {
  }

  datatype Tier = High | Medium | Low

  /** The badge of a room in the list: at least 0.8, then at least 0.6, otherwise low. */
  function BadgeTier(confidence: real): (tier: Tier)
    ensures tier == High <==> confidence >= 0.8
    ensures tier == Medium <==> 0.6 <= confidence < 0.8
    ensures tier == Low <==> confidence < 0.6
  {
    if confidence >= 0.8 then High else if confidence >= 0.6 then Medium else Low
  }

  /** The badge tiers and the canvas colours use the same thresholds. */
  lemma BadgeMatchesColor(confidence: real)
    ensures BadgeTier(confidence) == High <==> Coordinates.ConfidenceColor(confidence) == Coordinates.SuccessColor
    ensures BadgeTier(confidence) == Medium <==> Coordinates.ConfidenceColor(confidence) == Coordinates.WarningColor
    ensures BadgeTier(confidence) == Low <==> Coordinates.ConfidenceColor(confidence) == Coordinates.ErrorColor
  {
  }

  /** Which actions are enabled; export is shown only with a callback. */
  datatype Buttons = Buttons(acceptAll: bool, reprocess: bool, exportShown: bool, exportAction: bool, deleteAction: bool)

  function ButtonStates(roomCount: nat, disabled: bool, hasExportCallback: bool): (b: Buttons)
    ensures b.acceptAll <==> !disabled && roomCount > 0
    ensures b.reprocess <==> !disabled
    ensures b.exportShown <==> hasExportCallback
    ensures b.exportAction <==> !disabled && roomCount > 0
    ensures b.deleteAction <==> !disabled
  {
    Buttons(!(disabled || roomCount == 0), !disabled, hasExportCallback, !(disabled || roomCount == 0), !disabled)
  }

  /** Whenever accepting or exporting is possible, so is reprocessing; an empty list allows only reprocessing. */
  lemma ReprocessIsLeastRestricted(roomCount: nat, disabled: bool, hasExportCallback: bool)
    ensures var b := ButtonStates(roomCount, disabled, hasExportCallback);
      (b.acceptAll || b.exportAction ==> b.reprocess) && (roomCount == 0 ==> !b.acceptAll && !b.exportAction)
  {
  }

  /** `room.id.slice(-4)`: the last four characters, or the whole id when shorter. */
  function IdTail(id: string): (t: string)
    ensures |t| == if |id| < 4 then |id| else 4
    ensures id == id[..|id| - |t|] + t
  {
    if |id| < 4 then id else id[|id| - 4..]
  }

  /** The list label: the name hint unless absent or empty, otherwise "Room " and the id's tail. */
  function RoomLabel(room: CanvasRoom): (text: string)
    ensures room.nameHint.Some? && room.nameHint.value != "" ==> text == room.nameHint.value
    ensures room.nameHint.None? || room.nameHint.value == "" ==> text == "Room " + IdTail(room.id)
  {
    if room.nameHint.Some? && room.nameHint.value != "" then room.nameHint.value else "Room " + IdTail(room.id)
  }
}

=== FILE: coordinates.dfy ===
/**
 * Conversion between the detector's normalised 0-1000 space and image pixels, and
 * the three-tier confidence colour. Arithmetic is exact (`real`); `Math.round` is
 * `Floor(v + 0.5)`.
 */
module Coordinates {
  import opened Wrappers
  import opened Types

  /** Both axes of normalised space run from 0 to this value. */
  const NormalizedRange: real := 1000.0

  /** A rectangle in image pixels. */
  datatype PixelRect = PixelRect(x: real, y: real, width: real, height: real)

  /** `Math.round`: the nearest integer, halves going up. */
  function Round(v: real): (n: int)
    ensures n as real - 0.5 <= v < n as real + 0.5
  {
    (v + 0.5).Floor
  }

  /** Every corner of the box is a whole number, as the detectors emit them. */
  predicate IsIntegral(b: Box) {
    b.xMin == b.xMin.Floor as real && b.yMin == b.yMin.Floor as real &&
    b.xMax == b.xMax.Floor as real && b.yMax == b.yMax.Floor as real
  }

  /**
   * `normalizedToPixel`: scales the box to an image of `w` by `h` pixels. Nothing is
   * rejected: a reversed box gives a negative size.
   */
  function NormalizedToPixel(b: Box, w: real, h: real): (r: PixelRect)
    ensures r.x + r.width == b.xMax / NormalizedRange * w
    ensures r.y + r.height == b.yMax / NormalizedRange * h
  {
    PixelRect(
      b.xMin / NormalizedRange * w,
      b.yMin / NormalizedRange * h,
      (b.xMax - b.xMin) / NormalizedRange * w,
      (b.yMax - b.yMin) / NormalizedRange * h)
  }

  /** A reversed box is not rejected: on a real image it simply gets a negative size. */
  lemma ReversedBoxHasNegativeSize(b: Box, w: real, h: real)
    requires w > 0.0 && h > 0.0
    ensures NormalizedToPixel(b, w, h).width < 0.0 <==> b.xMax < b.xMin
    ensures NormalizedToPixel(b, w, h).height < 0.0 <==> b.yMax < b.yMin
  {
    var r := NormalizedToPixel(b, w, h);
    assert r.width == (b.xMax - b.xMin) / NormalizedRange * w;
    assert r.height == (b.yMax - b.yMin) / NormalizedRange * h;
  }

  /** One axis of `pixelToNormalized`: a pixel offset back to normalised units, rounded. */
  function AxisToNormalized(v: real, d: real): (n: int)
    requires d != 0.0
    ensures n as real - 0.5 <= v / d * NormalizedRange < n as real + 0.5
  {
    Round(v / d * NormalizedRange)
  }

  /**
   * `pixelToNormalized`: the algebraic inverse of NormalizedToPixel, each corner rounded
   * to the nearest integer.
   */
  function PixelToNormalized(x: real, y: real, width: real, height: real, w: real, h: real): (b: Box)
    requires w != 0.0 && h != 0.0
    ensures IsIntegral(b)
  {
    Box(
      AxisToNormalized(x, w) as real,
      AxisToNormalized(y, h) as real,
      AxisToNormalized(x + width, w) as real,
      AxisToNormalized(y + height, h) as real)
  }

  /** Each corner of PixelToNormalized is the exact inverse rounded to the nearest integer. */
  lemma PixelToNormalizedIsNearest(x: real, y: real, width: real, height: real, w: real, h: real)
    requires w != 0.0 && h != 0.0
    ensures var b := PixelToNormalized(x, y, width, height, w, h);
            && b.xMin - 0.5 <= x / w * NormalizedRange < b.xMin + 0.5
            && b.yMin - 0.5 <= y / h * NormalizedRange < b.yMin + 0.5
            && b.xMax - 0.5 <= (x + width) / w * NormalizedRange < b.xMax + 0.5
            && b.yMax - 0.5 <= (y + height) / h * NormalizedRange < b.yMax + 0.5
  {
  }

  /** Rounding a whole number gives it back. */
  lemma RoundIntegral(v: real)
    requires v == v.Floor as real
    ensures Round(v) as real == v
  {
    var m := v.Floor;
    var n := Round(v);
    assert (n - m) as real == n as real - v;
    assert -1 < n - m < 1;
  }

  /** A whole-number coordinate scaled down to `d` pixels and back up rounds to itself. */
  lemma AxisRoundTrip(v: real, n: real, d: real)
    requires d != 0.0 && n == n.Floor as real && v == n / NormalizedRange * d
    ensures AxisToNormalized(v, d) as real == n
  {
    assert v / d == n / NormalizedRange;
    RoundIntegral(n);
  }

  /**
   * With exact arithmetic and a non-degenerate image, converting an integral box to
   * pixels and back reproduces it exactly.
   */
  lemma {:induction false} RoundTrip(b: Box, w: real, h: real)
    requires w != 0.0 && h != 0.0 && IsIntegral(b)
    ensures var p := NormalizedToPixel(b, w, h);
            PixelToNormalized(p.x, p.y, p.width, p.height, w, h) == b
  {
    var p := NormalizedToPixel(b, w, h);
    AxisRoundTrip(p.x, b.xMin, w);
    AxisRoundTrip(p.y, b.yMin, h);
    AxisRoundTrip(p.x + p.width, b.xMax, w);
    AxisRoundTrip(p.y + p.height, b.yMax, h);
  }

  /** The worked example: a 600 by 800 image and the box [100, 100, 350, 300]. */
  lemma WorkedExample()
    ensures NormalizedToPixel(Box(100.0, 100.0, 350.0, 300.0), 600.0, 800.0) == PixelRect(60.0, 80.0, 150.0, 160.0)
  {
  }

  /** One detected room on the canvas: its fields carried over, its box turned into pixels. */
  function ToCanvasRoom(room: DetectedRoom, w: real, h: real): (c: CanvasRoom)
    ensures c.id == room.id && c.confidence == room.confidence && c.nameHint == room.nameHint
    ensures c.selected.None?
    ensures PixelRect(c.x, c.y, c.width, c.height) == NormalizedToPixel(room.boundingBox, w, h)
  {
    var p := NormalizedToPixel(room.boundingBox, w, h);
    CanvasRoom(room.id, room.confidence, room.nameHint, p.x, p.y, p.width, p.height, None)
  }

  /** `detectedRoomsToCanvas`: converts every room, keeping length and order. */
  function DetectedRoomsToCanvas(rooms: seq<DetectedRoom>, w: real, h: real): (r: seq<CanvasRoom>)
    ensures |r| == |rooms|
    ensures forall i :: 0 <= i < |rooms| ==> r[i] == ToCanvasRoom(rooms[i], w, h)
  {
    seq(|rooms|, i requires 0 <= i < |rooms| => ToCanvasRoom(rooms[i], w, h))
  }

  /** Nothing of a detected room is lost on the canvas: its integral box can be recovered. */
  lemma {:induction false} CanvasRoomsRecoverBoxes(rooms: seq<DetectedRoom>, w: real, h: real, i: nat)
    requires w != 0.0 && h != 0.0 && i < |rooms| && IsIntegral(rooms[i].boundingBox)
    ensures var c := DetectedRoomsToCanvas(rooms, w, h)[i];
            c.id == rooms[i].id &&
            PixelToNormalized(c.x, c.y, c.width, c.height, w, h) == rooms[i].boundingBox
  {
    RoundTrip(rooms[i].boundingBox, w, h);
  }

  const SuccessColor := "#10b981"
  const WarningColor := "#f59e0b"
  const ErrorColor := "#ef4444"

  /** `getConfidenceColor`: three tiers split at 0.8 and 0.6. */
  function ConfidenceColor(confidence: real): (color: string)
    ensures color == SuccessColor <==> confidence >= 0.8
    ensures color == WarningColor <==> 0.6 <= confidence < 0.8
    ensures color == ErrorColor <==> confidence < 0.6
  {
    if confidence >= 0.8 then SuccessColor
    else if confidence >= 0.6 then WarningColor
    else ErrorColor
  }

  /** Confidence 0.92 is drawn in the high tier and 0.55 in the low tier. */
  lemma ColorExamples()
    ensures ConfidenceColor(0.92) == SuccessColor && ConfidenceColor(0.55) == ErrorColor
  {
  }
}

=== FILE: detection_client.dfy ===
/**
 * The detection client: the retry-with-back-off policy of the response interceptor,
 * the classification of failures into application errors, and the shaping of the
 * detection, upload-URL and direct-upload requests. The transport is a sequence of
 * simulated outcomes, one per request the client issues.
 */
module DetectionClient {
  import opened Wrappers
  import opened Types

  const ApiTimeoutMs: nat := 30000
  const MaxRetries: nat := 3
  const RetryDelayMs: nat := 1000

  const TimeoutMessage := "Request timed out. Please try again."
  const TimeoutDetails := "The server took too long to respond"
  const NetworkMessage := "Network error. Check your connection and try again."
  const ProcessingFallback := "Failed to process blueprint"
  const UnexpectedMessage := "An unexpected error occurred"

  /** The JSON body of a non-2xx response, `{message?, details?}`. */
  datatype ErrorBody = ErrorBody(message: Option<string>, details: Option<string>)

  /** The HTTP response attached to a failed request; its body may be missing. */
  datatype ErrorResponse = ErrorResponse(status: int, data: Option<ErrorBody>)

  /** A failed HTTP-client request: its error code, its message and the response, if one arrived. */
  datatype ClientFailure = ClientFailure(code: Option<string>, message: string, response: Option<ErrorResponse>)

  /** What a `catch` block receives: an HTTP-client error or anything else (by its `String(...)`). */
  datatype Thrown = FromClient(failure: ClientFailure) | NotFromClient(text: string)

  /** What one request on the wire yields. */
  datatype Attempt<T> = Delivered(value: T) | Failed(failure: ClientFailure)

  function Pow2(n: nat): (p: nat)
    ensures p >= 1
  {
    if n == 0 then 1 else 2 * Pow2(n - 1)
  }

  /** The pause before the retry that follows the `retryCount`-th failure. */
  function BackoffDelay(retryCount: nat): (d: nat)
    ensures d >= RetryDelayMs && d % RetryDelayMs == 0
  {
    RetryDelayMs * Pow2(retryCount)
  }

  /** The delays double from one second: 1000, 2000 and 4000 ms for the three retries. */
  lemma BackoffSchedule()
    ensures BackoffDelay(0) == 1000 && BackoffDelay(1) == 2000 && BackoffDelay(2) == 4000
    ensures forall n: nat :: BackoffDelay(n + 1) == 2 * BackoffDelay(n)
  {
  }

  /** `retryRequest` retries only when no response arrived (timeouts included) or the status is 5xx. */
  predicate IsRetriable(f: ClientFailure)
    ensures f.response.None? ==> IsRetriable(f)
    ensures f.response.Some? && f.response.value.status < 500 ==> !IsRetriable(f)
  {
    f.response.None? || 500 <= f.response.value.status < 600
  }

  /**
   * The client stops after `n` requests: every earlier request failed in a retriable way,
   * and the last one succeeded, failed for good, or used up the retries.
   */
  predicate RetryStopsAt<T>(transport: seq<Attempt<T>>, n: nat) {
    && 1 <= n <= MaxRetries + 1 && n <= |transport|
    && (forall i :: 0 <= i < n - 1 ==> transport[i].Failed? && IsRetriable(transport[i].failure))
    && (transport[n - 1].Failed? ==> !IsRetriable(transport[n - 1].failure) || n == MaxRetries + 1)
  }

  /** For a given transport there is only one place where the client can stop. */
  lemma RetryStopIsUnique<T>(transport: seq<Attempt<T>>, m: nat, n: nat)
    requires RetryStopsAt(transport, m) && RetryStopsAt(transport, n)
    ensures m == n
  {
  }

  /**
   * One logical call through the client: the first request, and then, for every failure,
   * the response interceptor bumping the counter on the request config and `retryRequest`
   * either rethrowing or sleeping and sending the request again. `retryCount` is the
   * counter left on the config; `delays` are the sleeps, in order.
   */
  method RequestWithRetry<T>(transport: seq<Attempt<T>>)
    returns (outcome: Attempt<T>, requests: nat, delays: seq<nat>, retryCount: nat)
    requires |transport| > MaxRetries
    ensures RetryStopsAt(transport, requests)
    ensures outcome == transport[requests - 1]
    ensures |delays| == requests - 1
    ensures forall i :: 0 <= i < |delays| ==> delays[i] == BackoffDelay(i)
    ensures retryCount == if outcome.Failed? then requests else requests - 1
  {
    var configRetryCount: nat := 0;
    outcome := transport[0];
    requests := 1;
    delays := [];
    while outcome.Failed?
      invariant 1 <= requests <= MaxRetries + 1
      invariant configRetryCount == requests - 1
      invariant outcome == transport[requests - 1]
      invariant forall i :: 0 <= i < requests - 1 ==> transport[i].Failed? && IsRetriable(transport[i].failure)
      invariant |delays| == requests - 1
      invariant forall i :: 0 <= i < |delays| ==> delays[i] == BackoffDelay(i)
      decreases MaxRetries + 1 - requests
    {
      // the response interceptor
      var count := configRetryCount;
      configRetryCount := count + 1;
      // retryRequest
      if count >= MaxRetries || !IsRetriable(outcome.failure) {
        break;
      }
      delays := delays + [BackoffDelay(count)];
      outcome := transport[requests];
      requests := requests + 1;
    }
    retryCount := configRetryCount;
  }

  /** A 5xx answer followed by a success resolves with the success after two requests. */
  method ServerErrorThenSuccess<T>(v: T, f: ClientFailure) returns (outcome: Attempt<T>, requests: nat)
    requires f.response.Some? && 500 <= f.response.value.status < 600
    ensures outcome == Delivered(v) && requests == 2
  {
    var transport := [Failed(f), Delivered(v), Delivered(v), Delivered(v)];
    assert transport[0] == Failed(f) && transport[1] == Delivered(v);
    var delays, count;
    outcome, requests, delays, count := RequestWithRetry(transport);
  }

  /** A 4xx answer is not retried: exactly one request is issued. */
  method ClientErrorIsFinal<T>(f: ClientFailure, later: seq<Attempt<T>>) returns (outcome: Attempt<T>, requests: nat)
    requires f.response.Some? && 400 <= f.response.value.status < 500 && |later| >= MaxRetries
    ensures outcome == Failed(f) && requests == 1
  {
    var transport := [Failed(f)] + later;
    assert transport[0] == Failed(f);
    var delays, count;
    outcome, requests, delays, count := RequestWithRetry(transport);
  }

  predicate IsTimeout(f: ClientFailure)
    ensures IsTimeout(f) ==> f.code.Some?
    ensures f.code == Some("ECONNABORTED") || f.code == Some("ETIMEDOUT") ==> IsTimeout(f)
  {
    f.code == Some("ECONNABORTED") || f.code == Some("ETIMEDOUT")
  }

  /** `data?.message || 'Failed to process blueprint'`: an empty message falls back too. */
  function ResponseMessage(data: Option<ErrorBody>): (m: string)
    ensures m != ""
    ensures data.Some? && data.value.message.Some? && data.value.message.value != "" ==> m == data.value.message.value
  {
    if data.Some? && data.value.message.Some? && data.value.message.value != "" then data.value.message.value
    else ProcessingFallback
  }

  /** `handleApiError`: timeouts first, then a missing response, then a server answer, then anything else. */
  function HandleApiError(error: Thrown): (e: AppError)
    ensures e.kind != FileTooLarge && e.kind != InvalidFormat
    ensures e.kind == Unknown <==> error.NotFromClient?
    ensures e.kind == NetworkError <==> error.FromClient? && !IsTimeout(error.failure) && error.failure.response.None?
    ensures e.kind == ProcessingFailed <==>
      error.FromClient? && (IsTimeout(error.failure) || error.failure.response.Some?)
    ensures error.FromClient? && IsTimeout(error.failure) ==>
      e.message == TimeoutMessage && e.details == Some(TimeoutDetails)
    ensures e.kind == NetworkError ==> e.message == NetworkMessage && e.details == Some(error.failure.message)
    ensures error.FromClient? && !IsTimeout(error.failure) && error.failure.response.Some? ==>
      var data := error.failure.response.value.data;
      e.message == ResponseMessage(data) && e.details == (if data.Some? then data.value.details else None)
    ensures error.NotFromClient? ==> e.message == UnexpectedMessage && e.details == Some(error.text)
  {
    match error
    case FromClient(f) =>
      if IsTimeout(f) then AppError(ProcessingFailed, TimeoutMessage, Some(TimeoutDetails))
      else if f.response.None? then AppError(NetworkError, NetworkMessage, Some(f.message))
      else
        var data := f.response.value.data;
        AppError(ProcessingFailed, ResponseMessage(data), if data.Some? then data.value.details else None)
    case NotFromClient(text) => AppError(Unknown, UnexpectedMessage, Some(text))
  }

  /** A failure that exhausted its retries always reaches the caller as processing_failed or network_error. */
  lemma ExhaustedRetriesClassification(f: ClientFailure)
    requires IsRetriable(f)
    ensures HandleApiError(FromClient(f)).kind in {ProcessingFailed, NetworkError}
    ensures f.response.Some? ==> HandleApiError(FromClient(f)).kind == ProcessingFailed
  {
  }

  /** The final outcome of a call as its caller sees it: the value, or the classified error. */
  function AsResult<T>(a: Attempt<T>): (r: Result<T, AppError>)
    ensures a.Delivered? <==> r.Ok?
    ensures a.Delivered? ==> r.value == a.value
    ensures a.Failed? ==> r.error == HandleApiError(FromClient(a.failure))
  {
    match a
    case Delivered(v) => Ok(v)
    case Failed(f) => Err(HandleApiError(FromClient(f)))
  }

  /** One field of the multipart form the detection request sends. */
  datatype FormField = FileField(file: File) | OptionsField(options: DetectionOptions)

  /**
   * `detectRooms`: builds the form (always the file, the options only when present),
   * posts it through the retrying client and turns every failure into an AppError.
   * The JSON encoding of the options is not modelled.
   */
  method DetectRooms(request: DetectionRequest, transport: seq<Attempt<DetectionResponse>>)
    returns (result: Result<DetectionResponse, AppError>, form: seq<(string, FormField)>, requests: nat)
    requires |transport| > MaxRetries
    ensures |form| == if request.options.Some? then 2 else 1
    ensures form[0] == ("file", FileField(request.file))
    ensures request.options.Some? ==> form[1] == ("options", OptionsField(request.options.value))
    ensures RetryStopsAt(transport, requests)
    ensures result == AsResult(transport[requests - 1])
  {
    form := [];
    form := form + [("file", FileField(request.file))];
    if request.options.Some? {
      form := form + [("options", OptionsField(request.options.value))];
    }
    var outcome, delays, count;
    outcome, requests, delays, count := RequestWithRetry(transport);
    result := AsResult(outcome);
  }

  /** The answer of the upload-URL endpoint, `{upload_url}`; a missing field reads as `undefined`. */
  datatype UploadUrlBody = UploadUrlBody(uploadUrl: Option<string>)

  /** `getPresignedUrl`: posts `{filename}` through the retrying client and returns `upload_url`. */
  method GetPresignedUrl(filename: string, transport: seq<Attempt<UploadUrlBody>>)
    returns (result: Result<Option<string>, AppError>, requests: nat)
    requires |transport| > MaxRetries
    ensures RetryStopsAt(transport, requests)
    ensures transport[requests - 1].Delivered? ==> result == Ok(transport[requests - 1].value.uploadUrl)
    ensures transport[requests - 1].Failed? ==>
      result == Err(HandleApiError(FromClient(transport[requests - 1].failure)))
  {
    var outcome, delays, count;
    outcome, requests, delays, count := RequestWithRetry(transport);
    match outcome
    case Delivered(body) => result := Ok(body.uploadUrl);
    case Failed(f) => result := Err(HandleApiError(FromClient(f)));
  }

  /** The PUT that `uploadToS3` sends: the raw file with its own MIME type as Content-Type. */
  datatype PutRequest = PutRequest(url: string, file: File, contentType: string)

  function UploadToS3Request(file: File, presignedUrl: string): (p: PutRequest)
    ensures p.url == presignedUrl && p.file == file && p.contentType == file.mimeType
  {
    PutRequest(presignedUrl, file, file.mimeType)
  }

  /** `uploadToS3` goes around the retrying client: one attempt, its failure classified. */
  function UploadToS3(outcome: Attempt<()>): (r: Result<(), AppError>)
    ensures r.Ok? <==> outcome.Delivered?
    ensures outcome.Failed? ==> r == Err(HandleApiError(FromClient(outcome.failure)))
    ensures outcome.Failed? ==> r.error.kind in {ProcessingFailed, NetworkError}
  {
    AsResult(outcome)
  }
}

=== FILE: lambda_handler.dfy ===
/**
 * The entry point of the contour-based backend: the hand-written multipart parser that
 * extracts the uploaded file, and the handler that finds the content type, undoes the
 * gateway's base64 encoding, runs detection and shapes the HTTP answer. Base64 decoding
 * and the detection itself are parameters.
 */
module LambdaHandler {
  import opened Wrappers
  import opened Text
  import RoomDetector

  const NoBoundaryMessage := "No boundary found in content-type"
  const NoFileMessage := "No file found in multipart data"
  const BoundaryPrefix := "boundary="
  const CrlfBlankLine := "\r\n\r\n"
  const LfBlankLine := "\n\n"
  const TrailingMarkers: set<char> := {'\r', '\n', '-'}
  const Quote: set<char> := {'"'}

  /** A `;`-separated parameter that, stripped of whitespace, starts with `boundary=`. */
  predicate IsBoundaryParam(param: string) {
    StartsWith(Strip(param, PyWhitespace), BoundaryPrefix)
  }

  /** In a text starting with `boundary=` the first `=` is the one of the prefix. */
  lemma FirstEqualsAfterName(t: string)
    requires StartsWith(t, BoundaryPrefix)
    ensures SplitOnce(t, "=") == Some(("boundary", t[|BoundaryPrefix|..]))
  {
    assert t[..9] == BoundaryPrefix;
    assert OccursAt(t, "=", 8);
    forall k | 0 <= k < 8
      ensures !OccursAt(t, "=", k)
    {
      assert t[k] == BoundaryPrefix[k];
    }
    assert IndexOf(t, "=") == Some(8);
    assert t[..8] == "boundary";
  }

  /** `part.split('=', 1)[1].strip('"')`: the text after `boundary=`, without surrounding quotes. */
  function BoundaryValue(param: string): (b: string)
    requires IsBoundaryParam(param)
    ensures b == Strip(Strip(param, PyWhitespace)[|BoundaryPrefix|..], Quote)
    ensures |b| == 0 || (b[0] != '"' && b[|b| - 1] != '"')
  {
    var t := Strip(param, PyWhitespace);
    FirstEqualsAfterName(t);
    var value := SplitOnce(t, "=").value.1;
    var b := Strip(value, Quote);
    assert |b| > 0 ==> b[0] == LStrip(value, Quote)[0];
    b
  }

  /** The boundary the parser uses: the value of the first `boundary=` parameter, if any. */
  function ExtractBoundary(contentType: string): (b: Option<string>)
    ensures b.Some? ==> |b.value| == 0 || (b.value[0] != '"' && b.value[|b.value| - 1] != '"')
  {
    var params := Split(contentType, ";");
    match FirstWhere(params, IsBoundaryParam)
    case None => None
    case Some(k) => Some(BoundaryValue(params[k]))
  }

  /** The boundary is absent exactly when no parameter is a `boundary=` one, and otherwise comes from the first such. */
  lemma ExtractBoundaryIsFirst(contentType: string, params: seq<string>)
    requires params == Split(contentType, ";")
    ensures ExtractBoundary(contentType).None? <==> forall j :: 0 <= j < |params| ==> !IsBoundaryParam(params[j])
    ensures ExtractBoundary(contentType).Some? ==>
      exists k :: (0 <= k < |params| && IsBoundaryParam(params[k]) && ExtractBoundary(contentType) == Some(BoundaryValue(params[k])) &&
                   forall j :: 0 <= j < k ==> !IsBoundaryParam(params[j]))
  {
    match FirstWhere(params, IsBoundaryParam)
    case None =>
    case Some(k) =>
      assert ExtractBoundary(contentType) == Some(BoundaryValue(params[k]));
  }

  /** The headers and content of a part, split at its first blank line (CRLF form first). */
  function SplitHeaders(part: string): (r: Option<(string, string)>)
    ensures r.Some? ==> (r.value.0 + CrlfBlankLine + r.value.1 == part || r.value.0 + LfBlankLine + r.value.1 == part)
    ensures r.None? <==> !Contains(part, CrlfBlankLine) && !Contains(part, LfBlankLine)
  {
    if Contains(part, CrlfBlankLine) then SplitOnce(part, CrlfBlankLine)
    else if Contains(part, LfBlankLine) then SplitOnce(part, LfBlankLine)
    else None
  }

  /** Empty parts and the closing `--` are skipped. */
  predicate Skipped(part: string) {
    part == "" || Strip(part, PyWhitespace) == "--"
  }

  /** The content of a part that carries a file: headers naming `Content-Disposition` and `filename`. */
  function FileContent(part: string): (c: Option<string>)
    ensures c.Some? ==> !Skipped(part) && SplitHeaders(part).Some? && c.value == SplitHeaders(part).value.1
    ensures c.Some? ==> Contains(SplitHeaders(part).value.0, "Content-Disposition")
    ensures c.Some? ==> Contains(SplitHeaders(part).value.0, "filename")
  {
    if Skipped(part) then None
    else
      match SplitHeaders(part)
      case None => None
      case Some((headers, content)) =>
        if Contains(headers, "Content-Disposition") && Contains(headers, "filename") then Some(content) else None
  }

  predicate IsFilePart(part: string) {
    FileContent(part).Some?
  }

  /**
   * What `parse_multipart` promises: no usable boundary is an error; otherwise the first
   * part carrying a file gives its content without trailing CR, LF and `-`, encoded as
   * Latin-1; with no such part it is an error.
   */
  function MultipartResult(body: string, contentType: string): (r: Result<seq<byte>, string>)
    ensures ExtractBoundary(contentType) in {None, Some("")} ==> r == Err(NoBoundaryMessage)
    ensures r.Ok? ==> ExtractBoundary(contentType).Some? && ExtractBoundary(contentType).value != ""
  {
    match ExtractBoundary(contentType)
    case None => Err(NoBoundaryMessage)
    case Some(boundary) =>
      if boundary == "" then Err(NoBoundaryMessage) else FileResult(body, boundary)
  }

  /**
   * The bytes of the first part carrying a file once the body is cut at `--boundary`;
   * with no part carrying a file it is the "No file found" error.
   */
  function FileResult(body: string, boundary: string): (r: Result<seq<byte>, string>)
    requires boundary != ""
    ensures var parts := Split(body, "--" + boundary);
      r == Err(NoFileMessage) <==> forall j :: 0 <= j < |parts| ==> !IsFilePart(parts[j])
  {
    var parts := Split(body, "--" + boundary);
    match FirstWhere(parts, IsFilePart)
    case None => Err(NoFileMessage)
    case Some(k) =>
      var content := RStrip(FileContent(parts[k]).value, TrailingMarkers);
      EncodingNeverFindsNoFile(content);
      Latin1Encode(content)
  }

  /** An encoding failure ends with the codec's reason, so it is never the missing-file error. */
  lemma EncodingNeverFindsNoFile(content: string)
    ensures Latin1Encode(content) != Err(NoFileMessage)
  {
    assert NoFileMessage[|NoFileMessage| - 1] == 'a';
  }

  /**
   * A successful result is the code points of the first file part's content up to its
   * trailing run of CR, LF and `-`, which is dropped whole.
   */
  lemma FileResultIsFirstFilePart(body: string, boundary: string, parts: seq<string>)
    requires boundary != "" && parts == Split(body, "--" + boundary)
    ensures FileResult(body, boundary).Ok? ==>
      exists k :: (0 <= k < |parts| && IsFilePart(parts[k]) &&
                   (forall j :: 0 <= j < k ==> !IsFilePart(parts[j])) &&
                   FileBytesOf(FileContent(parts[k]).value, FileResult(body, boundary).value))
  {
    var r := FileResult(body, boundary);
    if r.Ok? {
      var k := FirstWhere(parts, IsFilePart).value;
      EncodedContent(FileContent(parts[k]).value, r);
    }
  }

  lemma EncodedContent(content: string, r: Result<seq<byte>, string>)
    requires r == Latin1Encode(RStrip(content, TrailingMarkers)) && r.Ok?
    ensures FileBytesOf(content, r.value)
  {
  }

  /** `bytes` are the code points of `content` with its trailing run of CR, LF and `-` removed. */
  predicate FileBytesOf(content: string, bytes: seq<byte>) {
    && |bytes| <= |content|
    && (forall i :: 0 <= i < |bytes| ==> bytes[i] as int == content[i] as int)
    && (forall i :: |bytes| <= i < |content| ==> content[i] in TrailingMarkers)
    && (|bytes| == 0 || content[|bytes| - 1] !in TrailingMarkers)
  }

  /** The content of a part holds no further boundary, so splitting it again is a no-op. */
  lemma ContentHasNoBoundary(part: string, headers: string, blank: string, content: string, sep: string)
    requires headers + blank + content == part && |sep| > 0 && !Contains(part, sep)
    ensures Split(content, sep) == [content]
  {
    assert content == part[|headers| + |blank|..];
    SuffixOfFreeIsFree(part, sep, |headers| + |blank|);
    SplitOfFree(content, sep);
  }

  /** `content.split(f'--{boundary}')[0]` leaves a file part's content as it is. */
  lemma FileContentHasNoBoundary(part: string, sep: string)
    requires |sep| > 0 && !Contains(part, sep) && IsFilePart(part)
    ensures Split(FileContent(part).value, sep)[0] == FileContent(part).value
  {
    var (headers, content) := SplitHeaders(part).value;
    if headers + CrlfBlankLine + content == part {
      ContentHasNoBoundary(part, headers, CrlfBlankLine, content, sep);
    } else {
      ContentHasNoBoundary(part, headers, LfBlankLine, content, sep);
    }
  }

  /**
   * `parse_multipart`. Each of its two loops stops at the first element passing a test
   * (a `boundary=` parameter, a part carrying a file) and then works on that element,
   * so each is the scan `FindFirst` followed by that work.
   */
  method ParseMultipart(body: string, contentType: string) returns (r: Result<seq<byte>, string>)
    ensures r == MultipartResult(body, contentType)
  {
    var boundary := FindBoundary(contentType);
    if boundary.None? || boundary.value == "" {
      return Err(NoBoundaryMessage);
    }
    r := ExtractFile(body, boundary.value);
  }

  /** The parameter loop of `parse_multipart`: the value of the first `boundary=` parameter. */
  method FindBoundary(contentType: string) returns (boundary: Option<string>)
    ensures boundary == ExtractBoundary(contentType)
  {
    var params := Split(contentType, ";");
    var found := FindFirst(params, IsBoundaryParam);
    if found.None? {
      return None;
    }
    var value := BoundaryValue(params[found.value]);
    boundary := Some(value);
  }

  /** The part loop of `parse_multipart`: the first part carrying a file, cleaned and encoded. */
  method ExtractFile(body: string, boundary: string) returns (r: Result<seq<byte>, string>)
    requires boundary != ""
    ensures r == FileResult(body, boundary)
  {
    var sep := "--" + boundary;
    var parts := Split(body, sep);
    var filePart := FindFirst(parts, IsFilePart);
    if filePart.None? {
      return Err(NoFileMessage);
    }
    var part := parts[filePart.value];
    assert part in parts;
    FileContentHasNoBoundary(part, sep);
    var content := FileContent(part).value;
    content := Split(content, sep)[0];
    content := RStrip(content, TrailingMarkers);
    r := Latin1Encode(content);
  }

  /** A content type without a boundary parameter fails whatever the body. */
  lemma NoBoundaryFails(body: string, contentType: string)
    requires forall p :: p in Split(contentType, ";") ==> !IsBoundaryParam(p)
    ensures MultipartResult(body, contentType) == Err(NoBoundaryMessage)
  {
    var params := Split(contentType, ";");
    assert forall j :: 0 <= j < |params| ==> !IsBoundaryParam(params[j]) by {
      forall j | 0 <= j < |params| ensures !IsBoundaryParam(params[j]) {
        assert params[j] in params;
      }
    }
  }

  /** A top-level field of the gateway event: absent, present as null, or present. */
  datatype Field<T> = Missing | Null | Present(value: T)

  datatype Event = Event(body: Field<string>, headers: Field<seq<(string, string)>>, isBase64Encoded: bool)

  /** The JSON body of the answer: the detection, or `{error, message}`. */
  datatype ResponseBody = DetectionBody(detection: RoomDetector.Detection) | FailureBody(error: string, message: string)

  datatype HttpResponse = HttpResponse(statusCode: int, headers: seq<(string, string)>, body: ResponseBody)

  const SuccessHeaders: seq<(string, string)> := [
    ("Content-Type", "application/json"),
    ("Access-Control-Allow-Origin", "*"),
    ("Access-Control-Allow-Headers", "Content-Type"),
    ("Access-Control-Allow-Methods", "POST, OPTIONS")
  ]
  const FailureHeaders: seq<(string, string)> := [
    ("Content-Type", "application/json"),
    ("Access-Control-Allow-Origin", "*")
  ]
  const FailureTitle := "Processing failed"
  const MultipartMarker := "multipart/form-data"
  /** What Python reports for `.items()` on a null `headers`. */
  const NullHeadersMessage := "'NoneType' object has no attribute 'items'"
  /** What Python reports for `len()` on a null `body`. */
  const NullBodyMessage := "object of type 'NoneType' has no len()"

  function Failure(message: string): HttpResponse {
    HttpResponse(500, FailureHeaders, FailureBody(FailureTitle, message))
  }

  function Success(detection: RoomDetector.Detection): HttpResponse {
    HttpResponse(200, SuccessHeaders, DetectionBody(detection))
  }

  predicate IsContentTypeKey(header: (string, string)) {
    LowerAscii(header.0) == "content-type"
  }

  /** The value of the first header whose name is `content-type` in any letter case. */
  function ContentTypeOf(headers: seq<(string, string)>): (r: Option<string>)
    ensures r.None? <==> forall k :: 0 <= k < |headers| ==> !IsContentTypeKey(headers[k])
    ensures r.Some? ==>
      exists k :: (0 <= k < |headers| && IsContentTypeKey(headers[k]) && r.value == headers[k].1 &&
                   forall j :: 0 <= j < k ==> !IsContentTypeKey(headers[j]))
  {
    match FirstWhere(headers, IsContentTypeKey)
    case None => None
    case Some(k) => Some(headers[k].1)
  }

  /** The image bytes the handler passes to detection, or the message of the exception raised first. */
  function ImageBytes(event: Event, decodeBase64: string -> Result<string, string>): (r: Result<seq<byte>, string>)
    ensures event.headers.Null? ==> r == Err(NullHeadersMessage)
    ensures !event.headers.Null? && event.body.Null? ==> r == Err(NullBodyMessage)
    ensures !event.headers.Null? && event.body.Present? && event.isBase64Encoded && decodeBase64(event.body.value).Err? ==>
      r == Err(decodeBase64(event.body.value).error)
  {
    if event.headers.Null? then Err(NullHeadersMessage)
    else if event.body.Null? then Err(NullBodyMessage)
    else
      var headers := if event.headers.Present? then event.headers.value else [];
      var raw := if event.body.Present? then event.body.value else "";
      var decoded := if event.isBase64Encoded then decodeBase64(raw) else Ok(raw);
      if decoded.Err? then Err(decoded.error)
      else
        var contentType := ContentTypeOf(headers);
        if contentType.Some? && contentType.value != "" && Contains(contentType.value, MultipartMarker) then
          MultipartResult(decoded.value, contentType.value)
        else
          Latin1Encode(decoded.value)
  }

  /** `lambda_handler`: 200 with the detection and four headers, or 500 with two headers and the error. */
  method HandleEvent(event: Event, decodeBase64: string -> Result<string, string>,
                     detect: seq<byte> -> Result<RoomDetector.Detection, string>)
    returns (response: HttpResponse)
    ensures ImageBytes(event, decodeBase64).Err? ==> response == Failure(ImageBytes(event, decodeBase64).error)
    ensures ImageBytes(event, decodeBase64).Ok? ==>
      var detected := detect(ImageBytes(event, decodeBase64).value);
      response == if detected.Ok? then Success(detected.value) else Failure(detected.error)
  {
    if event.headers.Null? {
      return Failure(NullHeadersMessage);
    }
    var headers := if event.headers.Present? then event.headers.value else [];
    var key := FindFirst(headers, IsContentTypeKey);
    var contentType: Option<string> := if key.Some? then Some(headers[key.value].1) else None;
    assert contentType == ContentTypeOf(headers);
    if event.body.Null? {
      return Failure(NullBodyMessage);
    }
    var body := if event.body.Present? then event.body.value else "";
    if event.isBase64Encoded {
      var decoded := decodeBase64(body);
      if decoded.Err? {
        return Failure(decoded.error);
      }
      body := decoded.value;
    }
    var image: Result<seq<byte>, string>;
    if contentType.Some? && contentType.value != "" && Contains(contentType.value, MultipartMarker) {
      image := ParseMultipart(body, contentType.value);
    } else {
      image := Latin1Encode(body);
    }
    if image.Err? {
      return Failure(image.error);
    }
    var result := detect(image.value);
    if result.Err? {
      return Failure(result.error);
    }
    return Success(result.value);
  }

  /** Every answer is 200 with the detection and four headers, or 500 with two headers and "Processing failed". */
  lemma AnswerShapes(event: Event, decodeBase64: string -> Result<string, string>,
                     detect: seq<byte> -> Result<RoomDetector.Detection, string>, response: HttpResponse)
    requires ImageBytes(event, decodeBase64).Err? ==> response == Failure(ImageBytes(event, decodeBase64).error)
    requires ImageBytes(event, decodeBase64).Ok? ==>
      var detected := detect(ImageBytes(event, decodeBase64).value);
      response == if detected.Ok? then Success(detected.value) else Failure(detected.error)
    ensures response.statusCode == 200 || response.statusCode == 500
    ensures response.statusCode == 200 <==> response.body.DetectionBody?
    ensures response.statusCode == 200 ==> response.headers == SuccessHeaders
    ensures response.statusCode == 500 ==> response.headers == FailureHeaders && response.body.error == FailureTitle
  {
  }

  /** The header name is matched in any letter case, and the first match wins. */
  lemma ContentTypeCaseInsensitive(value: string, other: string, rest: seq<(string, string)>)
    ensures ContentTypeOf([("Content-Type", value), ("content-type", other)] + rest) == Some(value)
    ensures ContentTypeOf([("CONTENT-TYPE", value)] + rest) == Some(value)
  {
    assert LowerAscii("Content-Type") == "content-type";
    assert LowerAscii("CONTENT-TYPE") == "content-type";
  }

  /** A body that is not multipart is passed on as its Latin-1 bytes. */
  lemma RawBodyFallback(body: string, headers: seq<(string, string)>)
    requires ContentTypeOf(headers).None?
    ensures ImageBytes(Event(Present(body), Present(headers), false), s => Ok(s)) == Latin1Encode(body)
  {
  }
}

=== FILE: room_detector.dfy ===
/**
 * The post-processing of the contour-based detector: the area window that keeps
 * candidate contours, the confidence score, the truncating normalisation to 0..1000,
 * the greedy suppression of overlapping boxes and the assembly of the response.
 * Image decoding and the contour geometry stay abstract: a contour is its area,
 * the vertex count and convexity of its approximation, and its bounding rectangle.
 */
module RoomDetector {
  import opened Wrappers
  import Text
  import Sorting
  import Sequences

  const NormalizedRange: real := 1000.0
  const MinRoomArea: real := 5000.0
  const MaxRoomArea: real := 500000.0
  const ConfidenceBase: real := 0.7
  const RectangleBonus: real := 0.15
  const ConvexBonus: real := 0.1
  const ConfidenceCap: real := 0.95
  const DefaultIouThreshold: real := 0.3
  const ModelVersion := "phase_1_opencv"

  /** An image dimension in pixels. */
  type Dim = d: int | d > 0 witness 1

  /** Python's `int()` on a float: truncation toward zero. */
  function Trunc(r: real): (n: int)
    ensures r >= 0.0 ==> n as real <= r < n as real + 1.0
    ensures r < 0.0 ==> n as real - 1.0 < r <= n as real
  {
    if r >= 0.0 then r.Floor else -((-r).Floor)
  }

  /**
   * Python's `round(x, 2)`: the nearest whole number of hundredths, a tie going to the even
   * count of hundredths.
   */
  function Round2(x: real): (r: real)
    ensures (r * 100.0).Floor as real == r * 100.0
    ensures -0.5 <= x * 100.0 - r * 100.0 <= 0.5
    ensures x * 100.0 - r * 100.0 == 0.5 || r * 100.0 - x * 100.0 == 0.5 ==> (r * 100.0).Floor % 2 == 0
  {
    var y := x * 100.0;
    var n := y.Floor;
    var m := if y - n as real > 0.5 then n + 1
             else if y - n as real < 0.5 then n
             else if n % 2 == 0 then n else n + 1;
    assert (m as real / 100.0) * 100.0 == m as real;
    m as real / 100.0
  }

  /** A value that already is a whole number of hundredths is left as it is. */
  lemma Round2Exact(x: real)
    requires (x * 100.0).Floor as real == x * 100.0
    ensures Round2(x) == x
  {
    assert (x * 100.0).Floor as real / 100.0 == x;
  }

  /** `int((v / dim) * 1000)`. */
  function NormalizeCoordinate(v: int, dim: Dim): (n: int)
    ensures 0 <= v <= dim ==> 0 <= n <= 1000
    ensures v == 0 ==> n == 0
    ensures v == dim ==> n == 1000
  {
    var scaled := v as real / dim as real * NormalizedRange;
    assert v == dim ==> v as real / dim as real == 1.0;
    assert 0 <= v <= dim ==> 0.0 <= scaled <= NormalizedRange by {
      if 0 <= v <= dim {
        ScaledWithin(v, dim);
      }
    }
    Trunc(scaled)
  }

  lemma ScaledWithin(v: int, dim: Dim)
    requires 0 <= v <= dim
    ensures 0.0 <= v as real / dim as real * NormalizedRange <= NormalizedRange
  {
    assert v as real / dim as real <= 1.0;
  }

  /** A coordinate inside the image lands in 0..1000, the far edge exactly on 1000. */
  lemma CoordinateInRange(v: int, dim: Dim)
    requires 0 <= v <= dim
    ensures 0 <= NormalizeCoordinate(v, dim) <= 1000
    ensures v == dim ==> NormalizeCoordinate(v, dim) == 1000
  {
    ScaledWithin(v, dim);
  }

  lemma ScaledMonotone(v: int, w: int, dim: Dim)
    requires v <= w
    ensures v as real / dim as real * NormalizedRange <= w as real / dim as real * NormalizedRange
  {
    assert v as real / dim as real <= w as real / dim as real;
  }

  /** Truncation keeps the order of coordinates, so a well-formed box stays well-formed. */
  lemma CoordinateMonotone(v: int, w: int, dim: Dim)
    requires 0 <= v <= w
    ensures NormalizeCoordinate(v, dim) <= NormalizeCoordinate(w, dim)
  {
    ScaledMonotone(v, w, dim);
  }

  datatype IntBox = IntBox(xMin: int, yMin: int, xMax: int, yMax: int)

  predicate WellFormed(b: IntBox) {
    b.xMin <= b.xMax && b.yMin <= b.yMax
  }

  predicate InsideImage(b: IntBox, height: Dim, width: Dim) {
    0 <= b.xMin <= b.xMax <= width && 0 <= b.yMin <= b.yMax <= height
  }

  /** `normalize_coordinates`: x components over the width, y components over the height. */
  function NormalizeCoordinates(b: IntBox, height: Dim, width: Dim): (r: IntBox)
    ensures b == IntBox(0, 0, width, height) ==> r == IntBox(0, 0, 1000, 1000)
  {
    IntBox(
      NormalizeCoordinate(b.xMin, width), NormalizeCoordinate(b.yMin, height),
      NormalizeCoordinate(b.xMax, width), NormalizeCoordinate(b.yMax, height))
  }

  /** The x components depend only on the width and the y components only on the height. */
  lemma NormalizeUsesMatchingDimension(b: IntBox, h1: Dim, h2: Dim, w1: Dim, w2: Dim)
    ensures NormalizeCoordinates(b, h1, w1).xMin == NormalizeCoordinates(b, h2, w1).xMin
    ensures NormalizeCoordinates(b, h1, w1).xMax == NormalizeCoordinates(b, h2, w1).xMax
    ensures NormalizeCoordinates(b, h1, w1).yMin == NormalizeCoordinates(b, h1, w2).yMin
    ensures NormalizeCoordinates(b, h1, w1).yMax == NormalizeCoordinates(b, h1, w2).yMax
  {
  }

  /** A box inside the image becomes a well-formed box inside 0..1000. */
  lemma NormalizedBoxInRange(b: IntBox, height: Dim, width: Dim)
    requires InsideImage(b, height, width)
    ensures var n := NormalizeCoordinates(b, height, width);
      WellFormed(n) && 0 <= n.xMin && n.xMax <= 1000 && 0 <= n.yMin && n.yMax <= 1000
  {
    CoordinateInRange(b.xMin, width);
    CoordinateInRange(b.xMax, width);
    CoordinateInRange(b.yMin, height);
    CoordinateInRange(b.yMax, height);
    CoordinateMonotone(b.xMin, b.xMax, width);
    CoordinateMonotone(b.yMin, b.yMax, height);
  }

  /** The abstract contour: area, approximation vertex count and convexity, bounding rectangle. */
  datatype Contour = Contour(area: real, vertices: nat, convex: bool, x: int, y: int, w: nat, h: nat)

  /** `contour_to_bounding_box`: the rectangle as corners. */
  function BoundingBox(c: Contour): (b: IntBox)
    ensures WellFormed(b)
    ensures b.xMax - b.xMin == c.w && b.yMax - b.yMin == c.h
  {
    IntBox(c.x, c.y, c.x + c.w, c.y + c.h)
  }

  /** `calculate_confidence`: base 0.7, +0.15 for four vertices, +0.1 when convex, capped at 0.95. */
  function CalculateConfidence(vertices: nat, convex: bool): (confidence: real)
    ensures ConfidenceBase <= confidence <= ConfidenceCap
    ensures confidence == ConfidenceCap <==> vertices == 4 && convex
    ensures confidence == ConfidenceBase <==> vertices != 4 && !convex
    ensures vertices == 4 && !convex ==> confidence == 0.85
    ensures vertices != 4 && convex ==> confidence == 0.8
  {
    var c0 := ConfidenceBase;
    var c1 := if vertices == 4 then c0 + RectangleBonus else c0;
    var c2 := if convex then c1 + ConvexBonus else c1;
    if c2 <= ConfidenceCap then c2 else ConfidenceCap
  }

  /** Every score is a whole number of hundredths, so `round(confidence, 2)` leaves it unchanged. */
  lemma RoundedConfidenceUnchanged(vertices: nat, convex: bool)
    ensures Round2(CalculateConfidence(vertices, convex)) == CalculateConfidence(vertices, convex)
  {
    var c := CalculateConfidence(vertices, convex);
    assert c == 0.95 || c == 0.85 || c == 0.8 || c == 0.7;
    Round2Exact(c);
  }

  /** With exact arithmetic the cap never lowers a score: the largest uncapped sum is the cap itself. */
  lemma CapNeverBinds()
    ensures ConfidenceBase + RectangleBonus + ConvexBonus == ConfidenceCap
  {
  }

  function MaxReal(a: real, b: real): real { if a >= b then a else b }
  function MinReal(a: real, b: real): real { if a <= b then a else b }

  /** `max(MIN_ROOM_AREA, image_area * 0.005)`. */
  function MinArea(imageArea: int): (a: real)
    ensures a >= MinRoomArea && a >= imageArea as real * 0.005
    ensures a == MinRoomArea || a == imageArea as real * 0.005
  {
    MaxReal(MinRoomArea, imageArea as real * 0.005)
  }

  /** `min(MAX_ROOM_AREA, image_area * 0.4)`. */
  function MaxArea(imageArea: int): (a: real)
    ensures a <= MaxRoomArea && a <= imageArea as real * 0.4
    ensures a == MaxRoomArea || a == imageArea as real * 0.4
  {
    MinReal(MaxRoomArea, imageArea as real * 0.4)
  }

  /** The strict area window of `find_room_contours`. */
  predicate InAreaWindow(area: real, imageArea: int)
    ensures InAreaWindow(area, imageArea) ==> MinRoomArea < area < MaxRoomArea
  {
    MinArea(imageArea) < area < MaxArea(imageArea)
  }

  /** Images of at most 12,500 pixels, or of at least 100,000,000, can yield no room at all. */
  lemma WindowEmptyOutside(imageArea: int)
    requires imageArea <= 12500 || imageArea >= 100000000
    ensures forall area :: !InAreaWindow(area, imageArea)
  {
  }

  /** Between those sizes the window is non-empty: its midpoint is inside. */
  lemma WindowNonEmptyInside(imageArea: int)
    requires 12500 < imageArea < 100000000
    ensures MinArea(imageArea) < MaxArea(imageArea)
    ensures InAreaWindow((MinArea(imageArea) + MaxArea(imageArea)) / 2.0, imageArea)
  {
  }

  /** The contours of `cs` whose area lies in the window, in their order. */
  function KeepInWindow(cs: seq<Contour>, imageArea: int): (kept: seq<Contour>)
    ensures |kept| <= |cs|
    ensures forall c :: c in kept ==> c in cs && InAreaWindow(c.area, imageArea)
  {
    if cs == [] then []
    else
      var last := cs[|cs| - 1];
      KeepInWindow(cs[..|cs| - 1], imageArea) + (if InAreaWindow(last.area, imageArea) then [last] else [])
  }

  /** Every contour whose area lies in the window is kept. */
  lemma {:induction false} KeepInWindowComplete(cs: seq<Contour>, imageArea: int, c: Contour)
    requires c in cs && InAreaWindow(c.area, imageArea)
    ensures c in KeepInWindow(cs, imageArea)
  {
    if cs[|cs| - 1] != c {
      assert c in cs[..|cs| - 1];
      KeepInWindowComplete(cs[..|cs| - 1], imageArea, c);
    }
  }

  /** The filtering loop of `find_room_contours` over the image of `height` by `width` pixels. */
  method FindRoomContours(contours: seq<Contour>, height: Dim, width: Dim) returns (valid: seq<Contour>)
    ensures valid == KeepInWindow(contours, height * width)
  {
    var imageArea := height * width;
    valid := [];
    var i := 0;
    while i < |contours|
      invariant 0 <= i <= |contours|
      invariant valid == KeepInWindow(contours[..i], imageArea)
    {
      assert contours[..i + 1][..i] == contours[..i];
      if InAreaWindow(contours[i].area, imageArea) {
        valid := valid + [contours[i]];
      }
      i := i + 1;
    }
    assert contours[..|contours|] == contours;
  }

  /** A detected room as the backend reports it. */
  datatype Room = Room(id: string, box: IntBox, confidence: real, nameHint: Option<string>)

  /** `f'room_{idx:03d}'`: the prefix, then the index in decimal, zero-padded to three digits. */
  function RoomId(idx: nat): (id: string)
    ensures |id| >= 8 && id[..5] == "room_"
    ensures Text.IsDigits(id[5..]) && Text.DecimalValue(id[5..]) == idx
    ensures |id| == 5 + (if idx < 1000 then 3 else |Text.NatToString(idx)|)
  {
    var id := "room_" + Text.ZeroPad3(idx);
    assert id[5..] == Text.ZeroPad3(idx);
    id
  }

  /** Different positions get different ids. */
  lemma RoomIdInjective(i: nat, j: nat)
    requires RoomId(i) == RoomId(j)
    ensures i == j
  {
    assert RoomId(i)[5..] == Text.ZeroPad3(i);
    assert RoomId(j)[5..] == Text.ZeroPad3(j);
  }

  /** The room built from the `idx`-th kept contour. */
  function CandidateRoom(idx: nat, c: Contour, height: Dim, width: Dim): (r: Room)
    ensures r.id == RoomId(idx) && r.nameHint.None?
    ensures r.confidence == CalculateConfidence(c.vertices, c.convex)
  {
    RoundedConfidenceUnchanged(c.vertices, c.convex);
    Room(RoomId(idx), NormalizeCoordinates(BoundingBox(c), height, width),
         Round2(CalculateConfidence(c.vertices, c.convex)), None)
  }

  function Candidates(valid: seq<Contour>, height: Dim, width: Dim): (rooms: seq<Room>)
    ensures |rooms| == |valid|
    ensures forall k :: 0 <= k < |valid| ==> rooms[k] == CandidateRoom(k, valid[k], height, width)
  {
    seq(|valid|, k requires 0 <= k < |valid| => CandidateRoom(k, valid[k], height, width))
  }

  predicate UniqueIds(rooms: seq<Room>) {
    forall i, j :: 0 <= i < j < |rooms| ==> rooms[i].id != rooms[j].id
  }

  /** Candidate ids are distinct. */
  lemma CandidateIdsUnique(valid: seq<Contour>, height: Dim, width: Dim)
    ensures UniqueIds(Candidates(valid, height, width))
  {
  }

  /** Selecting and reordering rooms with distinct ids keeps the ids distinct. */
  lemma SubMultisetKeepsUniqueIds(original: seq<Room>, rooms: seq<Room>)
    requires UniqueIds(original) && multiset(rooms) <= multiset(original)
    ensures UniqueIds(rooms)
  {
    forall i, j | 0 <= i < j < |rooms|
      ensures rooms[i].id != rooms[j].id
    {
      assert rooms[i] in multiset(original) && rooms[j] in multiset(original);
      SameIdSameRoom(original, rooms[i], rooms[j]);
      if rooms[i] == rooms[j] {
        RepeatCountsTwice(rooms, i, j);
        UniqueIdsCountOnce(original, rooms[i]);
      }
    }
  }

  lemma SameIdSameRoom(s: seq<Room>, x: Room, y: Room)
    requires UniqueIds(s) && x in s && y in s
    ensures x.id == y.id ==> x == y
  {
    var a :| 0 <= a < |s| && s[a] == x;
    var b :| 0 <= b < |s| && s[b] == y;
    assert x.id == y.id ==> a == b;
  }

  lemma RepeatCountsTwice<T>(s: seq<T>, i: nat, j: nat)
    requires i < j < |s| && s[i] == s[j]
    ensures multiset(s)[s[i]] >= 2
  {
    assert s == s[..j] + [s[j]] + s[j + 1..];
    assert s[i] in s[..j];
  }

  lemma {:induction false} UniqueIdsCountOnce(s: seq<Room>, x: Room)
    requires UniqueIds(s)
    ensures multiset(s)[x] <= 1
  {
    if s != [] {
      var init := s[..|s| - 1];
      assert s == init + [s[|s| - 1]];
      UniqueIdsCountOnce(init, x);
      if s[|s| - 1] == x {
        assert x !in init by {
          forall k | 0 <= k < |init| ensures init[k] != x {
            assert init[k].id != s[|s| - 1].id;
          }
        }
      }
    }
  }

  function MaxInt(a: int, b: int): int { if a >= b then a else b }
  function MinInt(a: int, b: int): int { if a <= b then a else b }

  function Area(b: IntBox): int {
    (b.xMax - b.xMin) * (b.yMax - b.yMin)
  }

  /** The overlap rectangle of two boxes; it has positive area only when both extents are positive. */
  function Overlap(a: IntBox, b: IntBox): IntBox {
    IntBox(MaxInt(a.xMin, b.xMin), MaxInt(a.yMin, b.yMin), MinInt(a.xMax, b.xMax), MinInt(a.yMax, b.yMax))
  }

  predicate Intersects(a: IntBox, b: IntBox) {
    var o := Overlap(a, b);
    o.xMax > o.xMin && o.yMax > o.yMin
  }

  /** Intersection over union: 0 without a positive-area intersection, and 0 when the union is not positive. */
  function Iou(a: IntBox, b: IntBox): (r: real)
    ensures !Intersects(a, b) ==> r == 0.0
  {
    if Intersects(a, b) then
      var inter := Area(Overlap(a, b));
      var union := Area(a) + Area(b) - inter;
      if union > 0 then inter as real / union as real else 0.0
    else 0.0
  }

  lemma IouSymmetric(a: IntBox, b: IntBox)
    ensures Iou(a, b) == Iou(b, a)
  {
    assert Overlap(a, b) == Overlap(b, a);
  }

  /**
   * `merge_overlapping_boxes` marks a later box as used only inside the intersection test, so a
   * box suppresses another when the two intersect and their IoU exceeds the threshold.
   */
  predicate Suppresses(a: IntBox, b: IntBox, threshold: real) {
    Intersects(a, b) && Iou(a, b) > threshold
  }

  /** Suppression does not depend on which box is the more confident one. */
  lemma SuppressesSymmetric(a: IntBox, b: IntBox, threshold: real)
    ensures Suppresses(a, b, threshold) == Suppresses(b, a, threshold)
  {
    assert Overlap(a, b) == Overlap(b, a);
    IouSymmetric(a, b);
  }

  /** Disjoint boxes never suppress each other, whatever the threshold, even a negative one. */
  lemma DisjointNeverSuppress(a: IntBox, b: IntBox, threshold: real)
    requires !Intersects(a, b)
    ensures !Suppresses(a, b, threshold) && !Suppresses(b, a, threshold)
  {
    SuppressesSymmetric(a, b, threshold);
  }

  /** For a non-negative threshold the intersection test adds nothing to the IoU comparison. */
  lemma SuppressesAtNonNegativeThreshold(a: IntBox, b: IntBox, threshold: real)
    requires threshold >= 0.0
    ensures Suppresses(a, b, threshold) <==> Iou(a, b) > threshold
  {
  }

  lemma MulMonotone(p: int, q: int, r: int, s: int)
    requires 0 <= p <= r && 0 <= q <= s
    ensures p * q <= r * s
  {
    assert p * q <= r * q;
    assert r * q <= r * s;
  }

  lemma MulPositive(p: int, q: int)
    requires p > 0 && q > 0
    ensures p * q > 0
  {
  }

  lemma RatioAtMostOne(n: int, d: int)
    requires 0 < n <= d
    ensures 0.0 < n as real / d as real <= 1.0
  {
  }

  /** For well-formed boxes IoU lies in [0, 1]. */
  lemma IouBounds(a: IntBox, b: IntBox)
    requires WellFormed(a) && WellFormed(b)
    ensures 0.0 <= Iou(a, b) <= 1.0
  {
    if Intersects(a, b) {
      var o := Overlap(a, b);
      MulPositive(o.xMax - o.xMin, o.yMax - o.yMin);
      MulMonotone(o.xMax - o.xMin, o.yMax - o.yMin, a.xMax - a.xMin, a.yMax - a.yMin);
      MulMonotone(o.xMax - o.xMin, o.yMax - o.yMin, b.xMax - b.xMin, b.yMax - b.yMin);
      RatioAtMostOne(Area(o), Area(a) + Area(b) - Area(o));
    }
  }

  /** A box with positive area overlaps itself completely. */
  lemma IouSelf(a: IntBox)
    requires a.xMax > a.xMin && a.yMax > a.yMin
    ensures Iou(a, a) == 1.0
  {
    assert Overlap(a, a) == a;
    MulPositive(a.xMax - a.xMin, a.yMax - a.yMin);
    var n := Area(a);
    assert Area(a) + Area(a) - Area(Overlap(a, a)) == n;
    assert n as real / n as real == 1.0;
  }

  function ConfidenceKey(r: Room): real { r.confidence }
  function AreaKey(r: Room): real { Area(r.box) as real }

  /**
   * The inner loop of `merge_overlapping_boxes` for the kept box at position `i`: every
   * later position not yet suppressed that overlaps it too much is added. The overlap
   * test is a parameter so that the loop reasoning stays apart from the IoU arithmetic.
   */
  method MarkSuppressed<T>(sorted: seq<T>, i: int, overlaps: (T, T) -> bool, used: set<int>) returns (marked: set<int>)
    requires 0 <= i < |sorted|
    ensures used <= marked
    ensures forall x :: x in marked && x !in used ==> i < x < |sorted| && overlaps(sorted[i], sorted[x])
    ensures forall x :: i < x < |sorted| && x !in marked ==> !overlaps(sorted[i], sorted[x])
  {
    marked := used;
    var j := i + 1;
    while j < |sorted|
      invariant i + 1 <= j <= |sorted|
      invariant used <= marked
      invariant forall x :: x in marked && x !in used ==> i < x < j && overlaps(sorted[i], sorted[x])
      invariant forall x :: i < x < j && x !in marked ==> !overlaps(sorted[i], sorted[x])
    {
      if j !in marked && overlaps(sorted[i], sorted[j]) {
        marked := marked + {j};
      }
      j := j + 1;
    }
  }

  /** The kept positions so far: increasing, below `i`, starting at 0, with `merged` their boxes. */
  ghost predicate KeptPositions<T>(sorted: seq<T>, i: int, merged: seq<T>, kept: seq<int>) {
    && 0 <= i <= |sorted|
    && |merged| == |kept|
    && (forall t :: 0 <= t < |kept| ==> 0 <= kept[t] < i && merged[t] == sorted[kept[t]])
    && (forall s, t :: 0 <= s < t < |kept| ==> kept[s] < kept[t])
    && (i > 0 ==> |kept| > 0 && kept[0] == 0)
  }

  /** Each visited position is kept or suppressed, never both. */
  ghost predicate Partitioned(i: int, used: set<int>, kept: seq<int>) {
    forall j :: 0 <= j < i ==> (j in kept) != (j in used)
  }

  /** Each suppressed position has a kept, earlier suppressor that overlaps it; a kept box overlaps no later unsuppressed box. */
  ghost predicate SuppressorsOverlap<T>(sorted: seq<T>, overlaps: (T, T) -> bool, used: set<int>,
                                        kept: seq<int>, suppressor: map<int, int>) {
    && used == suppressor.Keys
    && (forall j :: j in suppressor ==>
          suppressor[j] in kept && 0 <= suppressor[j] < j < |sorted| && overlaps(sorted[suppressor[j]], sorted[j]))
    && (forall t, j :: 0 <= t < |kept| && 0 <= kept[t] < j < |sorted| && j !in used ==>
          !overlaps(sorted[kept[t]], sorted[j]))
  }

  /** The state of the greedy loop after the first `i` positions. */
  ghost predicate SuppressionState<T>(sorted: seq<T>, overlaps: (T, T) -> bool, i: int, used: set<int>,
                                      merged: seq<T>, kept: seq<int>, suppressor: map<int, int>)
  {
    && KeptPositions(sorted, i, merged, kept)
    && Partitioned(i, used, kept)
    && SuppressorsOverlap(sorted, overlaps, used, kept, suppressor)
  }

  /** Keeping position `i` appends it to the kept positions. */
  lemma KeepStepPositions<T>(sorted: seq<T>, i: int, merged: seq<T>, kept: seq<int>)
    requires KeptPositions(sorted, i, merged, kept) && i < |sorted|
    ensures KeptPositions(sorted, i + 1, merged + [sorted[i]], kept + [i])
  {
    var kept2, merged2 := kept + [i], merged + [sorted[i]];
    forall t | 0 <= t < |kept2|
      ensures 0 <= kept2[t] < i + 1 && merged2[t] == sorted[kept2[t]]
    {
      if t < |kept| {
        assert kept2[t] == kept[t] && merged2[t] == merged[t];
      }
    }
    forall s, t | 0 <= s < t < |kept2|
      ensures kept2[s] < kept2[t]
    {
      assert kept2[s] == kept[s];
    }
  }

  /** Every visited position is either kept or suppressed, never both, after keeping `i`. */
  lemma KeepStepMembership(i: int, used: set<int>, kept: seq<int>, marked: set<int>)
    requires 0 <= i && i !in used && used <= marked
    requires forall t :: 0 <= t < |kept| ==> 0 <= kept[t] < i
    requires Partitioned(i, used, kept)
    requires forall x :: x in marked && x !in used ==> i < x
    ensures Partitioned(i + 1, marked, kept + [i])
  {
    forall j | 0 <= j < i + 1
      ensures (j in kept + [i]) != (j in marked)
    {
      if j == i {
        assert i !in kept;
      } else {
        assert (j in kept + [i]) == (j in kept);
      }
    }
  }

  /** The positions `i` marks get `i` as their suppressor, and `i` overlaps none it left. */
  lemma KeepStepSuppressors<T>(sorted: seq<T>, overlaps: (T, T) -> bool, i: int, used: set<int>,
                               kept: seq<int>, suppressor: map<int, int>, marked: set<int>)
    requires SuppressorsOverlap(sorted, overlaps, used, kept, suppressor)
    requires forall t :: 0 <= t < |kept| ==> 0 <= kept[t] < i
    requires 0 <= i < |sorted| && used <= marked
    requires forall x :: x in marked && x !in used ==> i < x < |sorted| && overlaps(sorted[i], sorted[x])
    requires forall x :: i < x < |sorted| && x !in marked ==> !overlaps(sorted[i], sorted[x])
    ensures SuppressorsOverlap(sorted, overlaps, marked, kept + [i],
                               map x | x in marked :: if x in suppressor then suppressor[x] else i)
  {
    var kept2 := kept + [i];
    var sup2 := map x | x in marked :: if x in suppressor then suppressor[x] else i;
    assert sup2.Keys == marked;
    forall j | j in sup2
      ensures sup2[j] in kept2 && 0 <= sup2[j] < j < |sorted| && overlaps(sorted[sup2[j]], sorted[j])
    {
      if j in suppressor {
        assert suppressor[j] in kept;
      }
    }
    forall t, j | 0 <= t < |kept2| && 0 <= kept2[t] < j < |sorted| && j !in marked
      ensures !overlaps(sorted[kept2[t]], sorted[j])
    {
      if t < |kept| {
        assert kept2[t] == kept[t];
      }
    }
  }

  /** Keeping position `i`: it joins the kept positions and owns the positions it marked. */
  lemma KeepStep<T>(sorted: seq<T>, overlaps: (T, T) -> bool, i: int, used: set<int>,
                    merged: seq<T>, kept: seq<int>, suppressor: map<int, int>, marked: set<int>)
    requires SuppressionState(sorted, overlaps, i, used, merged, kept, suppressor)
    requires 0 <= i < |sorted| && i !in used
    requires used <= marked
    requires forall x :: x in marked && x !in used ==> i < x < |sorted| && overlaps(sorted[i], sorted[x])
    requires forall x :: i < x < |sorted| && x !in marked ==> !overlaps(sorted[i], sorted[x])
    ensures SuppressionState(sorted, overlaps, i + 1, marked, merged + [sorted[i]], kept + [i],
                             map x | x in marked :: if x in suppressor then suppressor[x] else i)
  {
    KeepStepPositions(sorted, i, merged, kept);
    KeepStepMembership(i, used, kept, marked);
    KeepStepSuppressors(sorted, overlaps, i, used, kept, suppressor, marked);
  }

  /** Skipping a suppressed position changes nothing but the position. */
  lemma SkipStep<T>(sorted: seq<T>, overlaps: (T, T) -> bool, i: int, used: set<int>,
                    merged: seq<T>, kept: seq<int>, suppressor: map<int, int>)
    requires SuppressionState(sorted, overlaps, i, used, merged, kept, suppressor)
    requires 0 <= i < |sorted| && i in used
    ensures SuppressionState(sorted, overlaps, i + 1, used, merged, kept, suppressor)
  {
  }

  /**
   * What the greedy loop guarantees: `merged` are the boxes at the increasing positions `kept`,
   * the first box is kept, every position is kept or suppressed and not both, each suppressed
   * position is overlapped by an earlier kept one, and no two kept boxes overlap.
   */
  ghost predicate GreedyOutcome<T>(sorted: seq<T>, overlaps: (T, T) -> bool,
                                   merged: seq<T>, kept: seq<int>, suppressor: map<int, int>) {
    && |merged| == |kept|
    && (forall t :: 0 <= t < |kept| ==> 0 <= kept[t] < |sorted| && merged[t] == sorted[kept[t]])
    && (forall s, t :: 0 <= s < t < |kept| ==> kept[s] < kept[t])
    && (|sorted| > 0 ==> |kept| > 0 && kept[0] == 0)
    && (forall j :: 0 <= j < |sorted| ==> (j in kept) != (j in suppressor))
    && (forall j :: j in suppressor ==>
          suppressor[j] in kept && 0 <= suppressor[j] < j < |sorted| && overlaps(sorted[suppressor[j]], sorted[j]))
    && (forall s, t :: 0 <= s < t < |kept| ==> !overlaps(sorted[kept[s]], sorted[kept[t]]))
  }

  /** Once every position is visited, the loop state is the greedy outcome. */
  lemma FinalState<T>(sorted: seq<T>, overlaps: (T, T) -> bool, used: set<int>,
                      merged: seq<T>, kept: seq<int>, suppressor: map<int, int>)
    requires SuppressionState(sorted, overlaps, |sorted|, used, merged, kept, suppressor)
    ensures GreedyOutcome(sorted, overlaps, merged, kept, suppressor)
  {
    forall s, t | 0 <= s < t < |kept|
      ensures !overlaps(sorted[kept[s]], sorted[kept[t]])
    {
      assert kept[t] in kept;
    }
  }

  /**
   * The greedy loop of `merge_overlapping_boxes` over boxes already ordered by confidence:
   * each box not yet suppressed is kept and suppresses every later box not yet suppressed
   * that it overlaps too much. `kept` are the positions kept; `suppressor` maps each
   * suppressed position to the kept position that suppressed it.
   */
  method SuppressOverlaps<T>(sorted: seq<T>, overlaps: (T, T) -> bool)
    returns (merged: seq<T>, ghost kept: seq<int>, ghost suppressor: map<int, int>)
    ensures GreedyOutcome(sorted, overlaps, merged, kept, suppressor)
  {
    merged := [];
    kept := [];
    suppressor := map[];
    var used: set<int> := {};
    var i := 0;
    while i < |sorted|
      invariant SuppressionState(sorted, overlaps, i, used, merged, kept, suppressor)
    {
      if i in used {
        SkipStep(sorted, overlaps, i, used, merged, kept, suppressor);
        i := i + 1;
        continue;
      }
      var marked := MarkSuppressed(sorted, i, overlaps, used);
      KeepStep(sorted, overlaps, i, used, merged, kept, suppressor, marked);
      suppressor := map x | x in marked :: if x in suppressor then suppressor[x] else i;
      used := marked;
      merged := merged + [sorted[i]];
      kept := kept + [i];
      i := i + 1;
    }
    FinalState(sorted, overlaps, used, merged, kept, suppressor);
  }

  /** Positions picked in increasing order form a subsequence, so nothing is picked more often than it occurs. */
  lemma {:induction false} PickedIsSubMultiset<T>(s: seq<T>, kept: seq<int>, picked: seq<T>)
    requires |picked| == |kept|
    requires forall t :: 0 <= t < |kept| ==> 0 <= kept[t] < |s| && picked[t] == s[kept[t]]
    requires forall a, b :: 0 <= a < b < |kept| ==> kept[a] < kept[b]
    ensures multiset(picked) <= multiset(s)
    decreases |s|
  {
    if |kept| > 0 {
      var n := |kept| - 1;
      var last := kept[n];
      var prefix, before := picked[..n], s[..last];
      forall t | 0 <= t < n
        ensures 0 <= kept[..n][t] < |before| && prefix[t] == before[kept[..n][t]]
      {
        assert kept[t] < last;
      }
      PickedIsSubMultiset(before, kept[..n], prefix);
      assert picked == prefix + [s[last]];
      assert multiset(picked) == multiset(prefix) + multiset{s[last]};
      assert s == before + [s[last]] + s[last + 1..];
      assert multiset(s) == multiset(before) + multiset{s[last]} + multiset(s[last + 1..]);
    }
  }

  /** The suppression test of `merge_overlapping_boxes` at a given threshold, as a function on rooms. */
  function SuppressionTest(threshold: real): (Room, Room) -> bool {
    (a: Room, b: Room) => Suppresses(a.box, b.box, threshold)
  }

  /**
   * The outcome of `merge_overlapping_boxes`: `sorted` is the stable descending confidence order
   * of the boxes, and `merged` is the greedy outcome over it, keeping the positions `kept`.
   */
  ghost predicate MergeOutcome(boxes: seq<Room>, threshold: real, merged: seq<Room>,
                               sorted: seq<Room>, kept: seq<int>, suppressor: map<int, int>) {
    && Sorting.SortedDesc(sorted, ConfidenceKey)
    && Sorting.SameGroups(sorted, boxes, ConfidenceKey)
    && GreedyOutcome(sorted, SuppressionTest(threshold), merged, kept, suppressor)
  }

  /**
   * `merge_overlapping_boxes`: at most one box is returned unchanged; otherwise the boxes are
   * ordered by confidence, highest first, stably, and greedily suppressed. Nothing is invented,
   * the most confident box survives, no two survivors overlap beyond the threshold, and every
   * box that did not survive is overlapped beyond it by a survivor at least as confident.
   * `MergeOutcomeIsUnique` shows the outcome leaves no choice, among equal confidences included.
   */
  method MergeOverlappingBoxes(boxes: seq<Room>, threshold: real)
    returns (merged: seq<Room>, ghost sorted: seq<Room>, ghost kept: seq<int>, ghost suppressor: map<int, int>)
    ensures |boxes| <= 1 ==> merged == boxes
    ensures MergeOutcome(boxes, threshold, merged, sorted, kept, suppressor)
    ensures multiset(merged) <= multiset(boxes)
    ensures Sorting.SortedDesc(merged, ConfidenceKey)
    ensures boxes != [] ==> merged != [] && forall b :: b in boxes ==> merged[0].confidence >= b.confidence
    ensures forall s, t :: 0 <= s < t < |merged| ==> !Suppresses(merged[s].box, merged[t].box, threshold)
    ensures forall b :: b in boxes ==> Covered(b, merged, threshold)
  {
    if |boxes| <= 1 {
      merged, sorted, kept, suppressor := boxes, boxes, if boxes == [] then [] else [0], map[];
      forall b | b in boxes
        ensures Covered(b, merged, threshold)
      {
      }
      return;
    }
    var ordered := Sorting.SortDesc(boxes, ConfidenceKey);
    sorted := ordered;
    merged, kept, suppressor := SuppressOverlaps(ordered, SuppressionTest(threshold));
    PickedIsSubMultiset(sorted, kept, merged);
    PickedStaySorted(sorted, kept, merged);
    SurvivorsCoverAll(sorted, merged, kept, suppressor, threshold);
    forall b | b in boxes
      ensures b in sorted
    {
      assert b in multiset(sorted);
    }
  }

  /** Two greedy outcomes over the same order keep the same positions, by induction on the position. */
  lemma {:induction false} GreedyKeepsSamePositions<T>(sorted: seq<T>, overlaps: (T, T) -> bool, n: nat,
                                                       m1: seq<T>, k1: seq<int>, s1: map<int, int>,
                                                       m2: seq<T>, k2: seq<int>, s2: map<int, int>)
    requires n <= |sorted|
    requires GreedyOutcome(sorted, overlaps, m1, k1, s1) && GreedyOutcome(sorted, overlaps, m2, k2, s2)
    ensures forall j :: 0 <= j < n ==> (j in k1 <==> j in k2)
  {
    if n > 0 {
      GreedyKeepsSamePositions(sorted, overlaps, n - 1, m1, k1, s1, m2, k2, s2);
      var j := n - 1;
      if j in k1 && j !in k2 {
        GreedyConflict(sorted, overlaps, j, m1, k1, s1, m2, k2, s2);
      } else if j in k2 && j !in k1 {
        GreedyConflict(sorted, overlaps, j, m2, k2, s2, m1, k1, s1);
      }
    }
  }

  /** In a strictly increasing sequence, a smaller element sits at an earlier index. */
  lemma IncreasingIndexOrder(a: seq<int>, s: int, t: int)
    requires forall x, y :: 0 <= x < y < |a| ==> a[x] < a[y]
    requires 0 <= s < |a| && 0 <= t < |a| && a[s] < a[t]
    ensures s < t
  {
  }

  /** The first element of a strictly increasing sequence is its least. */
  lemma IncreasingFirstIsLeast(a: seq<int>)
    requires forall x, y :: 0 <= x < y < |a| ==> a[x] < a[y]
    requires a != []
    ensures forall x :: x in a ==> a[0] <= x
  {
    forall x | x in a
      ensures a[0] <= x
    {
      var k :| 0 <= k < |a| && a[k] == x;
      if k > 0 {
        assert a[0] < a[k];
      }
    }
  }

  /** No kept position is overlapped by an earlier kept one. */
  lemma KeptHasNoEarlierOverlap<T>(sorted: seq<T>, overlaps: (T, T) -> bool, j: int,
                                   merged: seq<T>, kept: seq<int>, suppressor: map<int, int>)
    requires GreedyOutcome(sorted, overlaps, merged, kept, suppressor)
    requires j in kept
    ensures forall i :: i in kept && i < j ==> !overlaps(sorted[i], sorted[j])
  {
    forall i | i in kept && i < j
      ensures !overlaps(sorted[i], sorted[j])
    {
      var s :| 0 <= s < |kept| && kept[s] == i;
      var t :| 0 <= t < |kept| && kept[t] == j;
      IncreasingIndexOrder(kept, s, t);
    }
  }

  /**
   * When two outcomes agree on every position before `j`, a position kept by the first is kept
   * by the second: otherwise its suppressor, kept by both, would overlap it in the first.
   */
  lemma GreedyConflict<T>(sorted: seq<T>, overlaps: (T, T) -> bool, j: int,
                          m1: seq<T>, k1: seq<int>, s1: map<int, int>,
                          m2: seq<T>, k2: seq<int>, s2: map<int, int>)
    requires 0 <= j < |sorted|
    requires GreedyOutcome(sorted, overlaps, m1, k1, s1) && GreedyOutcome(sorted, overlaps, m2, k2, s2)
    requires forall i :: 0 <= i < j ==> (i in k1 <==> i in k2)
    requires j in k1
    ensures j in k2
  {
    KeptHasNoEarlierOverlap(sorted, overlaps, j, m1, k1, s1);
  }

  /** Two strictly increasing sequences with the same elements are equal. */
  lemma {:induction false} IncreasingUnique(a: seq<int>, b: seq<int>)
    requires forall s, t :: 0 <= s < t < |a| ==> a[s] < a[t]
    requires forall s, t :: 0 <= s < t < |b| ==> b[s] < b[t]
    requires forall x :: x in a <==> x in b
    decreases |a|
    ensures a == b
  {
    assert |a| == 0 || a[0] in a;
    assert |b| == 0 || b[0] in b;
    if a != [] && b != [] {
      IncreasingFirstIsLeast(a);
      IncreasingFirstIsLeast(b);
      assert a[0] in b && b[0] in a;
      assert a[0] == b[0];
      forall x
        ensures x in a[1..] <==> x in b[1..]
      {
        assert x in a <==> x == a[0] || x in a[1..] by { assert a == [a[0]] + a[1..]; }
        assert x in b <==> x == b[0] || x in b[1..] by { assert b == [b[0]] + b[1..]; }
        if a[1..] != [] {
          IncreasingFirstIsLeast(a[1..]);
          assert a[0] < a[1..][0];
        }
        if b[1..] != [] {
          IncreasingFirstIsLeast(b[1..]);
          assert b[0] < b[1..][0];
        }
      }
      IncreasingUnique(a[1..], b[1..]);
      assert a == [a[0]] + a[1..] && b == [b[0]] + b[1..];
    }
  }

  /** The greedy outcome over a given order is unique: the kept positions, hence the survivors. */
  lemma GreedyOutcomeIsUnique<T>(sorted: seq<T>, overlaps: (T, T) -> bool,
                                 m1: seq<T>, k1: seq<int>, s1: map<int, int>,
                                 m2: seq<T>, k2: seq<int>, s2: map<int, int>)
    requires GreedyOutcome(sorted, overlaps, m1, k1, s1) && GreedyOutcome(sorted, overlaps, m2, k2, s2)
    ensures k1 == k2 && m1 == m2
  {
    GreedyKeepsSamePositions(sorted, overlaps, |sorted|, m1, k1, s1, m2, k2, s2);
    forall x
      ensures x in k1 <==> x in k2
    {
      if x in k1 {
        var t :| 0 <= t < |k1| && k1[t] == x;
      }
      if x in k2 {
        var t :| 0 <= t < |k2| && k2[t] == x;
      }
    }
    IncreasingUnique(k1, k2);
  }

  /**
   * The merge leaves no choice: a stable confidence sort has one result and the greedy pass over
   * it has one outcome, so two merges of the same boxes return the same rooms.
   */
  lemma MergeOutcomeIsUnique(boxes: seq<Room>, threshold: real,
                             m1: seq<Room>, o1: seq<Room>, k1: seq<int>, s1: map<int, int>,
                             m2: seq<Room>, o2: seq<Room>, k2: seq<int>, s2: map<int, int>)
    requires MergeOutcome(boxes, threshold, m1, o1, k1, s1)
    requires MergeOutcome(boxes, threshold, m2, o2, k2, s2)
    ensures m1 == m2
  {
    Sorting.StableSortIsUnique(o1, o2, ConfidenceKey);
    GreedyOutcomeIsUnique(o1, SuppressionTest(threshold), m1, k1, s1, m2, k2, s2);
  }

  /** Positions picked in increasing order from a list ordered by confidence stay ordered. */
  lemma PickedStaySorted(sorted: seq<Room>, kept: seq<int>, merged: seq<Room>)
    requires Sorting.SortedDesc(sorted, ConfidenceKey)
    requires |merged| == |kept|
    requires forall t :: 0 <= t < |kept| ==> 0 <= kept[t] < |sorted| && merged[t] == sorted[kept[t]]
    requires forall s, t :: 0 <= s < t < |kept| ==> kept[s] < kept[t]
    ensures Sorting.SortedDesc(merged, ConfidenceKey)
  {
    forall s, t | 0 <= s < t < |merged|
      ensures ConfidenceKey(merged[s]) >= ConfidenceKey(merged[t])
    {
      assert merged[s] == sorted[kept[s]] && merged[t] == sorted[kept[t]];
    }
  }

  /** After the greedy loop, the first survivor is the most confident box and every box is covered. */
  lemma SurvivorsCoverAll(sorted: seq<Room>, merged: seq<Room>, kept: seq<int>, suppressor: map<int, int>,
                          threshold: real)
    requires Sorting.SortedDesc(sorted, ConfidenceKey)
    requires |merged| == |kept|
    requires forall t :: 0 <= t < |kept| ==> 0 <= kept[t] < |sorted| && merged[t] == sorted[kept[t]]
    requires |sorted| > 0 ==> |kept| > 0 && kept[0] == 0
    requires forall j :: 0 <= j < |sorted| ==> (j in kept) != (j in suppressor)
    requires forall j :: j in suppressor ==>
      suppressor[j] in kept && 0 <= suppressor[j] < j < |sorted| && Suppresses(sorted[suppressor[j]].box, sorted[j].box, threshold)
    ensures forall b :: b in sorted ==> merged[0].confidence >= b.confidence && Covered(b, merged, threshold)
  {
    forall b | b in sorted
      ensures merged[0].confidence >= b.confidence
      ensures Covered(b, merged, threshold)
    {
      var j :| 0 <= j < |sorted| && sorted[j] == b;
      assert merged[0] == sorted[0];
      if j in kept {
        var t :| 0 <= t < |kept| && kept[t] == j;
        assert merged[t] == b;
      } else {
        var k := suppressor[j];
        var t :| 0 <= t < |kept| && kept[t] == k;
        assert merged[t] == sorted[k];
      }
    }
  }

  /** What `detect_rooms` returns; the processing time is a clock reading. */
  datatype Detection = Detection(rooms: seq<Room>, processingTimeMs: int, modelVersion: string)

  /** No two different rooms overlap beyond the threshold, whatever their order. */
  predicate NoHeavyOverlap(rooms: seq<Room>, threshold: real) {
    forall a, b :: a in rooms && b in rooms && a != b ==> !Suppresses(a.box, b.box, threshold)
  }

  /** `c` survived, or a room at least as confident overlaps it beyond the threshold. */
  predicate Covered(c: Room, rooms: seq<Room>, threshold: real) {
    c in rooms || exists m :: m in rooms && m.confidence >= c.confidence && Suppresses(m.box, c.box, threshold)
  }

  /** A reordering holds the same rooms. */
  lemma ReorderSameMembers(merged: seq<Room>, ordered: seq<Room>)
    requires multiset(ordered) == multiset(merged)
    ensures forall x :: x in ordered <==> x in merged
  {
    forall x ensures x in ordered <==> x in merged {
      assert x in ordered <==> x in multiset(ordered);
    }
  }

  /** Pairwise bounds on the merged rooms hold between any two different rooms of a reordering. */
  lemma ReorderKeepsNoOverlap(merged: seq<Room>, ordered: seq<Room>, threshold: real)
    requires forall s, t :: 0 <= s < t < |merged| ==> !Suppresses(merged[s].box, merged[t].box, threshold)
    requires forall x :: x in ordered <==> x in merged
    ensures NoHeavyOverlap(ordered, threshold)
  {
    forall a, b | a in ordered && b in ordered && a != b
      ensures !Suppresses(a.box, b.box, threshold)
    {
      var s :| 0 <= s < |merged| && merged[s] == a;
      var t :| 0 <= t < |merged| && merged[t] == b;
      if t < s {
        SuppressesSymmetric(a.box, b.box, threshold);
      }
    }
  }

  /** Coverage only asks which rooms are present, so a reordering keeps it. */
  lemma ReorderKeepsCovered(boxes: seq<Room>, merged: seq<Room>, ordered: seq<Room>, threshold: real)
    requires forall b :: b in boxes ==> Covered(b, merged, threshold)
    requires forall x :: x in ordered <==> x in merged
    ensures forall b :: b in boxes ==> Covered(b, ordered, threshold)
  {
  }

  /** Reordering the merged rooms keeps what the merge guarantees about them. */
  lemma ReorderKeepsMergeGuarantees(boxes: seq<Room>, merged: seq<Room>, ordered: seq<Room>, threshold: real)
    requires forall s, t :: 0 <= s < t < |merged| ==> !Suppresses(merged[s].box, merged[t].box, threshold)
    requires forall b :: b in boxes ==> Covered(b, merged, threshold)
    requires multiset(ordered) == multiset(merged)
    ensures NoHeavyOverlap(ordered, threshold)
    ensures forall b :: b in boxes ==> Covered(b, ordered, threshold)
  {
    ReorderSameMembers(merged, ordered);
    ReorderKeepsNoOverlap(merged, ordered, threshold);
    ReorderKeepsCovered(boxes, merged, ordered, threshold);
  }

  /** The loop of `detect_rooms` that builds one room per kept contour. */
  method BuildCandidates(valid: seq<Contour>, height: Dim, width: Dim) returns (rooms: seq<Room>)
    ensures rooms == Candidates(valid, height, width)
  {
    rooms := Sequences.MapWithIndex(valid, (idx: nat, c: Contour) => CandidateRoom(idx, c, height, width));
    assert rooms == Candidates(valid, height, width);
  }

  /**
   * `detect_rooms` after the image analysis: filter the contours by area, build one room per
   * kept contour with its index as id, merge overlaps at IoU 0.3 and order by area, largest
   * first, stably. `merged` (with the merge's own ghost outcome) is the merge's result, which
   * the area sort reorders; `DetectedRoomsAreDetermined` shows the rooms leave no choice.
   */
  method DetectRooms(contours: seq<Contour>, height: Dim, width: Dim, elapsedMs: int)
    returns (d: Detection, ghost merged: seq<Room>, ghost sorted: seq<Room>, ghost kept: seq<int>,
             ghost suppressor: map<int, int>)
    ensures d.modelVersion == ModelVersion && d.processingTimeMs == elapsedMs
    ensures Sorting.SortedDesc(d.rooms, AreaKey)
    ensures NoHeavyOverlap(d.rooms, DefaultIouThreshold)
    ensures var candidates := Candidates(KeepInWindow(contours, height * width), height, width);
      && MergeOutcome(candidates, DefaultIouThreshold, merged, sorted, kept, suppressor)
      && Sorting.SameGroups(d.rooms, merged, AreaKey)
      && multiset(d.rooms) <= multiset(candidates)
      && (candidates != [] ==> d.rooms != [])
      && forall c :: c in candidates ==> Covered(c, d.rooms, DefaultIouThreshold)
    ensures UniqueIds(d.rooms)
  {
    var valid := FindRoomContours(contours, height, width);
    var rooms := BuildCandidates(valid, height, width);
    var m;
    m, sorted, kept, suppressor := MergeOverlappingBoxes(rooms, DefaultIouThreshold);
    var ordered := Sorting.SortDesc(m, AreaKey);
    ReorderKeepsMergeGuarantees(rooms, m, ordered, DefaultIouThreshold);
    merged := m;
    CandidateIdsUnique(valid, height, width);
    SubMultisetKeepsUniqueIds(rooms, ordered);
    d := Detection(ordered, elapsedMs, ModelVersion);
  }

  /** Two room lists that both meet `detect_rooms`' characterisation for the same contours are equal. */
  lemma DetectedRoomsAreDetermined(candidates: seq<Room>, r1: seq<Room>, r2: seq<Room>,
                                   m1: seq<Room>, o1: seq<Room>, k1: seq<int>, s1: map<int, int>,
                                   m2: seq<Room>, o2: seq<Room>, k2: seq<int>, s2: map<int, int>)
    requires MergeOutcome(candidates, DefaultIouThreshold, m1, o1, k1, s1)
    requires MergeOutcome(candidates, DefaultIouThreshold, m2, o2, k2, s2)
    requires Sorting.SortedDesc(r1, AreaKey) && Sorting.SameGroups(r1, m1, AreaKey)
    requires Sorting.SortedDesc(r2, AreaKey) && Sorting.SameGroups(r2, m2, AreaKey)
    ensures r1 == r2
  {
    MergeOutcomeIsUnique(candidates, DefaultIouThreshold, m1, o1, k1, s1, m2, o2, k2, s2);
    Sorting.StableSortIsUnique(r1, r2, AreaKey);
  }

  /** The two boxes of the tie example overlap with IoU 0.5, above the default threshold. */
  lemma TieBoxesSuppress()
    ensures Suppresses(IntBox(0, 0, 100, 100), IntBox(0, 0, 100, 50), DefaultIouThreshold)
  {
    assert Iou(IntBox(0, 0, 100, 100), IntBox(0, 0, 100, 50)) == 0.5;
  }

  /** Two rooms of equal confidence have one stable descending order: their own. */
  lemma EqualPairKeepsOrder(a: Room, b: Room, sorted: seq<Room>)
    requires a.confidence == b.confidence
    requires Sorting.SortedDesc(sorted, ConfidenceKey) && Sorting.SameGroups(sorted, [a, b], ConfidenceKey)
    ensures sorted == [a, b]
  {
    assert Sorting.SortedDesc([a, b], ConfidenceKey);
    Sorting.StableSortIsUnique(sorted, [a, b], ConfidenceKey);
  }

  /** Over two rooms where the first suppresses the second, the greedy pass keeps the first alone. */
  lemma PairGreedy(a: Room, b: Room, threshold: real)
    requires Suppresses(a.box, b.box, threshold)
    ensures GreedyOutcome([a, b], SuppressionTest(threshold), [a], [0], map[1 := 0])
  {
    assert SuppressionTest(threshold)(a, b);
  }

  /**
   * Equal confidences keep the earlier candidate: `room_000` on [0, 0, 100, 100] and `room_001`
   * on [0, 0, 100, 50], both 0.95, overlap with IoU 0.5, and only `room_000` survives.
   */
  lemma MergeTieKeepsEarlier(merged: seq<Room>, sorted: seq<Room>, kept: seq<int>, suppressor: map<int, int>)
    requires var a := Room(RoomId(0), IntBox(0, 0, 100, 100), 0.95, None);
      var b := Room(RoomId(1), IntBox(0, 0, 100, 50), 0.95, None);
      MergeOutcome([a, b], DefaultIouThreshold, merged, sorted, kept, suppressor)
    ensures merged == [Room(RoomId(0), IntBox(0, 0, 100, 100), 0.95, None)]
  {
    var a := Room(RoomId(0), IntBox(0, 0, 100, 100), 0.95, None);
    var b := Room(RoomId(1), IntBox(0, 0, 100, 50), 0.95, None);
    EqualPairKeepsOrder(a, b, sorted);
    TieBoxesSuppress();
    PairGreedy(a, b, DefaultIouThreshold);
    GreedyOutcomeIsUnique(sorted, SuppressionTest(DefaultIouThreshold), merged, kept, suppressor,
                          [a], [0], map[1 := 0]);
  }
}

=== FILE: sequences.dfy ===
/**
 * The loop the backends use to build their room lists: one element per input element,
 * appended in order, computed from the element and its position (`enumerate`).
 */
module Sequences {
  /** `[f(i, x) for i, x in enumerate(s)]`, written as the appending loop the backends use. */
  method MapWithIndex<A, B>(s: seq<A>, f: (nat, A) -> B) returns (r: seq<B>)
    ensures |r| == |s|
    ensures forall k :: 0 <= k < |s| ==> r[k] == f(k, s[k])
  {
    r := [];
    var idx := 0;
    while idx < |s|
      invariant 0 <= idx <= |s|
      invariant |r| == idx
      invariant forall k :: 0 <= k < idx ==> r[k] == f(k, s[k])
    {
      r := r + [f(idx, s[idx])];
      idx := idx + 1;
    }
  }
}

=== FILE: sorting.dfy ===
/**
 * Sorting in descending order of a numeric key, as the backends do with
 * `sorted(..., reverse=True)` and `list.sort(..., reverse=True)`.
 */
module Sorting {
  predicate SortedDesc<T>(s: seq<T>, key: T -> real) {
    forall i, j :: 0 <= i < j < |s| ==> key(s[i]) >= key(s[j])
  }

  /** Putting `x` between the elements with larger-or-equal keys and those with smaller keys keeps the order. */
  lemma InsertAtKeepsSorted<T>(s: seq<T>, x: T, i: nat, key: T -> real)
    requires i <= |s| && SortedDesc(s, key)
    requires forall j :: 0 <= j < i ==> key(s[j]) >= key(x)
    requires forall j :: i <= j < |s| ==> key(s[j]) < key(x)
    ensures SortedDesc(s[..i] + [x] + s[i..], key)
  {
    var r := s[..i] + [x] + s[i..];
    assert forall k :: 0 <= k < i ==> r[k] == s[k];
    assert r[i] == x;
    assert forall k :: i < k < |r| ==> r[k] == s[k - 1];
  }

  /** The elements of `s` whose key is `v`, in their order in `s`. */
  function WithKey<T>(s: seq<T>, key: T -> real, v: real): seq<T> {
    if s == [] then []
    else WithKey(s[..|s| - 1], key, v) + (if key(s[|s| - 1]) == v then [s[|s| - 1]] else [])
  }

  /** A stable reordering: for every key, the elements with that key keep their relative order. */
  ghost predicate SameGroups<T>(r: seq<T>, s: seq<T>, key: T -> real) {
    forall v :: WithKey(r, key, v) == WithKey(s, key, v)
  }

  lemma {:induction false} WithKeyAppend<T>(a: seq<T>, b: seq<T>, key: T -> real, v: real)
    decreases |b|
    ensures WithKey(a + b, key, v) == WithKey(a, key, v) + WithKey(b, key, v)
  {
    if b == [] {
      assert a + b == a;
    } else {
      var b' := b[..|b| - 1];
      assert (a + b)[..|a + b| - 1] == a + b';
      WithKeyAppend(a, b', key, v);
    }
  }

  /** The elements with key `v` are exactly the elements of `s` whose key is `v`. */
  lemma {:induction false} WithKeyMembers<T>(s: seq<T>, key: T -> real, v: real, y: T)
    decreases |s|
    ensures y in WithKey(s, key, v) <==> y in s && key(y) == v
  {
    if s != [] {
      WithKeyMembers(s[..|s| - 1], key, v, y);
      assert s == s[..|s| - 1] + [s[|s| - 1]];
    }
  }

  /** A list with no element of key `v` has an empty group for `v`. */
  lemma {:induction false} WithKeyNone<T>(s: seq<T>, key: T -> real, v: real)
    requires forall j :: 0 <= j < |s| ==> key(s[j]) != v
    decreases |s|
    ensures WithKey(s, key, v) == []
  {
    if s != [] {
      WithKeyNone(s[..|s| - 1], key, v);
    }
  }

  lemma WithKeySingle<T>(x: T, key: T -> real, v: real)
    ensures WithKey([x], key, v) == (if key(x) == v then [x] else [])
  {
    assert [x][..0] == [];
  }

  /** The group of one key `v` after inserting `x` ahead of strictly lighter elements. */
  lemma InsertKeepsGroup<T>(s: seq<T>, x: T, i: nat, key: T -> real, v: real)
    requires i <= |s|
    requires forall j :: i <= j < |s| ==> key(s[j]) < key(x)
    ensures WithKey(s[..i] + [x] + s[i..], key, v) == WithKey(s + [x], key, v)
  {
    var front, back := s[..i], s[i..];
    assert front + back == s;
    assert s[..i] + [x] + s[i..] == (front + [x]) + back;
    WithKeyAppend(front + [x], back, key, v);
    WithKeyAppend(front, [x], key, v);
    WithKeyAppend(front, back, key, v);
    WithKeyAppend(s, [x], key, v);
    WithKeySingle(x, key, v);
    var f, b, g := WithKey(front, key, v), WithKey(back, key, v), WithKey([x], key, v);
    if key(x) == v {
      WithKeyNone(back, key, v);
      assert f + g + b == f + b + g;
    } else {
      assert f + g + b == f + b + g;
    }
  }

  /** Putting `x` after the elements with larger-or-equal keys keeps every group in order, `x` last in its own. */
  lemma InsertKeepsGroups<T>(s: seq<T>, x: T, i: nat, key: T -> real)
    requires i <= |s|
    requires forall j :: i <= j < |s| ==> key(s[j]) < key(x)
    ensures SameGroups(s[..i] + [x] + s[i..], s + [x], key)
  {
    forall v
      ensures WithKey(s[..i] + [x] + s[i..], key, v) == WithKey(s + [x], key, v)
    {
      InsertKeepsGroup(s, x, i, key, v);
    }
  }

  /** Inserts `x` after every element whose key is at least its own. */
  method InsertDesc<T>(s: seq<T>, x: T, key: T -> real) returns (r: seq<T>)
    requires SortedDesc(s, key)
    ensures SortedDesc(r, key)
    ensures multiset(r) == multiset(s) + multiset{x}
    ensures SameGroups(r, s + [x], key)
  {
    var i := 0;
    while i < |s| && key(s[i]) >= key(x)
      invariant 0 <= i <= |s|
      invariant forall j :: 0 <= j < i ==> key(s[j]) >= key(x)
    {
      i := i + 1;
    }
    InsertAtKeepsSorted(s, x, i, key);
    InsertKeepsGroups(s, x, i, key);
    r := s[..i] + [x] + s[i..];
    assert s == s[..i] + s[i..];
  }

  /** Appending the same element to two stable reorderings of each other keeps them so. */
  lemma SameGroupsSnoc<T>(r: seq<T>, s: seq<T>, x: T, key: T -> real)
    requires SameGroups(r, s, key)
    ensures SameGroups(r + [x], s + [x], key)
  {
    forall v
      ensures WithKey(r + [x], key, v) == WithKey(s + [x], key, v)
    {
      WithKeyAppend(r, [x], key, v);
      WithKeyAppend(s, [x], key, v);
    }
  }

  /** Only an empty list has the same groups as an empty one. */
  lemma SameGroupsEmpty<T>(r: seq<T>, key: T -> real)
    requires SameGroups(r, [], key)
    ensures r == []
  {
    if r != [] {
      var y := r[|r| - 1];
      WithKeyMembers(r, key, key(y), y);
      assert false;
    }
  }

  /** Two sorted lists with the same groups end with the same element. */
  lemma SameGroupsSameLast<T>(r1: seq<T>, r2: seq<T>, key: T -> real)
    requires r1 != [] && r2 != []
    requires SortedDesc(r1, key) && SortedDesc(r2, key)
    requires SameGroups(r1, r2, key)
    ensures r1[|r1| - 1] == r2[|r2| - 1]
  {
    var a, b := r1[|r1| - 1], r2[|r2| - 1];
    WithKeyMembers(r1, key, key(a), a);
    WithKeyMembers(r2, key, key(a), a);
    WithKeyMembers(r1, key, key(b), b);
    WithKeyMembers(r2, key, key(b), b);
    assert key(a) == key(b);
    // Each list ends with the last member of the lightest group, which both lists share.
    var g := WithKey(r1, key, key(a));
    assert g == WithKey(r2, key, key(a));
    var w1, w2 := WithKey(r1[..|r1| - 1], key, key(a)), WithKey(r2[..|r2| - 1], key, key(a));
    assert g == w1 + [a] && g == w2 + [b];
    assert a == g[|g| - 1] == b;
  }

  /** Dropping a shared last element keeps the groups equal. */
  lemma SameGroupsInit<T>(r1: seq<T>, r2: seq<T>, key: T -> real)
    requires r1 != [] && r2 != [] && r1[|r1| - 1] == r2[|r2| - 1]
    requires SameGroups(r1, r2, key)
    ensures SameGroups(r1[..|r1| - 1], r2[..|r2| - 1], key)
  {
    var a := r1[|r1| - 1];
    var p1, p2 := r1[..|r1| - 1], r2[..|r2| - 1];
    forall v
      ensures WithKey(p1, key, v) == WithKey(p2, key, v)
    {
      assert WithKey(r1, key, v) == WithKey(r2, key, v);
      var tail := if key(a) == v then [a] else [];
      assert WithKey(p1, key, v) + tail == WithKey(p2, key, v) + tail;
      assert WithKey(p1, key, v) == (WithKey(p1, key, v) + tail)[..|WithKey(p1, key, v)|];
    }
  }

  /** Both orderings are sorted and stable with respect to each other, so they are the same list. */
  lemma {:induction false} StableSortIsUnique<T>(r1: seq<T>, r2: seq<T>, key: T -> real)
    requires SortedDesc(r1, key) && SortedDesc(r2, key)
    requires SameGroups(r1, r2, key)
    decreases |r1|
    ensures r1 == r2
  {
    if r1 == [] {
      SameGroupsEmpty(r2, key);
    } else if r2 == [] {
      SameGroupsEmpty(r1, key);
    } else {
      SameGroupsSameLast(r1, r2, key);
      SameGroupsInit(r1, r2, key);
      var p1, p2 := r1[..|r1| - 1], r2[..|r2| - 1];
      StableSortIsUnique(p1, p2, key);
      assert r1 == p1 + [r1[|r1| - 1]] && r2 == p2 + [r2[|r2| - 1]];
    }
  }

  /**
   * Insertion sort, standing for Python's stable `sort(..., reverse=True)`: the result is
   * ordered by descending key and keeps the input order among equal keys, so it is a
   * permutation of the input and, by `StableSortIsUnique`, the only such ordering.
   */
  method SortDesc<T>(s: seq<T>, key: T -> real) returns (r: seq<T>)
    ensures SortedDesc(r, key)
    ensures SameGroups(r, s, key)
    ensures multiset(r) == multiset(s)
    ensures |r| == |s|
  {
    r := [];
    var i := 0;
    while i < |s|
      invariant 0 <= i <= |s|
      invariant SortedDesc(r, key)
      invariant multiset(r) == multiset(s[..i])
      invariant SameGroups(r, s[..i], key)
    {
      var r' := InsertDesc(r, s[i], key);
      SameGroupsSnoc(r, s[..i], s[i], key);
      assert s[..i + 1] == s[..i] + [s[i]];
      r := r';
      i := i + 1;
    }
    assert s[..|s|] == s;
    assert |multiset(r)| == |multiset(s)|;
  }
}

=== FILE: text.dfy ===
/**
 * The string operations of the JavaScript and Python standard libraries that the
 * core relies on (`split`, `find`, `in`, `startswith`, `strip`, `lower`, number
 * formatting), each stated with the property callers depend on.
 */
module Text {
  import opened Wrappers

  /** One byte of a Python `bytes` value. */
  newtype byte = b: int | 0 <= b < 256

  /** `s.startswith(prefix)`. */
  predicate StartsWith(s: string, prefix: string) {
    |prefix| <= |s| && s[..|prefix|] == prefix
  }

  /** `sub` occurs in `s` starting at position `k`. */
  predicate OccursAt(s: string, sub: string, k: int) {
    0 <= k && k + |sub| <= |s| && s[k..k + |sub|] == sub
  }

  /** The first occurrence of `sub` in `s` at or after `from`. */
  function IndexFrom(s: string, sub: string, from: nat): (r: Option<nat>)
    decreases |s| - from
    ensures r.Some? ==> from <= r.value && OccursAt(s, sub, r.value)
    ensures r.Some? ==> forall k :: from <= k < r.value ==> !OccursAt(s, sub, k)
    ensures r.None? ==> forall k :: from <= k ==> !OccursAt(s, sub, k)
  {
    if from + |sub| > |s| then None
    else if s[from..from + |sub|] == sub then Some(from)
    else IndexFrom(s, sub, from + 1)
  }

  /** `s.find(sub)`: the first position at which `sub` occurs, if any. */
  function IndexOf(s: string, sub: string): (r: Option<nat>)
    ensures r.Some? ==> OccursAt(s, sub, r.value)
    ensures r.Some? ==> forall k :: 0 <= k < r.value ==> !OccursAt(s, sub, k)
    ensures r.None? <==> forall k :: !OccursAt(s, sub, k)
  {
    IndexFrom(s, sub, 0)
  }

  /** `sub in s`. */
  predicate Contains(s: string, sub: string) {
    IndexOf(s, sub).Some?
  }

  /** The text before the first occurrence of `sub` does not contain `sub`. */
  lemma PrefixBeforeFirstIsFree(s: string, sub: string, i: nat)
    requires |sub| > 0 && IndexOf(s, sub) == Some(i)
    ensures !Contains(s[..i], sub)
  {
    if Contains(s[..i], sub) {
      var k := IndexOf(s[..i], sub).value;
      assert s[..i][k..k + |sub|] == s[k..k + |sub|];
      assert OccursAt(s, sub, k);
    }
  }

  /** A string that does not contain `sub` has no suffix that contains it. */
  lemma SuffixOfFreeIsFree(s: string, sub: string, j: nat)
    requires j <= |s| && !Contains(s, sub)
    ensures !Contains(s[j..], sub)
  {
    if Contains(s[j..], sub) {
      var k := IndexOf(s[j..], sub).value;
      assert s[j..][k..k + |sub|] == s[j + k..j + k + |sub|];
      assert OccursAt(s, sub, j + k);
    }
  }

  /** `s.split(sep)` (Python and JavaScript agree) for a non-empty separator. */
  function Split(s: string, sep: string): (pieces: seq<string>)
    requires |sep| > 0
    decreases |s|
    ensures |pieces| >= 1
    ensures forall p :: p in pieces ==> !Contains(p, sep)
  {
    match IndexOf(s, sep)
    case None => [s]
    case Some(i) =>
      PrefixBeforeFirstIsFree(s, sep, i);
      [s[..i]] + Split(s[i + |sep|..], sep)
  }

  /** Splitting at the first separator: the text before it, then the pieces of the rest. */
  lemma SplitAtFirst(s: string, sep: string, i: nat)
    requires |sep| > 0 && IndexOf(s, sep) == Some(i)
    ensures i + |sep| <= |s| && s[i..i + |sep|] == sep
    ensures Split(s, sep) == [s[..i]] + Split(s[i + |sep|..], sep)
  {
    assert OccursAt(s, sep, i);
  }

  /** `sep.join(pieces)`. */
  function Join(pieces: seq<string>, sep: string): string {
    if |pieces| == 0 then ""
    else if |pieces| == 1 then pieces[0]
    else pieces[0] + sep + Join(pieces[1..], sep)
  }

  /** Splitting loses nothing: joining the pieces with the separator gives the string back. */
  lemma {:induction false} SplitJoin(s: string, sep: string)
    requires |sep| > 0
    decreases |s|
    ensures Join(Split(s, sep), sep) == s
  {
    match IndexOf(s, sep)
    case None =>
    case Some(i) =>
      var rest := s[i + |sep|..];
      SplitAtFirst(s, sep, i);
      SplitJoin(rest, sep);
      JoinCons(s[..i], Split(rest, sep), sep);
      assert s == s[..i] + sep + rest;
  }

  lemma JoinCons(first: string, rest: seq<string>, sep: string)
    requires |rest| > 0
    ensures Join([first] + rest, sep) == first + sep + Join(rest, sep)
  {
    assert ([first] + rest)[1..] == rest;
  }

  /** A string without the separator splits into itself alone. */
  lemma SplitOfFree(s: string, sep: string)
    requires |sep| > 0 && !Contains(s, sep)
    ensures Split(s, sep) == [s]
  {
  }

  /** `s.split(sep, 1)` when `sep in s`: the text before and after the first occurrence. */
  function SplitOnce(s: string, sep: string): (r: Option<(string, string)>)
    requires |sep| > 0
    ensures r.None? <==> !Contains(s, sep)
    ensures r.Some? ==> r.value.0 + sep + r.value.1 == s && !Contains(r.value.0, sep)
  {
    match IndexOf(s, sep)
    case None => None
    case Some(i) =>
      PrefixBeforeFirstIsFree(s, sep, i);
      assert s[i..i + |sep|] == sep;
      assert s == s[..i] + sep + s[i + |sep|..];
      Some((s[..i], s[i + |sep|..]))
  }

  /** `s.rstrip(cs)`: drops every trailing character that is in `cs`. */
  function RStrip(s: string, cs: set<char>): (r: string)
    ensures |r| <= |s| && r == s[..|r|]
    ensures |r| == 0 || r[|r| - 1] !in cs
    ensures forall k :: |r| <= k < |s| ==> s[k] in cs
  {
    if |s| > 0 && s[|s| - 1] in cs then RStrip(s[..|s| - 1], cs) else s
  }

  /** `s.lstrip(cs)`: drops every leading character that is in `cs`. */
  function LStrip(s: string, cs: set<char>): (r: string)
    ensures |r| <= |s| && r == s[|s| - |r|..]
    ensures |r| == 0 || r[0] !in cs
    ensures forall k :: 0 <= k < |s| - |r| ==> s[k] in cs
  {
    if |s| > 0 && s[0] in cs then LStrip(s[1..], cs) else s
  }

  /** `s.strip(cs)`. */
  function Strip(s: string, cs: set<char>): string {
    RStrip(LStrip(s, cs), cs)
  }

  /** The characters Python's `str.isspace` accepts, which `str.strip()` removes. */
  const PyWhitespace: set<char> :=
    {'\t', '\n', '\U{B}', '\U{C}', '\r', '\U{1C}', '\U{1D}', '\U{1E}', '\U{1F}', ' ',
     '\U{85}', '\U{A0}', '\U{1680}', '\U{2000}', '\U{2001}', '\U{2002}', '\U{2003}',
     '\U{2004}', '\U{2005}', '\U{2006}', '\U{2007}', '\U{2008}', '\U{2009}', '\U{200A}',
     '\U{2028}', '\U{2029}', '\U{202F}', '\U{205F}', '\U{3000}'}

  /** Lower-cases the ASCII letters and leaves every other character alone. */
  function LowerAscii(s: string): (r: string)
    ensures |r| == |s|
    ensures forall k :: 0 <= k < |s| ==> ('A' <= s[k] <= 'Z' ==> r[k] as int == s[k] as int + 32)
    ensures forall k :: 0 <= k < |s| ==> (!('A' <= s[k] <= 'Z') ==> r[k] == s[k])
  {
    seq(|s|, k requires 0 <= k < |s| => if 'A' <= s[k] <= 'Z' then (s[k] as int + 32) as char else s[k])
  }

  /** The text after the last occurrence of `c` (the whole of `s` when `c` does not occur). */
  function AfterLast(s: string, c: char): (r: string)
    ensures |r| <= |s| && r == s[|s| - |r|..]
    ensures c !in r
    ensures |r| < |s| ==> s[|s| - |r| - 1] == c
  {
    if |s| == 0 then ""
    else if s[|s| - 1] == c then ""
    else
      var r := AfterLast(s[..|s| - 1], c);
      assert s[..|s| - 1][|s| - 1 - |r|..] + [s[|s| - 1]] == s[|s| - |r| - 1..];
      r + [s[|s| - 1]]
  }

  /** The three properties of AfterLast's contract single it out. */
  lemma AfterLastUnique(s: string, c: char, r: string)
    requires |r| <= |s| && r == s[|s| - |r|..] && c !in r
    requires |r| < |s| ==> s[|s| - |r| - 1] == c
    ensures r == AfterLast(s, c)
  {
  }

  /** Without a separator, the only piece is the whole text, which is also what follows the last one. */
  lemma NoSeparatorPiece(s: string, c: char)
    requires IndexOf(s, [c]).None?
    ensures Split(s, [c]) == [s] && AfterLast(s, c) == s
  {
    forall k | 0 <= k < |s| ensures s[k] != c {
      assert !OccursAt(s, [c], k);
    }
    AfterLastUnique(s, c, s);
  }

  /** What follows the last `c` after position `i`, where `s[i]` is `c`, is what follows the last `c` in `s`. */
  lemma {:induction false} AfterLastOfRest(s: string, c: char, i: nat)
    requires i < |s| && s[i] == c
    decreases |s|
    ensures AfterLast(s[i + 1..], c) == AfterLast(s, c)
  {
    var rest := s[i + 1..];
    if i + 1 < |s| && s[|s| - 1] != c {
      var init := s[..|s| - 1];
      assert rest[..|rest| - 1] == init[i + 1..];
      assert rest[|rest| - 1] == s[|s| - 1];
      AfterLastOfRest(init, c, i);
    }
  }

  /** JavaScript's `pop()` on a non-empty array: its last element. */
  function Last<T>(s: seq<T>): T
    requires |s| > 0
  {
    s[|s| - 1]
  }

  lemma LastOfCons<T>(a: T, t: seq<T>)
    requires |t| > 0
    ensures Last([a] + t) == Last(t)
  {
  }

  /** Past the first separator, the last piece of the whole is the last piece of the rest. */
  lemma LastPieceOfRest(s: string, c: char, i: nat)
    requires IndexOf(s, [c]) == Some(i)
    ensures i < |s| && s[i] == c
    ensures Last(Split(s, [c])) == Last(Split(s[i + 1..], [c]))
  {
    SplitAtFirst(s, [c], i);
    assert s[i..i + 1][0] == s[i];
    LastOfCons(s[..i], Split(s[i + 1..], [c]));
  }

  /** `s.split(sep).pop()` in JavaScript: the last piece is the text after the last separator. */
  lemma {:induction false} LastPieceIsAfterLast(s: string, c: char)
    decreases |s|
    ensures Last(Split(s, [c])) == AfterLast(s, c)
  {
    match IndexOf(s, [c])
    case None =>
      NoSeparatorPiece(s, c);
    case Some(i) =>
      LastPieceOfRest(s, c, i);
      LastPieceIsAfterLast(s[i + 1..], c);
      AfterLastOfRest(s, c, i);
  }

  /** The decimal digit character for `d`. */
  function DigitChar(d: nat): (ch: char)
    requires d < 10
    ensures '0' <= ch <= '9'
  {
    ('0' as int + d) as char
  }

  predicate IsDigits(s: string) {
    forall k :: 0 <= k < |s| ==> '0' <= s[k] <= '9'
  }

  /** `String(n)` / `str(n)` for a natural number. */
  function NatToString(n: nat): (s: string)
    ensures |s| >= 1 && IsDigits(s)
    ensures |s| > 1 ==> s[0] != '0'
  {
    if n < 10 then [DigitChar(n)] else NatToString(n / 10) + [DigitChar(n % 10)]
  }

  /** The number a string of decimal digits denotes. */
  function DecimalValue(s: string): nat
    requires IsDigits(s)
  {
    if |s| == 0 then 0 else DecimalValue(s[..|s| - 1]) * 10 + (s[|s| - 1] as int - '0' as int)
  }

  /** Reading back a formatted number gives the number. */
  lemma {:induction false} NatToStringRoundTrip(n: nat)
    ensures DecimalValue(NatToString(n)) == n
  {
    if n >= 10 {
      NatToStringRoundTrip(n / 10);
      var s := NatToString(n);
      assert s[..|s| - 1] == NatToString(n / 10);
    }
  }

  /** Leading zeros do not change the value of a digit string. */
  lemma {:induction false} LeadingZeroIgnored(s: string)
    requires IsDigits(s)
    decreases |s|
    ensures DecimalValue("0" + s) == DecimalValue(s)
  {
    if |s| > 0 {
      var t := s[..|s| - 1];
      LeadingZeroIgnored(t);
      assert ("0" + s)[..|s|] == "0" + t;
    }
  }

  function Pow10(w: nat): (p: nat)
    ensures p >= 1
  {
    if w == 0 then 1 else 10 * Pow10(w - 1)
  }

  /** `str(n)` has at most `w` digits exactly when `n` is below `10^w`. */
  lemma {:induction false} NatToStringWidth(n: nat, w: nat)
    requires w >= 1
    decreases w
    ensures |NatToString(n)| <= w <==> n < Pow10(w)
  {
    if w > 1 {
      if n >= 10 {
        NatToStringWidth(n / 10, w - 1);
      } else {
        assert Pow10(w) == 10 * Pow10(w - 1);
      }
    }
  }

  /** Appending digits shifts the value of the prefix by the number of digits appended. */
  lemma {:induction false} DecimalValueAppend(a: string, b: string)
    requires IsDigits(a) && IsDigits(b)
    decreases |b|
    ensures IsDigits(a + b)
    ensures DecimalValue(a + b) == DecimalValue(a) * Pow10(|b|) + DecimalValue(b)
  {
    if |b| > 0 {
      var b' := b[..|b| - 1];
      DecimalValueAppend(a, b');
      assert (a + b)[..|a + b| - 1] == a + b';
      var d := b[|b| - 1] as int - '0' as int;
      assert (a + b)[|a + b| - 1] == b[|b| - 1];
      assert DecimalValue(a + b) == DecimalValue(a + b') * 10 + d;
      assert DecimalValue(b) == DecimalValue(b') * 10 + d;
      assert Pow10(|b|) == 10 * Pow10(|b'|);
      ShiftByTen(DecimalValue(a), Pow10(|b'|), DecimalValue(b'), d);
    } else {
      assert a + b == a;
    }
  }

  lemma ShiftByTen(x: int, p: int, y: int, d: int)
    ensures (x * p + y) * 10 + d == x * (10 * p) + (y * 10 + d)
  {
  }

  lemma ThreeDigitsBelowThousand(n: nat)
    ensures |NatToString(n)| <= 3 <==> n < 1000
  {
    NatToStringWidth(n, 3);
    assert Pow10(3) == 1000;
  }

  /**
   * Python's `f"{n:03d}"`: the decimal form left-padded with zeros to width three, so exactly
   * three digits below 1000 and the plain decimal form, without a leading zero, from 1000 on.
   */
  function ZeroPad3(n: nat): (s: string)
    ensures IsDigits(s) && DecimalValue(s) == n
    ensures |s| == if n < 1000 then 3 else |NatToString(n)|
    ensures n >= 1000 ==> s == NatToString(n)
  {
    var d := NatToString(n);
    NatToStringRoundTrip(n);
    ThreeDigitsBelowThousand(n);
    if |d| >= 3 then d
    else if |d| == 2 then
      LeadingZeroIgnored(d);
      "0" + d
    else
      LeadingZeroIgnored(d);
      LeadingZeroIgnored("0" + d);
      assert "00" + d == "0" + ("0" + d);
      "00" + d
  }

  /** A character Latin-1 cannot encode. */
  predicate Unencodable(c: char) {
    c as int >= 256
  }

  /** The end of the run of unencodable characters that goes on from position `k`. */
  function RunEnd(s: string, k: nat): (end: nat)
    requires k <= |s|
    decreases |s| - k
    ensures k <= end <= |s|
    ensures forall j :: k <= j < end ==> Unencodable(s[j])
    ensures end < |s| ==> !Unencodable(s[end])
  {
    if k < |s| && Unencodable(s[k]) then RunEnd(s, k + 1) else k
  }

  /** A lower-case hexadecimal digit. */
  function HexChar(d: nat): (ch: char)
    requires d < 16
    ensures '0' <= ch <= '9' || 'a' <= ch <= 'f'
  {
    if d < 10 then DigitChar(d) else ('a' as int + (d - 10)) as char
  }

  /** The last `w` hexadecimal digits of `n`, lower case and zero-padded, as `%0wx`. */
  function HexPad(n: nat, w: nat): (s: string)
    ensures |s| == w
    ensures forall k :: 0 <= k < w ==> '0' <= s[k] <= '9' || 'a' <= s[k] <= 'f'
  {
    if w == 0 then "" else HexPad(n / 16, w - 1) + [HexChar(n % 16)]
  }

  /** How Python writes a character above U+00FF in an encoding error: `\uXXXX` or `\UXXXXXXXX`. */
  function CharEscape(c: char): (e: string)
    ensures |e| == (if c as int <= 0xFFFF then 6 else 10) && e[0] == '\\'
  {
    if c as int <= 0xFFFF then "\\u" + HexPad(c as int, 4) else "\\U" + HexPad(c as int, 8)
  }

  const Latin1Reason := "ordinal not in range(256)"

  /** The text of the `UnicodeEncodeError` for the run `s[start..end]`: one character, or a range of positions. */
  function Latin1Error(s: string, start: nat, end: nat): (e: string)
    requires start < end <= |s|
    ensures |e| >= |Latin1Reason| + 2 && e[|e| - |Latin1Reason| - 2..] == ": " + Latin1Reason
  {
    if end == start + 1 then
      "'latin-1' codec can't encode character '" + CharEscape(s[start]) + "' in position "
        + NatToString(start) + ": " + Latin1Reason
    else
      "'latin-1' codec can't encode characters in position "
        + NatToString(start) + "-" + NatToString(end - 1) + ": " + Latin1Reason
  }

  /**
   * Python's `str.encode('latin-1')`: one byte per character, or the error that names the first
   * run of characters above U+00FF.
   */
  function Latin1Encode(s: string): (r: Result<seq<byte>, string>)
    ensures r.Ok? <==> forall k :: 0 <= k < |s| ==> s[k] as int < 256
    ensures r.Ok? ==> |r.value| == |s| && forall k :: 0 <= k < |s| ==> r.value[k] as int == s[k] as int
    ensures r.Err? ==>
      && FirstWhere(s, Unencodable).Some?
      && r.error == Latin1Error(s, FirstWhere(s, Unencodable).value, RunEnd(s, FirstWhere(s, Unencodable).value + 1))
  {
    match FirstWhere(s, Unencodable)
    case None => Ok(seq(|s|, k requires 0 <= k < |s| => s[k] as int as byte))
    case Some(start) => Err(Latin1Error(s, start, RunEnd(s, start + 1)))
  }

  /** The euro sign is written `\u20ac`. */
  lemma EuroEscape()
    ensures CharEscape('\U{20AC}') == "\\u20ac"
  {
    assert HexPad(0x2, 1) == "2" by { assert HexPad(0, 0) == ""; }
    assert HexPad(0x20, 2) == "20";
    assert HexPad(0x20A, 3) == "20a";
    assert HexPad(0x20AC, 4) == "20ac";
  }

  /** A lone euro sign after three encodable characters, as Python reports it. */
  lemma Latin1ErrorSingle()
    ensures Latin1Encode("abc\U{20AC}")
      == Err("'latin-1' codec can't encode character '" + "\\u20ac" + "' in position " + "3" + ": "
             + "ordinal not in range(256)")
  {
    var s := "abc\U{20AC}";
    FirstWhereIs(s, Unencodable, 3);
    assert RunEnd(s, 4) == 4;
    assert Latin1Encode(s) == Err(Latin1Error(s, 3, 4));
    EuroEscape();
    assert NatToString(3) == "3";
    assert s[3] == '\U{20AC}';
  }

  /** A run of two euro signs is reported as a range of positions. */
  lemma Latin1ErrorRun()
    ensures Latin1Encode("\U{20AC}\U{20AC}x")
      == Err("'latin-1' codec can't encode characters in position " + "0" + "-" + "1" + ": "
             + "ordinal not in range(256)")
  {
    var t := "\U{20AC}\U{20AC}x";
    FirstWhereIs(t, Unencodable, 0);
    assert RunEnd(t, 2) == 2;
    assert RunEnd(t, 1) == 2;
    assert Latin1Encode(t) == Err(Latin1Error(t, 0, 2));
    assert NatToString(0) == "0" && NatToString(1) == "1";
  }

  /** The position of the first element satisfying `p`, if any. */
  function FirstWhere<T>(s: seq<T>, p: T -> bool): (k: Option<nat>)
    ensures k.Some? ==> k.value < |s| && p(s[k.value])
    ensures k.Some? ==> forall j :: 0 <= j < k.value ==> !p(s[j])
    ensures k.None? <==> forall j :: 0 <= j < |s| ==> !p(s[j])
  {
    if s == [] then None
    else if p(s[0]) then Some(0)
    else
      match FirstWhere(s[1..], p)
      case None => None
      case Some(k) => Some(k + 1)
  }

  lemma FirstWhereIs<T>(s: seq<T>, p: T -> bool, k: nat)
    requires k < |s| && p(s[k]) && forall j :: 0 <= j < k ==> !p(s[j])
    ensures FirstWhere(s, p) == Some(k)
  {
  }

  lemma FirstWhereNone<T>(s: seq<T>, p: T -> bool)
    requires forall j :: 0 <= j < |s| ==> !p(s[j])
    ensures FirstWhere(s, p) == None
  {
  }

  /** A left-to-right scan that stops at the first element satisfying `p`. */
  method FindFirst<T>(s: seq<T>, p: T -> bool) returns (k: Option<nat>)
    ensures k == FirstWhere(s, p)
  {
    var i := 0;
    while i < |s|
      invariant 0 <= i <= |s|
      invariant forall j :: 0 <= j < i ==> !p(s[j])
    {
      if p(s[i]) {
        FirstWhereIs(s, p, i);
        return Some(i);
      }
      i := i + 1;
    }
    FirstWhereNone(s, p);
    return None;
  }
}

=== FILE: types.dfy ===
/**
 * The domain types of the blueprint-detection client: the detection-model selector,
 * the detector's normalised rooms, the canvas rooms in pixel space, the processing
 * status and the application error.
 */
module Types {
  import opened Wrappers

  /** Which detection backend a request is meant for. */
  datatype DetectionModel = OpenCV | Yolo

  /** The wire value of each detection model. */
  function ModelName(m: DetectionModel): string {
    match m
    case OpenCV => "opencv"
    case Yolo => "yolo"
  }

  /** The process-wide status of the detection workflow; exactly one holds at a time. */
  datatype ProcessingStatus = Idle | Uploading | Processing | Success | Error

  /** The wire value of each status. */
  function StatusName(s: ProcessingStatus): string {
    match s
    case Idle => "idle"
    case Uploading => "uploading"
    case Processing => "processing"
    case Success => "success"
    case Error => "error"
  }

  /** The five kinds of application error. */
  datatype ErrorType = FileTooLarge | InvalidFormat | ProcessingFailed | NetworkError | Unknown

  /** The wire value of each error kind. */
  function ErrorTypeName(t: ErrorType): string {
    match t
    case FileTooLarge => "file_too_large"
    case InvalidFormat => "invalid_format"
    case ProcessingFailed => "processing_failed"
    case NetworkError => "network_error"
    case Unknown => "unknown"
  }

  /**
   * `[x_min, y_min, x_max, y_max]`, documented as lying in 0-1000 on both axes.
   * The range and the ordering of the corners are not enforced by anyone.
   */
  datatype Box = Box(xMin: real, yMin: real, xMax: real, yMax: real)

  /** A room as the detector reports it; `confidence` is documented as lying in 0-1. */
  datatype DetectedRoom = DetectedRoom(id: string, boundingBox: Box, confidence: real, nameHint: Option<string>)

  /** The body of a successful detection call. */
  datatype DetectionResponse = DetectionResponse(rooms: seq<DetectedRoom>, processingTimeMs: real, modelVersion: string)

  /** Optional detection parameters. */
  datatype DetectionOptions = DetectionOptions(confidenceThreshold: Option<real>, enhance: Option<bool>)

  /** A browser `File`: its name, its size in bytes and its declared MIME type. */
  datatype File = File(name: string, size: nat, mimeType: string)

  /** A detection request: the file and optional parameters. */
  datatype DetectionRequest = DetectionRequest(file: File, options: Option<DetectionOptions>)

  /**
   * A room on the canvas: every DetectedRoom field except the bounding box, plus its
   * geometry in image pixels and an optional selected flag.
   */
  datatype CanvasRoom = CanvasRoom(
    id: string, confidence: real, nameHint: Option<string>,
    x: real, y: real, width: real, height: real,
    selected: Option<bool>)

  /** `Partial<CanvasRoom>`: the fields an update sets; `None` means the key is absent. */
  datatype RoomPatch = RoomPatch(
    id: Option<string>, confidence: Option<real>, nameHint: Option<Option<string>>,
    x: Option<real>, y: Option<real>, width: Option<real>, height: Option<real>,
    selected: Option<bool>)

  /** An application error: a kind, a message and optional details, and no recovery data. */
  datatype AppError = AppError(kind: ErrorType, message: string, details: Option<string>)

  /** The five statuses in declaration order. */
  function AllStatuses(): seq<ProcessingStatus> {
    [Idle, Uploading, Processing, Success, Error]
  }

  /** ProcessingStatus has exactly five values, with five distinct wire names. */
  lemma StatusesAreExactlyFive()
    ensures forall s: ProcessingStatus :: s in AllStatuses()
    ensures |AllStatuses()| == 5
    ensures forall i, j :: 0 <= i < j < 5 ==> StatusName(AllStatuses()[i]) != StatusName(AllStatuses()[j])
  {
    forall s: ProcessingStatus ensures s in AllStatuses() {
      match s
      case Idle => assert AllStatuses()[0] == s;
      case Uploading => assert AllStatuses()[1] == s;
      case Processing => assert AllStatuses()[2] == s;
      case Success => assert AllStatuses()[3] == s;
      case Error => assert AllStatuses()[4] == s;
    }
  }

  /** The five error kinds in declaration order. */
  function AllErrorTypes(): seq<ErrorType> {
    [FileTooLarge, InvalidFormat, ProcessingFailed, NetworkError, Unknown]
  }

  /** ErrorType has exactly five values, with five distinct wire names. */
  lemma ErrorTypesAreExactlyFive()
    ensures forall t: ErrorType :: t in AllErrorTypes()
    ensures |AllErrorTypes()| == 5
    ensures forall i, j :: 0 <= i < j < 5 ==> ErrorTypeName(AllErrorTypes()[i]) != ErrorTypeName(AllErrorTypes()[j])
  {
    forall t: ErrorType ensures t in AllErrorTypes() {
      match t
      case FileTooLarge => assert AllErrorTypes()[0] == t;
      case InvalidFormat => assert AllErrorTypes()[1] == t;
      case ProcessingFailed => assert AllErrorTypes()[2] == t;
      case NetworkError => assert AllErrorTypes()[3] == t;
      case Unknown => assert AllErrorTypes()[4] == t;
    }
  }

  /** DetectionModel has exactly two values, opencv and yolo. */
  lemma ModelsAreExactlyTwo()
    ensures forall m: DetectionModel :: ModelName(m) in {"opencv", "yolo"} && (m == OpenCV <==> !m.Yolo?)
    ensures ModelName(OpenCV) == "opencv" && ModelName(Yolo) == "yolo"
  {
  }
}

=== FILE: upload_zone.dfy ===
/**
 * The drop handler of the upload zone: it routes the first accepted file either to
 * the error callback or to the file-selection callback, and the limits it hands to
 * the drop-zone widget.
 */
module UploadZone {
  import opened Wrappers
  import opened Types
  import Validation

  /** Which callback a drop ends in, if any. */
  datatype DropEvent = NoAction | ErrorRaised(error: AppError) | FileSelected(file: File)

  /** `onDrop`: nothing for an empty list; otherwise only the first file is validated and routed. */
  function OnDrop(acceptedFiles: seq<File>): (e: DropEvent)
    ensures acceptedFiles == [] <==> e.NoAction?
    ensures acceptedFiles != [] ==>
      match Validation.ValidateBlueprintFile(acceptedFiles[0])
      case Some(err) => e == ErrorRaised(err)
      case None => e == FileSelected(acceptedFiles[0])
  {
    if |acceptedFiles| == 0 then NoAction
    else
      var file := acceptedFiles[0];
      match Validation.ValidateBlueprintFile(file)
      case Some(err) => ErrorRaised(err)
      case None => FileSelected(file)
  }

  /** Files after the first never influence the outcome. */
  lemma OnlyFirstFileCounts(file: File, rest: seq<File>, other: seq<File>)
    ensures OnDrop([file] + rest) == OnDrop([file] + other)
  {
    assert ([file] + rest)[0] == file && ([file] + other)[0] == file;
  }

  /** A file is selected exactly when it passes validation; an error is raised exactly when it does not. */
  lemma SelectedIffValid(file: File, rest: seq<File>)
    ensures OnDrop([file] + rest) == FileSelected(file) <==> Validation.ValidateBlueprintFile(file).None?
    ensures OnDrop([file] + rest).ErrorRaised? <==> Validation.ValidateBlueprintFile(file).Some?
  {
    assert ([file] + rest)[0] == file;
  }

  /** The `accept` map handed to the drop-zone widget: MIME type to extensions. */
  const DropzoneAccept: seq<(string, seq<string>)> := [
    ("image/png", [".png"]),
    ("image/jpeg", [".jpg", ".jpeg"]),
    ("image/tiff", [".tiff", ".tif"])
  ]
  const DropzoneMaxSize: nat := 10 * 1024 * 1024
  const DropzoneMultiple: bool := false

  /**
   * The widget's limits agree with the validator: the same size limit, the same
   * extensions, and MIME types that the validator accepts too (it also takes `image/jpg`).
   */
  lemma DropzoneAgreesWithValidator()
    ensures DropzoneMaxSize == Validation.MaxFileSize
    ensures !DropzoneMultiple
    ensures (set i, e | 0 <= i < |DropzoneAccept| && e in DropzoneAccept[i].1 :: e)
         == (set e | e in Validation.AllowedExtensions)
    ensures forall i :: 0 <= i < |DropzoneAccept| ==> DropzoneAccept[i].0 in Validation.AllowedTypes
    ensures "image/jpg" in Validation.AllowedTypes
    ensures forall i :: 0 <= i < |DropzoneAccept| ==> DropzoneAccept[i].0 != "image/jpg"
  {
    var fromAccept := set i, e | 0 <= i < |DropzoneAccept| && e in DropzoneAccept[i].1 :: e;
    assert ".png" in DropzoneAccept[0].1;
    assert ".jpg" in DropzoneAccept[1].1 && ".jpeg" in DropzoneAccept[1].1;
    assert ".tiff" in DropzoneAccept[2].1 && ".tif" in DropzoneAccept[2].1;
    assert fromAccept == {".png", ".jpg", ".jpeg", ".tiff", ".tif"};
  }
}

=== FILE: validation.dfy ===
/**
 * The pre-flight check on a candidate upload: size first, then type, where the type
 * passes if either the declared MIME type or the file-name extension is allowed.
 */
module Validation {
  import opened Wrappers
  import opened Text
  import opened Types

  /** 10 MiB, inclusive. */
  const MaxFileSize: nat := 10 * 1024 * 1024
  const AllowedTypes: seq<string> := ["image/png", "image/jpeg", "image/jpg", "image/tiff"]
  const AllowedExtensions: seq<string> := [".png", ".jpg", ".jpeg", ".tiff", ".tif"]

  const TooLargeMessage := "File size must be under 10MB"
  const InvalidFormatMessage := "Please upload a PNG, JPG, or TIFF file"
  const UnexpectedMessage := "An unexpected error occurred"

  /** `'.' + name.split('.').pop()?.toLowerCase()`. */
  function FileExtension(name: string): (ext: string)
    ensures ext == "." + LowerAscii(AfterLast(name, '.'))
  {
    LastPieceIsAfterLast(name, '.');
    "." + LowerAscii(Last(Split(name, ['.'])))
  }

  /** A name without a dot yields '.' followed by the whole lower-cased name. */
  lemma ExtensionWithoutDot(name: string)
    requires '.' !in name
    ensures FileExtension(name) == "." + LowerAscii(name)
  {
  }

  /** The extension never holds a second dot: it is what follows the last one. */
  lemma ExtensionHasOneDot(name: string)
    ensures var ext := FileExtension(name); |ext| >= 1 && ext[0] == '.' && '.' !in ext[1..]
  {
    var tail := AfterLast(name, '.');
    var ext := FileExtension(name);
    assert ext[1..] == LowerAscii(tail);
    forall k | 0 <= k < |tail| ensures LowerAscii(tail)[k] != '.' {
      assert tail[k] != '.';
    }
  }

  /**
   * `(size / 1024 / 1024).toFixed(2)` as a count of hundredths: the hundredth of a MiB
   * nearest to the size, halves going up. (size / 2^20 is exact in binary, so toFixed
   * rounds the exact quotient.)
   */
  function SizeInHundredthsMiB(size: nat): (h: nat)
    ensures h * 1048576 - 524288 <= size * 100 < h * 1048576 + 524288
  {
    (size * 100 + 524288) / 1048576
  }

  /** A count of hundredths written with two decimals, `I.FF`. */
  function FixedTwo(h: nat): (s: string)
    ensures |s| >= 4 && s[|s| - 3] == '.'
    ensures IsDigits(s[..|s| - 3]) && (|s| > 4 ==> s[0] != '0')
    ensures IsDigits(s[|s| - 2..]) && DecimalValue(s[|s| - 2..]) == h % 100
    ensures IsDigits(s[..|s| - 3] + s[|s| - 2..]) && DecimalValue(s[..|s| - 3] + s[|s| - 2..]) == h
  {
    var whole := NatToString(h / 100);
    var cents := TwoDigits(h % 100);
    FixedTwoValue(h, whole, cents);
    var s := whole + "." + cents;
    assert s[..|s| - 3] == whole && s[|s| - 2..] == cents;
    s
  }

  /** The two digits of a number below 100. */
  function TwoDigits(n: nat): (d: string)
    requires n < 100
    ensures |d| == 2 && IsDigits(d) && DecimalValue(d) == n
  {
    var d := [DigitChar(n / 10), DigitChar(n % 10)];
    assert d[..1] == [DigitChar(n / 10)] && d[..1][..0] == [];
    assert DecimalValue(d[..1]) == n / 10;
    assert d[1] as int - '0' as int == n % 10;
    d
  }

  /** The whole part followed by the two decimals reads as the count of hundredths. */
  lemma FixedTwoValue(h: nat, whole: string, cents: string)
    requires whole == NatToString(h / 100) && cents == TwoDigits(h % 100)
    ensures IsDigits(whole + cents) && DecimalValue(whole + cents) == h
  {
    NatToStringRoundTrip(h / 100);
    DecimalValueAppend(whole, cents);
    assert Pow10(2) == 100;
  }

  /** The error for a file over the limit. */
  function TooLargeError(size: nat): (e: AppError)
    ensures e.kind == FileTooLarge && e.message == TooLargeMessage && e.details.Some?
    ensures var d := e.details.value;
      && |d| >= 19 && d[..13] == "Your file is " && d[|d| - 2..] == "MB"
      && d[13..|d| - 2] == FixedTwo(SizeInHundredthsMiB(size))
  {
    var size := FixedTwo(SizeInHundredthsMiB(size));
    var d := "Your file is " + size + "MB";
    assert d[..13] == "Your file is " && d[|d| - 2..] == "MB" && d[13..|d| - 2] == size;
    AppError(FileTooLarge, TooLargeMessage, Some(d))
  }

  /** The error for a file whose type and extension are both refused. */
  function InvalidFormatError(mimeType: string): (e: AppError)
    ensures e.kind == InvalidFormat && e.message == InvalidFormatMessage
    ensures e.details == Some("Received: " + (if mimeType == "" then "unknown type" else mimeType))
  {
    AppError(InvalidFormat, InvalidFormatMessage,
      Some("Received: " + (if mimeType == "" then "unknown type" else mimeType)))
  }

  /** `validateBlueprintFile`: `None` stands for `null`, "no error". */
  function ValidateBlueprintFile(file: File): (r: Option<AppError>)
    ensures r.None? <==>
      file.size <= MaxFileSize && (file.mimeType in AllowedTypes || FileExtension(file.name) in AllowedExtensions)
    ensures r.Some? && r.value.kind == FileTooLarge <==> file.size > MaxFileSize
    ensures r.Some? && r.value.kind == InvalidFormat <==>
      file.size <= MaxFileSize && file.mimeType !in AllowedTypes && FileExtension(file.name) !in AllowedExtensions
    ensures r.Some? ==> r.value.details.Some?
  {
    if file.size > MaxFileSize then
      Some(TooLargeError(file.size))
    else
      var isValidType := file.mimeType in AllowedTypes;
      var isValidExtension := FileExtension(file.name) in AllowedExtensions;
      if !isValidType && !isValidExtension then Some(InvalidFormatError(file.mimeType))
      else None
  }

  /** The size check comes first: an oversized file fails the same way whatever its name or type. */
  lemma SizeCheckShortCircuits(a: File, b: File)
    requires a.size == b.size > MaxFileSize
    ensures ValidateBlueprintFile(a) == ValidateBlueprintFile(b) == Some(TooLargeError(a.size))
  {
  }

  /** Exactly 10 MiB is not too large. */
  lemma LimitIsInclusive(name: string, mimeType: string)
    ensures var r := ValidateBlueprintFile(File(name, MaxFileSize, mimeType));
            r.None? || r.value.kind == InvalidFormat
  {
  }

  /** The extension is compared in lower case: `.PNG` counts as `.png`. */
  lemma UpperCaseExtension(stem: string)
    ensures FileExtension(stem + ".PNG") == ".png"
  {
    var name := stem + ".PNG";
    AfterLastUnique(name, '.', "PNG");
    assert LowerAscii("PNG") == "png";
  }

  /** An allowed extension rescues an empty or wrong MIME type. */
  lemma ExtensionFallback(stem: string, mimeType: string)
    ensures ValidateBlueprintFile(File(stem + ".PNG", 1024, mimeType)).None?
  {
    UpperCaseExtension(stem);
    assert AllowedExtensions[0] == ".png";
  }

  /** No allowed MIME type is written in upper case. */
  lemma UpperCaseTypeRefused()
    ensures "IMAGE/PNG" !in AllowedTypes
  {
    forall t | t in AllowedTypes
      ensures t != "IMAGE/PNG"
    {
      assert t[0] == 'i';
    }
  }

  /** The MIME comparison is exact: an upper-case type does not rescue a refused extension. */
  lemma MimeTypeIsCaseSensitive(name: string)
    requires FileExtension(name) !in AllowedExtensions
    ensures ValidateBlueprintFile(File(name, 1024, "IMAGE/PNG")) == Some(InvalidFormatError("IMAGE/PNG"))
  {
    UpperCaseTypeRefused();
    assert "IMAGE/PNG" != "";
  }

  /** A thrown value as `getErrorMessage` sees it. */
  datatype Caught = ErrorObject(message: string) | StringValue(text: string) | OtherValue

  /** `getErrorMessage`: an Error's message, a string itself, otherwise a fixed fallback. */
  function GetErrorMessage(error: Caught): (m: string)
    ensures error.ErrorObject? ==> m == error.message
    ensures error.StringValue? ==> m == error.text
    ensures error.OtherValue? ==> m == UnexpectedMessage
  {
    match error
    case ErrorObject(message) => message
    case StringValue(text) => text
    case OtherValue => UnexpectedMessage
  }
}

=== FILE: workflow.dfy ===
/**
 * The application workflow: the processing status, the blueprint, the room list and
 * the selection, with the handlers that change them, and the pure list operations
 * (merge, delete, selection rendering, export) those handlers apply.
 */
module Workflow {
  import opened Wrappers
  import opened Types
  import Coordinates
  import DetectionClient

  /** `{...value}` for one key: the patch's value when the key is present. */
  function Over<T>(o: Option<T>, current: T): (v: T)
    ensures o.Some? ==> v == o.value
    ensures o.None? ==> v == current
  {
    if o.Some? then o.value else current
  }

  const EmptyPatch := RoomPatch(None, None, None, None, None, None, None, None)

  /** `{...room, ...updates}`: every key present in the patch wins, every absent key is kept. */
  function Merge(room: CanvasRoom, patch: RoomPatch): (r: CanvasRoom)
    ensures r.x == Over(patch.x, room.x) && r.y == Over(patch.y, room.y)
    ensures r.width == Over(patch.width, room.width) && r.height == Over(patch.height, room.height)
    ensures r.id == Over(patch.id, room.id) && r.confidence == Over(patch.confidence, room.confidence)
    ensures r.nameHint == Over(patch.nameHint, room.nameHint) && r.selected == (if patch.selected.Some? then patch.selected else room.selected)
  {
    CanvasRoom(
      Over(patch.id, room.id), Over(patch.confidence, room.confidence), Over(patch.nameHint, room.nameHint),
      Over(patch.x, room.x), Over(patch.y, room.y), Over(patch.width, room.width), Over(patch.height, room.height),
      if patch.selected.Some? then patch.selected else room.selected)
  }

  /** Two spreads in a row: the later patch's keys win. */
  function Then(first: RoomPatch, second: RoomPatch): RoomPatch {
    RoomPatch(
      if second.id.Some? then second.id else first.id,
      if second.confidence.Some? then second.confidence else first.confidence,
      if second.nameHint.Some? then second.nameHint else first.nameHint,
      if second.x.Some? then second.x else first.x,
      if second.y.Some? then second.y else first.y,
      if second.width.Some? then second.width else first.width,
      if second.height.Some? then second.height else first.height,
      if second.selected.Some? then second.selected else first.selected)
  }

  lemma MergeEmptyIsIdentity(room: CanvasRoom)
    ensures Merge(room, EmptyPatch) == room
  {
  }

  /** Applying the same patch twice is applying it once. */
  lemma MergeIsIdempotent(room: CanvasRoom, patch: RoomPatch)
    ensures Merge(Merge(room, patch), patch) == Merge(room, patch)
  {
  }

  /** Successive merges compose into one merge of the combined patch. */
  lemma MergeComposes(room: CanvasRoom, p: RoomPatch, q: RoomPatch)
    ensures Merge(Merge(room, p), q) == Merge(room, Then(p, q))
  {
  }

  /** `handleRoomUpdate`'s map: every room with the id is merged, every other room is kept, in order. */
  function UpdateRooms(rooms: seq<CanvasRoom>, id: string, patch: RoomPatch): (r: seq<CanvasRoom>)
    ensures |r| == |rooms|
    ensures forall i :: 0 <= i < |rooms| && rooms[i].id == id ==> r[i] == Merge(rooms[i], patch)
    ensures forall i :: 0 <= i < |rooms| && rooms[i].id != id ==> r[i] == rooms[i]
  {
    seq(|rooms|, i requires 0 <= i < |rooms| => if rooms[i].id == id then Merge(rooms[i], patch) else rooms[i])
  }

  /** An id that no room carries changes nothing. */
  lemma UpdateUnknownIdIsNoop(rooms: seq<CanvasRoom>, id: string, patch: RoomPatch)
    requires forall i :: 0 <= i < |rooms| ==> rooms[i].id != id
    ensures UpdateRooms(rooms, id, patch) == rooms
  {
  }

  /** Repeating an update, even one that renames the room, changes nothing more. */
  lemma UpdateIsIdempotent(rooms: seq<CanvasRoom>, id: string, patch: RoomPatch)
    ensures UpdateRooms(UpdateRooms(rooms, id, patch), id, patch) == UpdateRooms(rooms, id, patch)
  {
    var once := UpdateRooms(rooms, id, patch);
    var twice := UpdateRooms(once, id, patch);
    forall i | 0 <= i < |rooms|
      ensures twice[i] == once[i]
    {
      if rooms[i].id == id {
        MergeIsIdempotent(rooms[i], patch);
      }
    }
  }

  /** `handleDeleteRoom`'s filter: the rooms whose id differs, in their order. */
  function DeleteRooms(rooms: seq<CanvasRoom>, id: string): (r: seq<CanvasRoom>)
    ensures |r| <= |rooms|
    ensures forall c :: c in r ==> c in rooms && c.id != id
  {
    if rooms == [] then []
    else (if rooms[0].id == id then [] else [rooms[0]]) + DeleteRooms(rooms[1..], id)
  }

  /** Every room with another id survives the delete. */
  lemma {:induction false} DeleteKeepsOthers(rooms: seq<CanvasRoom>, id: string, c: CanvasRoom)
    requires c in rooms && c.id != id
    ensures c in DeleteRooms(rooms, id)
  {
    if rooms[0] != c {
      assert c in rooms[1..];
      DeleteKeepsOthers(rooms[1..], id, c);
    }
  }

  /** The filter works piecewise, so the kept rooms stay in their relative order. */
  lemma {:induction false} DeleteDistributes(a: seq<CanvasRoom>, b: seq<CanvasRoom>, id: string)
    ensures DeleteRooms(a + b, id) == DeleteRooms(a, id) + DeleteRooms(b, id)
  {
    if a == [] {
      assert a + b == b;
    } else {
      assert (a + b)[1..] == a[1..] + b;
      DeleteDistributes(a[1..], b, id);
    }
  }

  /** Deleting an id that no room carries changes nothing. */
  lemma {:induction false} DeleteUnknownIdIsNoop(rooms: seq<CanvasRoom>, id: string)
    requires forall i :: 0 <= i < |rooms| ==> rooms[i].id != id
    ensures DeleteRooms(rooms, id) == rooms
  {
    if rooms != [] {
      DeleteUnknownIdIsNoop(rooms[1..], id);
    }
  }

  /** Deleting twice is deleting once. */
  lemma DeleteIsIdempotent(rooms: seq<CanvasRoom>, id: string)
    ensures DeleteRooms(DeleteRooms(rooms, id), id) == DeleteRooms(rooms, id)
  {
    var once := DeleteRooms(rooms, id);
    forall i | 0 <= i < |once|
      ensures once[i].id != id
    {
      assert once[i] in once;
    }
    DeleteUnknownIdIsNoop(once, id);
  }

  /** The `selected` flag the canvas receives: true exactly for the rooms whose id is the stored one. */
  function RenderRooms(rooms: seq<CanvasRoom>, selectedId: Option<string>): (r: seq<CanvasRoom>)
    ensures |r| == |rooms|
    ensures forall i :: 0 <= i < |rooms| ==>
      r[i] == rooms[i].(selected := Some(selectedId == Some(rooms[i].id)))
  {
    seq(|rooms|, i requires 0 <= i < |rooms| => rooms[i].(selected := Some(selectedId == Some(rooms[i].id))))
  }

  predicate UniqueIds(rooms: seq<CanvasRoom>) {
    forall i, j :: 0 <= i < j < |rooms| ==> rooms[i].id != rooms[j].id
  }

  /** With distinct ids at most one room is drawn as selected, and none when nothing is stored. */
  lemma AtMostOneSelected(rooms: seq<CanvasRoom>, selectedId: Option<string>)
    requires UniqueIds(rooms)
    ensures var r := RenderRooms(rooms, selectedId);
      forall i, j :: 0 <= i < |r| && 0 <= j < |r| && r[i].selected == Some(true) && r[j].selected == Some(true) ==> i == j
    ensures selectedId.None? ==> forall c :: c in RenderRooms(rooms, selectedId) ==> c.selected == Some(false)
  {
  }

  /** The `bounds` object of an exported room. */
  datatype Bounds = Bounds(x: real, y: real, width: real, height: real)

  /** One exported room: `{id, name, confidence, bounds}`; an absent name hint stays absent. */
  datatype ExportedRoom = ExportedRoom(id: string, name: Option<string>, confidence: real, bounds: Bounds)

  /** The export document: the blueprint file name (absent with no file), the rooms and a timestamp. */
  datatype ExportData = ExportData(blueprint: Option<string>, rooms: seq<ExportedRoom>, timestamp: string)

  const ExportFileName := "room-detection-results.json"
  const ExportIndent: nat := 2

  function ExportRoom(c: CanvasRoom): (e: ExportedRoom)
    ensures ImportRoom(e) == c.(selected := None)
  {
    ExportedRoom(c.id, c.nameHint, c.confidence, Bounds(c.x, c.y, c.width, c.height))
  }

  /** Reads an exported room back as a canvas room without a selected flag. */
  function ImportRoom(e: ExportedRoom): CanvasRoom {
    CanvasRoom(e.id, e.confidence, e.name, e.bounds.x, e.bounds.y, e.bounds.width, e.bounds.height, None)
  }

  /** The export loses only the selected flag. */
  lemma ExportRoomRoundTrip(c: CanvasRoom)
    ensures ImportRoom(ExportRoom(c)) == c.(selected := None)
  {
  }

  /** `handleExport`'s data: every room in order, recoverable but for its selected flag. */
  function ExportDataOf(file: Option<File>, rooms: seq<CanvasRoom>, timestamp: string): (d: ExportData)
    ensures d.blueprint == (if file.Some? then Some(file.value.name) else None)
    ensures d.timestamp == timestamp
    ensures |d.rooms| == |rooms|
    ensures forall i :: 0 <= i < |rooms| ==> ImportRoom(d.rooms[i]) == rooms[i].(selected := None)
  {
    ExportData(
      if file.Some? then Some(file.value.name) else None,
      seq(|rooms|, i requires 0 <= i < |rooms| => ExportRoom(rooms[i])),
      timestamp)
  }

  /** The state of the application component. */
  class App {
    var status: ProcessingStatus
    var blueprintFile: Option<File>
    var blueprintUrl: string
    var rooms: seq<CanvasRoom>
    var selectedRoomId: Option<string>
    var error: Option<AppError>
    var detectionModel: DetectionModel

    /**
     * No handler sets `uploading`; an error status always has an error; entering idle or
     * processing clears the error; the model stays opencv, since the control panel's props
     * have no model callback and nothing else calls `setDetectionModel`.
     */
    ghost predicate Valid()
      reads this
    {
      && status != Uploading
      && (status == Error ==> error.Some?)
      && (status == Idle || status == Processing ==> error.None?)
      && detectionModel == OpenCV
    }

    constructor()
      ensures Valid()
      ensures status == Idle && blueprintFile.None? && blueprintUrl == "" && rooms == []
      ensures selectedRoomId.None? && error.None? && detectionModel == OpenCV
    {
      status := Idle;
      blueprintFile := None;
      blueprintUrl := "";
      rooms := [];
      selectedRoomId := None;
      error := None;
      detectionModel := OpenCV;
    }

    /** `handleFileSelect` up to the awaited detection call; `url` is the preview object URL. */
    method BeginFileSelect(file: File, url: string)
      requires Valid()
      modifies this
      ensures Valid()
      ensures error.None? && blueprintFile == Some(file) && blueprintUrl == url && status == Processing
      ensures rooms == old(rooms) && selectedRoomId == old(selectedRoomId) && detectionModel == old(detectionModel)
    {
      error := None;
      blueprintFile := Some(file);
      blueprintUrl := url;
      status := Processing;
    }

    /**
     * The continuation of `handleFileSelect` once detection settles, with the image's
     * width and height as read at that moment. Nothing checks that the request is still
     * the current one.
     */
    method CompleteDetection(result: Result<DetectionResponse, AppError>, imageWidth: real, imageHeight: real)
      requires Valid()
      modifies this
      ensures Valid()
      ensures result.Ok? ==>
        rooms == Coordinates.DetectedRoomsToCanvas(result.value.rooms, imageWidth, imageHeight)
        && status == Success && error == old(error)
      ensures result.Err? ==> error == Some(result.error) && status == Error && rooms == old(rooms)
      ensures blueprintFile == old(blueprintFile) && blueprintUrl == old(blueprintUrl)
      ensures selectedRoomId == old(selectedRoomId) && detectionModel == old(detectionModel)
    {
      match result
      case Ok(response) =>
        rooms := Coordinates.DetectedRoomsToCanvas(response.rooms, imageWidth, imageHeight);
        status := Success;
      case Err(e) =>
        error := Some(e);
        status := Error;
    }

    /** `handleFileSelect` from start to end: the request carries the file and no options. */
    method HandleFileSelect(file: File, url: string, transport: seq<DetectionClient.Attempt<DetectionResponse>>,
                            imageWidth: real, imageHeight: real)
      returns (requests: nat)
      requires Valid() && |transport| > DetectionClient.MaxRetries
      modifies this
      ensures Valid()
      ensures DetectionClient.RetryStopsAt(transport, requests)
      ensures var last := transport[requests - 1];
        && (last.Delivered? ==>
              status == Success && error.None?
              && rooms == Coordinates.DetectedRoomsToCanvas(last.value.rooms, imageWidth, imageHeight))
        && (last.Failed? ==>
              status == Error && rooms == old(rooms)
              && error == Some(DetectionClient.HandleApiError(DetectionClient.FromClient(last.failure))))
      ensures blueprintFile == Some(file) && blueprintUrl == url && selectedRoomId == old(selectedRoomId)
    {
      BeginFileSelect(file, url);
      var result, form;
      result, form, requests := DetectionClient.DetectRooms(DetectionRequest(file, None), transport);
      CompleteDetection(result, imageWidth, imageHeight);
    }

    /** `handleError`: an upload or validation error goes straight to the error status. */
    method HandleError(e: AppError)
      requires Valid()
      modifies this
      ensures Valid()
      ensures error == Some(e) && status == Error
      ensures rooms == old(rooms) && blueprintFile == old(blueprintFile) && blueprintUrl == old(blueprintUrl)
      ensures selectedRoomId == old(selectedRoomId) && detectionModel == old(detectionModel)
    {
      error := Some(e);
      status := Error;
    }

    /** `handleRoomSelect`: stores the id, whether or not a room carries it. */
    method HandleRoomSelect(roomId: string)
      requires Valid()
      modifies this
      ensures Valid()
      ensures selectedRoomId == Some(roomId)
      ensures status == old(status) && error == old(error) && rooms == old(rooms)
      ensures blueprintFile == old(blueprintFile) && blueprintUrl == old(blueprintUrl)
      ensures detectionModel == old(detectionModel)
    {
      selectedRoomId := Some(roomId);
    }

    method HandleRoomUpdate(roomId: string, updates: RoomPatch)
      requires Valid()
      modifies this
      ensures Valid()
      ensures rooms == UpdateRooms(old(rooms), roomId, updates)
      ensures status == old(status) && error == old(error) && selectedRoomId == old(selectedRoomId)
      ensures blueprintFile == old(blueprintFile) && blueprintUrl == old(blueprintUrl)
      ensures detectionModel == old(detectionModel)
    {
      rooms := UpdateRooms(rooms, roomId, updates);
    }

    /** `handleReprocess`: back to the initial state, whatever the status was. */
    method HandleReprocess()
      requires Valid()
      modifies this
      ensures Valid()
      ensures status == Idle && blueprintFile.None? && blueprintUrl == "" && rooms == []
      ensures selectedRoomId.None? && error.None? && detectionModel == old(detectionModel)
    {
      rooms := [];
      selectedRoomId := None;
      blueprintFile := None;
      blueprintUrl := "";
      status := Idle;
      error := None;
    }

    /** `handleDeleteRoom`: filters the rooms; clears the selection only when it was that id. */
    method HandleDeleteRoom(roomId: string)
      requires Valid()
      modifies this
      ensures Valid()
      ensures rooms == DeleteRooms(old(rooms), roomId)
      ensures selectedRoomId == (if old(selectedRoomId) == Some(roomId) then None else old(selectedRoomId))
      ensures status == old(status) && error == old(error)
      ensures blueprintFile == old(blueprintFile) && blueprintUrl == old(blueprintUrl)
      ensures detectionModel == old(detectionModel)
    {
      rooms := DeleteRooms(rooms, roomId);
      if selectedRoomId == Some(roomId) {
        selectedRoomId := None;
      }
    }

    /** `handleExport`'s document; the clock reading is a parameter and nothing changes. */
    method HandleExport(timestamp: string) returns (data: ExportData)
      ensures data.blueprint == (if blueprintFile.Some? then Some(blueprintFile.value.name) else None)
      ensures |data.rooms| == |rooms|
      ensures forall i :: 0 <= i < |rooms| ==> ImportRoom(data.rooms[i]) == rooms[i].(selected := None)
      ensures data.timestamp == timestamp
    {
      data := ExportDataOf(blueprintFile, rooms, timestamp);
    }

    /** The rooms as the canvas draws them. */
    function CanvasRooms(): (r: seq<CanvasRoom>)
      reads this
      ensures |r| == |rooms|
      ensures forall i :: 0 <= i < |r| ==> (r[i].selected == Some(true) <==> selectedRoomId == Some(rooms[i].id))
    {
      RenderRooms(rooms, selectedRoomId)
    }
  }

  /**
   * A reprocess while detection is in flight does not stop the late result: it is
   * applied to the reset state, which then shows success with rooms and no blueprint.
   */
  method LateResultAfterReprocess(app: App, file: File, url: string, response: DetectionResponse,
                                  imageWidth: real, imageHeight: real)
    requires app.Valid()
    modifies app
    ensures app.Valid()
    ensures app.status == Success && app.blueprintFile.None? && app.blueprintUrl == ""
    ensures app.rooms == Coordinates.DetectedRoomsToCanvas(response.rooms, imageWidth, imageHeight)
  {
    app.BeginFileSelect(file, url);
    app.HandleReprocess();
    app.CompleteDetection(Ok(response), imageWidth, imageHeight);
  }
}

=== FILE: wrappers.dfy ===
/** Optional values and results, standing for `undefined`/`None` and for thrown errors. */
module Wrappers {

  /** A value that may be absent (`undefined` in TypeScript, `None` in Python). */
  datatype Option<+T> = None | Some(value: T)

  /** The outcome of an operation that either yields a value or raises an error. */
  datatype Result<+T, +E> = Ok(value: T) | Err(error: E)
}

=== FILE: yolo_service.dfy ===
/**
 * The `/detect` endpoint of the YOLO backend: its guards, the normalisation of each
 * detector box to 0..1000, the id assignment, the confidence sort and the mapping of
 * failures to HTTP errors. Image decoding and inference are one parameter: the image
 * size and boxes the model reported, or the message of the exception it raised.
 */
module YoloService {
  import opened Wrappers
  import opened Text
  import Sorting
  import Sequences
  import opened RoomDetector

  const ModelNotLoaded := "Model not loaded"
  const ImagePrefix := "image/"
  const YoloModelVersion := "yolov8n_phase2"
  const ServiceName := "ecs-fargate"
  const ProcessingFailedPrefix := "Processing failed: "
  /** What Python reports for `.startswith` on an upload without a content type. */
  const MissingContentTypeMessage := "'NoneType' object has no attribute 'startswith'"

  /** One detector box in pixel corners (`xyxy`) with its confidence. */
  datatype YoloBox = YoloBox(x1: real, y1: real, x2: real, y2: real, confidence: real)

  /** What decoding and inference produced: the image size and the boxes, in detector order. */
  datatype Inference = Inference(width: Dim, height: Dim, boxes: seq<YoloBox>)

  datatype DetectResponse =
    | Detected(rooms: seq<Room>, processingTimeMs: int, modelVersion: string, service: string)
    | HttpError(statusCode: int, detail: string)

  function InvalidTypeDetail(contentType: string): string {
    "Invalid file type: " + contentType + ". Must be an image."
  }

  /** `int((v / dim) * 1000)` on a float coordinate. */
  function ScaleToRange(v: real, dim: Dim): (n: int)
    ensures v == 0.0 ==> n == 0
    ensures v == dim as real ==> n == 1000
    ensures v >= 0.0 ==> n >= 0
  {
    assert v == dim as real ==> v / dim as real * NormalizedRange == NormalizedRange;
    Trunc(v / dim as real * NormalizedRange)
  }

  /** A coordinate inside the image lands in 0..1000, and order is kept. */
  lemma ScaleToRangeBounds(v: real, w: real, dim: Dim)
    requires 0.0 <= v <= w <= dim as real
    ensures 0 <= ScaleToRange(v, dim) <= ScaleToRange(w, dim) <= 1000
    ensures w == dim as real ==> ScaleToRange(w, dim) == 1000
  {
    var d := dim as real;
    DivMonotone(v, w, d);
    DivMonotone(w, d, d);
    assert d / d == 1.0;
    DivMonotone(0.0, v, d);
    ScaleMonotone(v / d, w / d);
    ScaleMonotone(0.0, v / d);
    ScaleMonotone(w / d, 1.0);
  }

  lemma DivMonotone(a: real, b: real, d: real)
    requires 0.0 < d && a <= b
    ensures a / d <= b / d
  {
    assert b / d - a / d == (b - a) / d;
  }

  /** Scaling by 1000 and truncating keeps the order of ratios. */
  lemma ScaleMonotone(p: real, q: real)
    requires 0.0 <= p <= q
    ensures 0 <= Trunc(p * NormalizedRange) <= Trunc(q * NormalizedRange)
  {
  }

  /**
   * The room built from the `idx`-th box: x against the width, y against the height, no name,
   * and the confidence rounded to the nearest hundredth.
   */
  function BoxRoom(idx: nat, b: YoloBox, width: Dim, height: Dim): (r: Room)
    ensures r.id == RoomId(idx) && r.nameHint.None?
    ensures -0.005 <= b.confidence - r.confidence <= 0.005
  {
    Room(RoomId(idx),
         IntBox(ScaleToRange(b.x1, width), ScaleToRange(b.y1, height), ScaleToRange(b.x2, width), ScaleToRange(b.y2, height)),
         Round2(b.confidence), None)
  }

  /** A box inside the image becomes a well-formed box inside 0..1000. */
  lemma BoxRoomInRange(idx: nat, b: YoloBox, width: Dim, height: Dim)
    requires 0.0 <= b.x1 <= b.x2 <= width as real && 0.0 <= b.y1 <= b.y2 <= height as real
    ensures var box := BoxRoom(idx, b, width, height).box;
      0 <= box.xMin <= box.xMax <= 1000 && 0 <= box.yMin <= box.yMax <= 1000
  {
    ScaleToRangeBounds(b.x1, b.x2, width);
    ScaleToRangeBounds(b.y1, b.y2, height);
  }

  /** The rooms in detector order, before the sort. */
  function DetectorOrderRooms(inference: Inference): (rooms: seq<Room>)
    ensures |rooms| == |inference.boxes|
  {
    seq(|inference.boxes|, i requires 0 <= i < |inference.boxes| =>
      BoxRoom(i, inference.boxes[i], inference.width, inference.height))
  }

  /** Ids follow detector order, so they are distinct. */
  lemma DetectorOrderIdsUnique(inference: Inference)
    ensures UniqueIds(DetectorOrderRooms(inference))
  {
  }

  /** The loop that appends one room per box. */
  method BuildRooms(inference: Inference) returns (rooms: seq<Room>)
    ensures rooms == DetectorOrderRooms(inference)
  {
    rooms := Sequences.MapWithIndex(inference.boxes,
      (idx: nat, b: YoloBox) => BoxRoom(idx, b, inference.width, inference.height));
    assert rooms == DetectorOrderRooms(inference);
  }

  /**
   * `detect_rooms`: 503 before anything else when no model is loaded, then the content
   * type check, then inference; any other failure becomes 500 "Processing failed: …".
   */
  method DetectEndpoint(modelLoaded: bool, contentType: Option<string>, inference: Result<Inference, string>,
                        elapsedMs: int)
    returns (response: DetectResponse)
    ensures !modelLoaded ==> response == HttpError(503, ModelNotLoaded)
    ensures modelLoaded && contentType.None? ==>
      response == HttpError(500, ProcessingFailedPrefix + MissingContentTypeMessage)
    ensures modelLoaded && contentType.Some? && !StartsWith(contentType.value, ImagePrefix) ==>
      response == HttpError(400, InvalidTypeDetail(contentType.value))
    ensures modelLoaded && contentType.Some? && StartsWith(contentType.value, ImagePrefix) && inference.Err? ==>
      response == HttpError(500, ProcessingFailedPrefix + inference.error)
    ensures response.Detected? <==> modelLoaded && contentType.Some? && StartsWith(contentType.value, ImagePrefix) && inference.Ok?
    ensures response.Detected? ==>
      && response.modelVersion == YoloModelVersion
      && response.service == ServiceName
      && response.processingTimeMs == elapsedMs
      && Sorting.SortedDesc(response.rooms, ConfidenceKey)
      && Sorting.SameGroups(response.rooms, DetectorOrderRooms(inference.value), ConfidenceKey)
      && multiset(response.rooms) == multiset(DetectorOrderRooms(inference.value))
  {
    if !modelLoaded {
      return HttpError(503, ModelNotLoaded);
    }
    if contentType.None? {
      return HttpError(500, ProcessingFailedPrefix + MissingContentTypeMessage);
    }
    if !StartsWith(contentType.value, ImagePrefix) {
      return HttpError(400, InvalidTypeDetail(contentType.value));
    }
    if inference.Err? {
      return HttpError(500, ProcessingFailedPrefix + inference.error);
    }
    var rooms := BuildRooms(inference.value);
    rooms := Sorting.SortDesc(rooms, ConfidenceKey);
    return Detected(rooms, elapsedMs, YoloModelVersion, ServiceName);
  }

  /**
   * The sort is stable, so the answer is fully determined: two lists ordered by rounded confidence
   * that keep detector order among equal confidences are the same list.
   */
  lemma DetectedOrderIsDetermined(inference: Inference, r1: seq<Room>, r2: seq<Room>)
    requires Sorting.SortedDesc(r1, ConfidenceKey) && Sorting.SameGroups(r1, DetectorOrderRooms(inference), ConfidenceKey)
    requires Sorting.SortedDesc(r2, ConfidenceKey) && Sorting.SameGroups(r2, DetectorOrderRooms(inference), ConfidenceKey)
    ensures r1 == r2
  {
    Sorting.StableSortIsUnique(r1, r2, ConfidenceKey);
  }

  /**
   * Rounding makes ties: confidences 0.871 (box 0) and 0.874 (box 1) both become 0.87, and the
   * stable sort keeps `room_000` first.
   */
  lemma RoundedTieKeepsDetectorOrder(width: Dim, height: Dim, rooms: seq<Room>)
    requires var inference := Inference(width, height, [YoloBox(0.0, 0.0, 1.0, 1.0, 0.871), YoloBox(0.0, 0.0, 1.0, 1.0, 0.874)]);
      Sorting.SortedDesc(rooms, ConfidenceKey) && Sorting.SameGroups(rooms, DetectorOrderRooms(inference), ConfidenceKey)
    ensures |rooms| == 2 && rooms[0].id == RoomId(0) && rooms[1].id == RoomId(1)
    ensures rooms[0].confidence == rooms[1].confidence == 0.87
  {
    var inference := Inference(width, height, [YoloBox(0.0, 0.0, 1.0, 1.0, 0.871), YoloBox(0.0, 0.0, 1.0, 1.0, 0.874)]);
    var original := DetectorOrderRooms(inference);
    assert Round2(0.871) == 0.87 && Round2(0.874) == 0.87;
    assert original[0].confidence == 0.87 && original[1].confidence == 0.87;
    Sorting.StableSortIsUnique(rooms, original, ConfidenceKey);
  }

  /** Sorting only reorders: the answer holds one room per box, each with a distinct id and no name. */
  lemma DetectedRoomsAreTheBoxes(inference: Inference, rooms: seq<Room>)
    requires multiset(rooms) == multiset(DetectorOrderRooms(inference))
    ensures |rooms| == |inference.boxes|
    ensures forall r :: r in rooms ==> r.nameHint.None?
    ensures forall r :: r in rooms ==> exists i :: 0 <= i < |inference.boxes| && r == BoxRoom(i, inference.boxes[i], inference.width, inference.height)
    ensures UniqueIds(rooms)
  {
    var original := DetectorOrderRooms(inference);
    assert |rooms| == |multiset(rooms)| == |multiset(original)| == |original|;
    forall r | r in rooms
      ensures exists i :: 0 <= i < |inference.boxes| && r == BoxRoom(i, inference.boxes[i], inference.width, inference.height)
    {
      assert r in multiset(original);
      var i :| 0 <= i < |original| && original[i] == r;
    }
    DetectorOrderIdsUnique(inference);
    SubMultisetKeepsUniqueIds(original, rooms);
  }
}
